=== FILE: README.md ===
# Animated portfolio widgets — a Dafny model

The portfolio site is made of React widgets. Behind most of them sits a small
update rule that runs once per frame or tick. This project writes those rules
as pure Dafny functions over immutable records and proves what they promise.

The widgets modelled are:

- **Neural-network canvas** (`NeuralNetwork`, `NeuralSignals`). A builder
  turns layer sizes into numbered neurons and capped, distinct incoming
  connections. A per-frame step then advances signals, delivers activations,
  decays and prunes them, fires connections and stimulates the input layer.
- **Cursor particles** (`AICursor`). Eight particles are pulled toward an
  eased cursor, damped, bounced and clamped to the window. Lines join nearby
  particles, and particles near the cursor, with a linear opacity fall-off.
- **Morphing text** (`MorphingText`). A word is typed in prefix by prefix. It
  is scrambled for a few frames with characters from three pools, then
  restored. A paragraph is split into words and rejoined with single spaces.
- **AI terminal** (`AITerminal`). A fixed script of 17 lines is typed or
  printed each cycle, then a random code snippet is shown.
- **Contribution grid** (`DataVisualization`). A 52 × 7 grid of intensities
  is generated, with a range that depends on the week band. Each intensity
  maps to a colour class and a label, and each cell maps to a day offset.
  Twelve month labels are computed, but the markup that would show them is
  commented out.
- **Floating 3D objects** (`FloatingObjects`). Each object eases its scale
  in, drifts toward random targets near its home position, and spins. A
  generator produces the objects.
- **Contact form** (`Contact`). Field edits, the submitting / submitted /
  error transitions around the mail call, the payload that is sent, the
  reset after success, and the mobile breakpoint.

Every `Math.random()` call becomes an explicit argument of type
`Basics.Unit01`, a real in [0,1). Where a loop draws an unknown number of
times, it receives a list of draws. JavaScript numbers are Dafny `real`:
idealised arithmetic, not IEEE doubles. Distances are not computed with
`sqrt`. The caller supplies each distance `d`. The pull takes it together with
the fact `d >= 0 && d*d == dx*dx + dy*dy` (`AICursor.IsDistance`). The line
functions take bare distances, and `AICursor.ParticlePairLines` and
`AICursor.ParticleCursorLines` tie them to the particles' positions.

## Model

| member | source | states |
|---|---|---|
| Basics.PickIndex | threeDPorfolio/src/components/MorphingText.jsx:19 | `floor(r * n)` for `r` in [0,1) is a valid index below `n`, and it is the floor of `r * n` |
| Basics.Filter | threeDPorfolio/src/components/NeuralNetwork.jsx:148-149 | `Array.prototype.filter`: an element is in the result iff it is in the input and satisfies the predicate; order and multiplicity follow from FilterAppend and FilterOne |
| Basics.FilterAppend | threeDPorfolio/src/components/NeuralNetwork.jsx:148-149 | filtering a concatenation is the concatenation of the filtered parts, so kept elements stay in input order |
| Basics.FilterOne | threeDPorfolio/src/components/NeuralNetwork.jsx:148-149 | a one-element list is kept iff its element satisfies the predicate |
| Basics.FilterUniform | threeDPorfolio/src/components/NeuralNetwork.jsx:148-149 | a list all of whose elements pass is kept whole; one all of whose elements fail is dropped |
| Basics.FilterPrefix | threeDPorfolio/src/components/NeuralNetwork.jsx:148-149 | when exactly the first `m` elements pass, the filter keeps exactly those `m` |
| Basics.FilterPrefixParts | threeDPorfolio/src/components/NeuralNetwork.jsx:148-149 | when exactly the first `m` elements pass, the filter keeps that prefix whole and drops the rest entirely |
| Basics.Take | threeDPorfolio/src/components/NeuralNetwork.jsx:150 | `slice(0, n)`: the result has `min(len, n)` elements and agrees with the input on each of them |
| NeuralNetwork.LayerOf | threeDPorfolio/src/components/NeuralNetwork.jsx:25-36 | a global neuron number below the total lies in exactly one layer's block `[Start(k), Start(k) + layers[k])` |
| NeuralNetwork.LayerOfUnique | threeDPorfolio/src/components/NeuralNetwork.jsx:25-36 | any neuron number inside layer `k`'s block has `LayerOf == k`, so the layer blocks do not overlap |
| NeuralNetwork.SlotInside | threeDPorfolio/src/components/NeuralNetwork.jsx:22-32 | `extent / (slots + 1) * (i + 1)` for `i < slots` lies strictly inside `(0, extent)` |
| NeuralNetwork.ReferenceNeurons | threeDPorfolio/src/components/NeuralNetwork.jsx:25-38 | the closed-form neuron list has exactly `sum(layers)` entries, each the reference neuron for its number |
| NeuralNetwork.ReferenceSlot | threeDPorfolio/src/components/NeuralNetwork.jsx:25-38 | neuron `i` of layer `k` gets number `Start(k) + i`, layer tag `k`, and the column and row positions of its slot |
| NeuralNetwork.ReferenceNeuronFacts | threeDPorfolio/src/components/NeuralNetwork.jsx:30-36 | every reference neuron has its number as id, a valid layer tag, a radius in [4,6), and lies strictly inside the canvas |
| NeuralNetwork.ReferenceLayersSorted | threeDPorfolio/src/components/NeuralNetwork.jsx:25-29 | neurons are created layer by layer, so a lower number never has a higher layer tag |
| NeuralNetwork.ReferenceFacts | threeDPorfolio/src/components/NeuralNetwork.jsx:25-38 | the same facts for the whole reference list: ids in creation order, positions inside the canvas, layer tags sorted |
| NeuralNetwork.SampleDistinct | threeDPorfolio/src/components/NeuralNetwork.jsx:46-55 | the rejection loop yields exactly `min(prev, 5)` distinct indices below the previous layer's size, extending what was already chosen |
| NeuralNetwork.FirstDistinctFacts | threeDPorfolio/src/components/NeuralNetwork.jsx:46-55 | keeping each index the first time it appears extends what was chosen, stays duplicate-free and holds exactly the chosen and drawn values |
| NeuralNetwork.DistinctCard | threeDPorfolio/src/components/NeuralNetwork.jsx:46-55 | a duplicate-free list has as many distinct values as entries |
| NeuralNetwork.FirstDistinctCount | threeDPorfolio/src/components/NeuralNetwork.jsx:46-55 | the first occurrences of the drawn indices are as many as the distinct drawn indices |
| NeuralNetwork.SampleDistinctFirst | threeDPorfolio/src/components/NeuralNetwork.jsx:46-55 | the loop succeeds iff the draws hold enough distinct indices after those already chosen, and then yields exactly the first `count` distinct indices in draw order |
| NeuralNetwork.FirstOfLayer | threeDPorfolio/src/components/NeuralNetwork.jsx:42 | `findIndex`: -1 iff no neuron has the layer, otherwise the first position holding it |
| NeuralNetwork.Incoming | threeDPorfolio/src/components/NeuralNetwork.jsx:58-67 | one new connection per chosen index into the new neuron, from a neuron at or after the previous layer's start; distinct indices give distinct sources |
| NeuralNetwork.AddNeuron | threeDPorfolio/src/components/NeuralNetwork.jsx:29-67 | one inner-loop pass pushes exactly the next neuron; in the input layer it always succeeds and adds no connection |
| NeuralNetwork.InitialActivations | threeDPorfolio/src/components/NeuralNetwork.jsx:72-79 | `min(3, layers[0])` activations (none for no layers) on neurons 0, 1, …, each with a value in [0,1) and a decay in [0.95,0.99) |
| NeuralNetwork.CountIntoAppend | threeDPorfolio/src/components/NeuralNetwork.jsx:58-67 | the number of connections into a neuron adds up over concatenated connection lists |
| NeuralNetwork.FirstOfLayerIsStart | threeDPorfolio/src/components/NeuralNetwork.jsx:42 | while building layer `k`, `findIndex` for layer `k-1` lands exactly on that layer's first neuron `Start(k-1)` |
| NeuralNetwork.IncomingFresh | threeDPorfolio/src/components/NeuralNetwork.jsx:42-67 | the new block's connections come from distinct neurons of the previous layer and all go into the new neuron |
| NeuralNetwork.AddNeuronKeepsInv | threeDPorfolio/src/components/NeuralNetwork.jsx:29-67 | adding a neuron keeps the builder invariant: the neurons match the reference list, edges are fresh and distinct per target, and each neuron's fan-in is `min(prev, 5)` |
| NeuralNetwork.BuildFromKeepsInv | threeDPorfolio/src/components/NeuralNetwork.jsx:25-68 | both nested loops together keep the builder invariant from any resumption point to the end |
| NeuralNetwork.AddNeuronSome | threeDPorfolio/src/components/NeuralNetwork.jsx:29-67 | pushing the next neuron succeeds iff it is an input neuron or its draws hold `min(prev, 5)` distinct indices below the previous layer's size |
| NeuralNetwork.BuildFromSome | threeDPorfolio/src/components/NeuralNetwork.jsx:25-68 | both loops run to the end from a resumption point iff every remaining neuron's draws suffice |
| NeuralNetwork.BuildSucceeds | threeDPorfolio/src/components/NeuralNetwork.jsx:13-84 | a build succeeds iff every neuron's draws suffice, so it fails only when some neuron's draws run out |
| NeuralNetwork.BuildNeurons | threeDPorfolio/src/components/NeuralNetwork.jsx:25-38 | a successful build's neuron list equals the closed-form reference list |
| NeuralNetwork.BuildEdges | threeDPorfolio/src/components/NeuralNetwork.jsx:41-67 | a built network has `sum over k >= 1 of min(layers[k-1], 5) * layers[k]` edges; each neuron of layer `k > 0` receives exactly `min(layers[k-1], 5)` of them, from distinct neurons of layer `k-1`; the input layer receives none; every connection is inactive, at progress 0, with strength in [0,1) |
| NeuralNetwork.BuildActivations | threeDPorfolio/src/components/NeuralNetwork.jsx:72-79 | the built network starts with the initial activations on neurons `0 .. min(3, layers[0]) - 1` |
| NeuralNetwork.BuildInputs | threeDPorfolio/src/components/NeuralNetwork.jsx:25-38 | in a built network the first `layers[0]` neurons are exactly the input-layer neurons, numbered in order |
| NeuralNetwork.BuildSound | threeDPorfolio/src/components/NeuralNetwork.jsx:13-84 | a built network has `sum(layers)` neurons with ids in creation order inside the canvas, and every connection joins existing neurons |
| NeuralSignals.AdvanceOne | threeDPorfolio/src/components/NeuralNetwork.jsx:138-178 | an inactive connection is unchanged; an active one gains 0.05 progress, or, on reaching 1, is delivered and becomes inactive with progress 0; endpoints and strength never change |
| NeuralSignals.SignalTravelTime | threeDPorfolio/src/components/NeuralNetwork.jsx:141-144 | a signal fired at progress 0 arrives on exactly the 20th frame, and not earlier |
| NeuralSignals.Arrival | threeDPorfolio/src/components/NeuralNetwork.jsx:154-158 | a delivered activation targets the connection's `to` neuron, with a value in [0.8,1) and a decay in [0.95,0.98) |
| NeuralSignals.Deliver | threeDPorfolio/src/components/NeuralNetwork.jsx:145-170 | the arrival is appended last; at most 20 entries are kept whole; above 20 the rest is exactly the first 15 strong (> 0.2) entries of the original, in list order; never more than 21 entries |
| NeuralSignals.TrimKeepsFewStrong | threeDPorfolio/src/components/NeuralNetwork.jsx:147-150 | a trim with at most 15 strong entries keeps every one of them, in order, followed by the arrival |
| NeuralSignals.TrimKeepsFirst | threeDPorfolio/src/components/NeuralNetwork.jsx:147-150 | when a prefix already holds 15 strong entries, the trim keeps exactly those and drops every later entry |
| NeuralSignals.TrimKeepsFifteen | threeDPorfolio/src/components/NeuralNetwork.jsx:147-159 | a trim with 15 or more strong entries yields exactly 16 entries |
| NeuralSignals.AdvanceAll | threeDPorfolio/src/components/NeuralNetwork.jsx:137-180 | every connection steps independently, and the activation list is either untouched or bounded by 21 |
| NeuralSignals.AdvanceAllAppends | threeDPorfolio/src/components/NeuralNetwork.jsx:162-169 | while no trim happens, the frame appends exactly one arrival per delivered connection, in connection order |
| NeuralSignals.AdvanceAllSources | threeDPorfolio/src/components/NeuralNetwork.jsx:145-170 | every activation after the frame was either already there or arrived in this frame |
| NeuralSignals.Decayed | threeDPorfolio/src/components/NeuralNetwork.jsx:185-188 | decay keeps the neuron and the rate, and never raises a value while the rate is below 1 (strictly lowers a positive one) |
| NeuralSignals.Decay | threeDPorfolio/src/components/NeuralNetwork.jsx:183-189 | the survivors are exactly the decayed activations whose value is above 0.1; their order follows from DecayAppend and DecayOne |
| NeuralSignals.DecayAppend | threeDPorfolio/src/components/NeuralNetwork.jsx:183-189 | decaying a concatenation decays each part and keeps them in order |
| NeuralSignals.DecayOne | threeDPorfolio/src/components/NeuralNetwork.jsx:183-189 | a single activation survives, decayed, iff its decayed value is above 0.1 |
| NeuralSignals.DecayShrinks | threeDPorfolio/src/components/NeuralNetwork.jsx:183-189 | every survivor is the decayed form of an old activation with a strictly smaller value |
| NeuralSignals.FirstActivation | threeDPorfolio/src/components/NeuralNetwork.jsx:196 | `find`: the first activation of the neuron, or -1 when it has none |
| NeuralSignals.FireOne | threeDPorfolio/src/components/NeuralNetwork.jsx:194-203 | an active connection is left alone; an inactive one becomes active with progress 0 exactly when the source fires |
| NeuralSignals.Fire | threeDPorfolio/src/components/NeuralNetwork.jsx:192-206 | when the gate is 0.7 or more nothing changes; otherwise a connection ends active iff it was active or its source fires, and changed connections are freshly activated |
| NeuralSignals.FiredHasActiveSource | threeDPorfolio/src/components/NeuralNetwork.jsx:195-200 | a connection that was switched on has a source neuron holding an activation `a` with the connection's draw below `0.02 * a.value` |
| NeuralSignals.Inject | threeDPorfolio/src/components/NeuralNetwork.jsx:209-223 | below the 0.01 gate and with fewer than 15 activations, the list gains exactly one activation at its end, on input neuron `floor(r * inputs)` of the input neurons in list order, with value in [0.7,1) and decay in [0.94,0.98); otherwise the list is unchanged; `None` iff it would have to pick from an empty input layer |
| NeuralSignals.InjectPicksFromPrefix | threeDPorfolio/src/components/NeuralNetwork.jsx:209-223 | when the input neurons are exactly the first `m` neurons, numbered in order, the stimulated neuron is number `floor(r * m)` |
| NeuralSignals.InjectOnBuilt | threeDPorfolio/src/components/NeuralNetwork.jsx:209-223 | on a built network the stimulated neuron is number `floor(r * layers[0])` of the input layer |
| NeuralSignals.Frame | threeDPorfolio/src/components/NeuralNetwork.jsx:137-224 | a frame keeps the neurons; each connection is the advanced one, switched on with progress 0 exactly when the fire gate is open and its source fires on the decayed activations; the activations are the stimulus applied to the decayed ones: unchanged when the 0.01 gate is shut or 15 or more remain, otherwise followed by one activation on input neuron `floor(r * inputs)` with value in [0.7,1) and decay in [0.94,0.98); `None` iff the stimulus gate opens on a network with no input neuron |
| NeuralSignals.DeliverLive | threeDPorfolio/src/components/NeuralNetwork.jsx:145-170 | delivery keeps every activation well formed: value in [0,1), decay in [0.94,0.99) |
| NeuralSignals.AdvanceAllLive | threeDPorfolio/src/components/NeuralNetwork.jsx:137-180 | advancing all connections keeps every activation well formed |
| NeuralSignals.DecayLive | threeDPorfolio/src/components/NeuralNetwork.jsx:183-189 | decay keeps every activation well formed |
| NeuralSignals.BuildEstablishesInv | threeDPorfolio/src/components/NeuralNetwork.jsx:13-84 | a freshly built network satisfies the invariant every frame preserves |
| NeuralSignals.FrameActivations | threeDPorfolio/src/components/NeuralNetwork.jsx:145-189 | after the delivery and decay phases, there are at most 21 activations, all well formed and above 0.1 |
| NeuralSignals.FrameProgress | threeDPorfolio/src/components/NeuralNetwork.jsx:137-206 | after a frame every connection's progress lies in [0,1) |
| NeuralSignals.FrameKeepsInv | threeDPorfolio/src/components/NeuralNetwork.jsx:137-224 | a frame preserves the network invariant (every connection starts at an existing neuron, progress in [0,1), activations well formed, at most 21 of them) |
| AICursor.NewParticle | threeDPorfolio/src/components/AICursor.jsx:28-36 | a new particle has the given id, lies in the window, has size in [2,6), colour channels in range, and velocities in [-0.75,0.75) |
| AICursor.InitialParticles | threeDPorfolio/src/components/AICursor.jsx:28-36 | exactly 8 particles, particle `i` being `NewParticle` of its own draws: id `i`, inside the window (strictly below a positive width and height), size in [2,6), colour channels in range, velocities in [-0.75,0.75) |
| AICursor.InitialParticlesFixedByResize | threeDPorfolio/src/components/AICursor.jsx:130-137 | the created particles lie inside their window, so a resize to that window leaves each of them unchanged |
| AICursor.Force | threeDPorfolio/src/components/AICursor.jsx:83 | the force is positive and at most 0.6/50 = 0.012, because the divisor is never below 50; beyond 50 it is exactly 0.6/d |
| AICursor.PullBounded | threeDPorfolio/src/components/AICursor.jsx:82-86 | the attraction added to each velocity component is within ±0.6 |
| AICursor.Clamp | threeDPorfolio/src/components/AICursor.jsx:105-106 | `max(0, min(extent, v))` lies in [0, extent], leaves values inside alone and maps outside values to the nearer edge |
| AICursor.StepAxis | threeDPorfolio/src/components/AICursor.jsx:97-106 | the new coordinate lies in the window; velocity flips exactly when the unclamped position leaves it; otherwise the particle moves by its velocity |
| AICursor.Step | threeDPorfolio/src/components/AICursor.jsx:71-115 | after a step the particle lies inside the window whatever it was before, with id, size and colour unchanged |
| AICursor.StepBounce | threeDPorfolio/src/components/AICursor.jsx:89-102 | each velocity component is the damped value, negated exactly when the unclamped position leaves the window on that axis |
| AICursor.StepSpeedBound | threeDPorfolio/src/components/AICursor.jsx:79-94 | velocities bounded by `m` stay bounded by `0.95 * (m + 0.7)` after one step |
| AICursor.StepAll | threeDPorfolio/src/components/AICursor.jsx:71-116 | the step keeps the particle count, order, ids, sizes and colours, and puts every particle inside the window |
| AICursor.Resize | threeDPorfolio/src/components/AICursor.jsx:130-137 | coordinates become `min(x, width)` and `min(y, height)`; everything else is unchanged |
| AICursor.ResizeKeepsInside | threeDPorfolio/src/components/AICursor.jsx:130-137 | a particle with non-negative coordinates ends inside the new window; one already inside is unchanged; resizing twice equals resizing once |
| AICursor.Ease | threeDPorfolio/src/components/AICursor.jsx:54-58 | the remaining gap to the mouse is 0.85 of the previous gap on each axis |
| AICursor.EaseGap | threeDPorfolio/src/components/AICursor.jsx:54-58 | after `n` ticks the gap is `0.85^n` times the original gap on each axis |
| AICursor.EaseApproaches | threeDPorfolio/src/components/AICursor.jsx:54-58 | the eased cursor never overshoots the mouse and strictly shrinks any non-zero gap |
| AICursor.PairLinesExact | threeDPorfolio/src/components/AICursor.jsx:166-190 | a line joins particles `p < q` iff their distance is below 80, with opacity `1 - d/80` in (0,1]; each unordered pair appears at most once |
| AICursor.PairLinesOrdered | threeDPorfolio/src/components/AICursor.jsx:166-167 | pair lines come in strictly increasing pair order, so no pair is drawn twice |
| AICursor.IncreasingRowThenRest | threeDPorfolio/src/components/AICursor.jsx:166-167 | the lines from particle `i`, ordered by their other end, followed by ordered lines from later particles, are ordered by pair |
| AICursor.OpacityInRange | threeDPorfolio/src/components/AICursor.jsx:174 | `1 - d/range` lies in (0,1] for `0 <= d < range` |
| AICursor.CursorLinesExact | threeDPorfolio/src/components/AICursor.jsx:193-214 | a particle gets a cursor line iff its distance is below 120, with opacity `1 - d/120` in (0,1]; every line in the result is such a line, and each particle has at most one |
| AICursor.CursorLinesOrdered | threeDPorfolio/src/components/AICursor.jsx:193-200 | cursor lines come in strictly increasing particle order |
| AICursor.BelowRangeIffSquares | threeDPorfolio/src/components/AICursor.jsx:168-173 | a distance is below a positive range iff the squared gap is below the range squared |
| AICursor.PairGap | threeDPorfolio/src/components/AICursor.jsx:168-173 | an entry of the particles' distance matrix is non-negative and below 80 iff their squared gap is below `80 * 80` |
| AICursor.ParticlePairLines | threeDPorfolio/src/components/AICursor.jsx:166-190 | on the particles' own distances, particles `p < q` are joined iff their squared gap is below `80 * 80`, and every line joins such a pair |
| AICursor.ParticleCursorLines | threeDPorfolio/src/components/AICursor.jsx:193-200 | on the particles' distances to the cursor, a particle gets a line iff its squared gap to the cursor is below `120 * 120` |
| MorphingText.GetRandomChar | threeDPorfolio/src/components/MorphingText.jsx:18-20 | a non-empty pool yields one character of the pool; an empty pool yields the empty string |
| MorphingText.PoolsNest | threeDPorfolio/src/components/MorphingText.jsx:13-15 | every binary character is a plain character, and every plain character is a code character |
| MorphingText.TypingReveals | threeDPorfolio/src/components/MorphingText.jsx:34-37 | after `n + 1` ticks of typing the display is the length-`n` prefix of the word, for `n` up to the word's length, and typing is still running |
| MorphingText.TypingStops | threeDPorfolio/src/components/MorphingText.jsx:35-39 | one tick after the full word is shown, typing stops with the whole word displayed |
| MorphingText.Rendered | threeDPorfolio/src/components/MorphingText.jsx:116 | a non-empty display is shown as is; an empty one shows the first character of the word (nothing for an empty word) |
| MorphingText.RenderedWhileTyping | threeDPorfolio/src/components/MorphingText.jsx:34-116 | while typing a non-empty word, the span always shows a non-empty prefix of it |
| MorphingText.ScramblePieceChar | threeDPorfolio/src/components/MorphingText.jsx:84-95 | each scrambled piece is one character: the original one when the flip draw is 0.3 or more, otherwise a character of the chosen pool |
| MorphingText.PoolOfChoice | threeDPorfolio/src/components/MorphingText.jsx:86-93 | a kind draw below 0.4 picks the binary pool, below 0.7 the code pool, otherwise the plain pool; all of them lie inside the code pool |
| MorphingText.ScrambleFrameExact | threeDPorfolio/src/components/MorphingText.jsx:81-97 | a scramble frame has the word's length, and each position holds the piece built for that character |
| MorphingText.ScrambleFrameShape | threeDPorfolio/src/components/MorphingText.jsx:81-97 | each position of a frame is the original character or a pool character, and unflipped positions keep the original |
| MorphingText.ScrambleCounts | threeDPorfolio/src/components/MorphingText.jsx:71-100 | for up to 11 ticks the scramble keeps running, counts its frames, and shows the frame built from the last tick's draws |
| MorphingText.ScrambleRestores | threeDPorfolio/src/components/MorphingText.jsx:74-77 | once the count passes 10, the display is exactly the original word and scrambling stops |
| MorphingText.TicksBefore | threeDPorfolio/src/components/MorphingText.jsx:73-101 | a timer at `ms` milliseconds comes after exactly the scramble ticks at 100, 200, … ms that are strictly earlier |
| MorphingText.ScrambleEpisodeLate | threeDPorfolio/src/components/MorphingText.jsx:47-77 | a stop draw above 1/3 lets the twelfth tick run, so the word is restored when scrambling stops |
| MorphingText.ScrambleEpisodeEarly | threeDPorfolio/src/components/MorphingText.jsx:47-103 | a stop draw of at most 1/3 clears the interval after 7 to 11 ticks, leaving the last scramble frame on screen |
| MorphingText.ScrambleLeftScrambled | threeDPorfolio/src/components/MorphingText.jsx:47-103 | the word "a" with the earliest stop and every character flipped to a binary pick stays shown as "0" |
| MorphingText.ScrambleEpisodeRestoring | threeDPorfolio/src/components/MorphingText.jsx:47-77 | the evidently intended episode: when scrambling stops the word is shown again, whichever tick the interval reached |
| MorphingText.Split | threeDPorfolio/src/components/MorphingText.jsx:124 | `split(' ')` always yields at least one word |
| MorphingText.SplitNoSpace | threeDPorfolio/src/components/MorphingText.jsx:124 | no word produced by the split contains a space |
| MorphingText.EmitSplit | threeDPorfolio/src/components/MorphingText.jsx:124-137 | rejoining the split words with one space between consecutive words, and none after the last, gives back the input text |
| MorphingText.SplitEmit | threeDPorfolio/src/components/MorphingText.jsx:124-137 | conversely, splitting the joined text of space-free words gives back the words |
| AITerminal.TypingPrefix | threeDPorfolio/src/components/AITerminal.jsx:147-157 | after `i` characters of the typing loop the live line is the length-`i` prefix of the text, with typing on |
| AITerminal.TypeLineEffect | threeDPorfolio/src/components/AITerminal.jsx:147-163 | a typed line appends exactly one `{text, color}` entry, turns typing off and clears the live line; nothing else changes |
| AITerminal.AddLine | threeDPorfolio/src/components/AITerminal.jsx:166-169 | an instant line appends exactly one `{text, color}` entry and touches nothing else |
| AITerminal.RunStepEffect | threeDPorfolio/src/components/AITerminal.jsx:147-169 | a typed or instant step appends exactly its own line and otherwise touches only typing and the live line; after a typed step nothing is being typed |
| AITerminal.LiveColor | threeDPorfolio/src/components/AITerminal.jsx:213-215 | the live line uses the command colour iff it starts with `$`, otherwise the text colour |
| AITerminal.RunStepsAppends | threeDPorfolio/src/components/AITerminal.jsx:56-122 | running script steps appends one line per step, in order, keeping earlier lines, code state and progress; after a typed last step typing is off |
| AITerminal.ScriptShape | threeDPorfolio/src/components/AITerminal.jsx:56-122 | the script has 17 steps and ends with a typed line |
| AITerminal.CycleResult | threeDPorfolio/src/components/AITerminal.jsx:52-128 | a cycle ends with exactly the 17 script lines in order, progress 1, typing off, and the snippet `floor(r * 5)` showing |
| AITerminal.CycleResets | threeDPorfolio/src/components/AITerminal.jsx:53-54 | a cycle starts from empty lines and progress 0, so its outcome does not depend on the previous state |
| AITerminal.HideCode | threeDPorfolio/src/components/AITerminal.jsx:131 | hiding the code panel turns it off and changes nothing else |
| AITerminal.RoundsLast | threeDPorfolio/src/components/AITerminal.jsx:52-133 | after any number of rounds from the empty terminal, with the panel hidden between rounds, the screen is what a single round shows for the latest snippet draw |
| AITerminal.LiveLineIsText | threeDPorfolio/src/components/AITerminal.jsx:56-215 | no prefix of any script line starts with `$`, so the live line is always drawn in the text colour |
| AITerminal.ScriptNoDollar | threeDPorfolio/src/components/AITerminal.jsx:56-122 | no line of the script starts with `$` |
| DataVisualization.Intensity | threeDPorfolio/src/components/DataVisualization.jsx:18-41 | a cell's intensity lies in 0..4 for weeks 41..51, 0..3 for weeks 31..40, and 0..2 for earlier weeks |
| DataVisualization.GenerateWeek | threeDPorfolio/src/components/DataVisualization.jsx:14-44 | one week has exactly 7 cells, each computed from its predecessor in the week and within the week's band |
| DataVisualization.GenerateContributionData | threeDPorfolio/src/components/DataVisualization.jsx:5-50 | the grid has 52 weeks of 7 cells each, every intensity within its week's band |
| DataVisualization.WeekendOverride | threeDPorfolio/src/components/DataVisualization.jsx:31-33 | in a recent week, a weekend cell whose draw passes 0.3 is 0 |
| DataVisualization.StreakRule | threeDPorfolio/src/components/DataVisualization.jsx:24-29 | a streak continues the previous day's value, possibly plus one, capped at 4 |
| DataVisualization.QuietBands | threeDPorfolio/src/components/DataVisualization.jsx:34-41 | in weeks up to 40 a cell is active iff its gate draw exceeds 0.7 (weeks 31..40) or 0.85 (earlier) |
| DataVisualization.ColorsAndLabels | threeDPorfolio/src/components/DataVisualization.jsx:146-187 | every intensity 0..4 has a colour class and a label, and distinct intensities get distinct classes and labels |
| DataVisualization.GridHasColors | threeDPorfolio/src/components/DataVisualization.jsx:146-164 | every cell of a generated grid has a colour class |
| DataVisualization.DayOffsetInjective | threeDPorfolio/src/components/DataVisualization.jsx:155-159 | the day offset of a cell lies in 0..363 and determines the cell |
| DataVisualization.DayOffsetOnto | threeDPorfolio/src/components/DataVisualization.jsx:155-159 | every offset in 0..363 is the day offset of a grid cell |
| DataVisualization.GetMonthLabels | threeDPorfolio/src/components/DataVisualization.jsx:65-91 | twelve labels in month order at positions `i * 4.333`, strictly increasing and inside the 52-week grid |
| FloatingObjects.ScaleStep | threeDPorfolio/src/components/FloatingObjects.jsx:14-21 | below the target the scale moves strictly toward it without reaching it; otherwise it snaps to the target |
| FloatingObjects.ScaleEasing | threeDPorfolio/src/components/FloatingObjects.jsx:14-21 | from 0, after `n` ticks the remaining gap is `0.95^n * scale`; the scale stays in [0, scale) and never decreases |
| FloatingObjects.DriftTarget | threeDPorfolio/src/components/FloatingObjects.jsx:29-34 | each axis of a new drift target lies in [home - 2, home + 2) |
| FloatingObjects.Approach | threeDPorfolio/src/components/FloatingObjects.jsx:49-51 | one frame leaves the fraction `1 - 0.005 * speed` of the gap to the target |
| FloatingObjects.ApproachNoOvershoot | threeDPorfolio/src/components/FloatingObjects.jsx:49-51 | with `0 < 0.005 * speed <= 1`, a frame stays between the position and the target and shrinks a non-zero gap |
| FloatingObjects.Frame | threeDPorfolio/src/components/FloatingObjects.jsx:43 | a skipped frame (draw above 0.7) leaves position and rotation unchanged |
| FloatingObjects.FrameMoves | threeDPorfolio/src/components/FloatingObjects.jsx:49-54 | an applied frame shrinks the gap on x and z by `1 - 0.005 * speed`, and on y apart from the bob term |
| FloatingObjects.FrameSpins | threeDPorfolio/src/components/FloatingObjects.jsx:57-59 | an applied frame turns x, y and z by exactly 0.001, 0.002 and 0.0005 times the rotation speed, so they strictly increase for a positive speed |
| FloatingObjects.NewObjectWellFormed | threeDPorfolio/src/components/FloatingObjects.jsx:175-188 | a generated object has its index as id, a colour from the palette, a position in the box, speed in [0.5,1.3), rotation speed in [0.5,1.5), wobble in [0.2,0.5) and scale in [0.4,0.7) |
| FloatingObjects.GenerateObjects | threeDPorfolio/src/components/FloatingObjects.jsx:174-189 | `count` objects with ids 0..count-1, each well formed and built from its own draws |
| Contact.InitialForm | threeDPorfolio/src/screens/Contact.jsx:17-23 | the form starts with the five fields name, email, subject, message and to_email |
| Contact.HandleChange | threeDPorfolio/src/screens/Contact.jsx:53-59 | the named field holds the new value afterwards |
| Contact.HandleChangeOnlyNamed | threeDPorfolio/src/screens/Contact.jsx:53-59 | every other field is unchanged, and the set of fields grows by at most the named key |
| Contact.PayloadContents | threeDPorfolio/src/screens/Contact.jsx:67-78 | the payload holds every form field plus from_name = name and reply_to = email, and to_email is the fixed recipient |
| Contact.Submit | threeDPorfolio/src/screens/Contact.jsx:61-64 | submitting sets isSubmitting, clears the error, and changes nothing else |
| Contact.Resolve | threeDPorfolio/src/screens/Contact.jsx:80-101 | either way isSubmitting ends and the form is untouched; success sets isSubmitted; failure sets the fixed error message |
| Contact.ResetAfterSuccess | threeDPorfolio/src/screens/Contact.jsx:86-95 | the reset clears isSubmitted and restores the initial form, leaving the other flags alone |
| Contact.SubmitRoundTrip | threeDPorfolio/src/screens/Contact.jsx:61-101 | a successful submission ends on an empty form with no flag or error set, so from the initial page it returns to the initial page; a failed one keeps the typed form and shows the message |
| Contact.CheckMobile | threeDPorfolio/src/screens/Contact.jsx:33-35 | isMobile holds iff the window width is below 768; nothing else changes |
| Contact.MobileMonotone | threeDPorfolio/src/screens/Contact.jsx:33-35 | a narrower window is mobile whenever a wider one is |

## Where the code differs from its description

The model follows the code in each of these places:

- Each neuron of layer `k > 0` gets exactly `min(layers[k-1], 5)`
  connections, not "up to 5" (NeuralNetwork.jsx:46-55).
- Initial activation values lie in [0,1), not (0,1] (NeuralNetwork.jsx:76).
- The delivery trim keeps the first 15 entries with value above 0.2, in list
  order. It is not a ranking by value (NeuralNetwork.jsx:148-150).
- The input layer is stimulated only while fewer than 15 activations remain.
  Nothing is pruned to make room (NeuralNetwork.jsx:209).
- Lines need a distance strictly below the threshold, so no line is drawn at
  exactly 80 or 120 (AICursor.jsx:173, 198).
- Drift targets are drawn around the fixed `position` prop, not around the
  previous target (FloatingObjects.jsx:30-34).
- The scramble shows 11 frames (counts 0..10) before it restores the word,
  because the guard is `count > 10` (MorphingText.jsx:74).
- No script line starts with `$`, so the command colour of the live line is
  never used (`AITerminal.LiveLineIsText`).
- `getMonthLabels` is dead code. Its only call sits inside a JSX comment, so
  the month labels are never rendered (DataVisualization.jsx:119-130).
  `DataVisualization.GetMonthLabels` models what it would compute.

## Left out

- Timers and scheduling: `setInterval`, `setTimeout`, `requestAnimationFrame`,
  the async terminal loop, `throttle`, and every delay or speed value. Each
  model is one step, or a sequence of steps, of the logic they schedule.
- React state plumbing: nested `setState` updaters and stale closures in the
  network draw loop. A network frame runs its phases in order — deliver,
  decay, fire, inject — as one pure function.
- Drawing: the canvas calls, SVG and JSX markup, framer-motion animations and
  three.js rendering. The line-stroke widths and alpha factors are drawing
  only.
- IntersectionObserver visibility gating, the WebGL error handlers and
  `canvasError`: these are platform events.
- IEEE floating point and `Math.sqrt`. Arithmetic is on exact reals, and
  distances are inputs tied to their squares.
- `NeuralNetwork.SampleDistinct`: the source draws until it has enough
  distinct indices. The model gets a finite list of draws and answers `None`
  when the list runs out. `NeuralNetwork.SampleDistinctFirst` proves that it
  answers `None` only then, and that otherwise it gives the first distinct
  draws, as the source does.
- `NeuralSignals.Inject`: with no input neuron the source throws, reading
  `.id` of `undefined`. The model answers `None` there.
- The order of random draws: each neuron, particle, cell, character and
  object gets its own record of draws. This re-indexes a single random
  stream and does not change any value drawn.
- `FloatingObjects.FrameMoves`: the sine bob on y is an input of the frame.
  Its value, `sin(0.3 t) * 0.005` of the clock, is not modelled.
- The mail service (`emailjs.send` and its init) is reduced to a `Sent` or
  `Failed` outcome passed to `Contact.Resolve`.
- String lengths count Unicode scalar values, not UTF-16 code units. This
  matters for the emoji in one script line of the terminal, and for any
  `originalText` outside the Basic Multilingual Plane, which MorphingText
  slices and indexes by code unit (MorphingText.jsx:36, 93).
- MorphingText's start-of-scramble chance and timer, and the red glitch flash
  after a scramble: these decide when a scramble starts and how the span is
  coloured, not which text it shows. The stop timer is modelled
  (`MorphingText.ScrambleEpisode`).
- MorphingText.ScrambleRestores: holds only for runs that reach the twelfth
  tick. `MorphingText.ScrambleEpisodeEarly` covers runs the stop timer cuts
  short. When the stop timer and a tick fall on the same millisecond, the
  model lets the timer go first.
- AITerminal's `commands` list: no code path reads it. `colors.background`
  is used only by the markup; `colors.promptSymbol` and `colors.highlight`
  are defined but never read (AITerminal.jsx:31, 35).
- DataVisualization's `skillLevels` bars, `toLocaleDateString` and the
  animation delays: these are presentation and locale formatting.

## Findings

| source | as written | input that shows it | evidently intended | confidence | as-written member | corrected member |
|---|---|---|---|---|---|---|
| threeDPorfolio/src/components/MorphingText.jsx:47-103 | the stop timer, at `800 + r * 1200` ms, sets `isScrambling` false, and the effect cleanup clears the scramble interval; only the interval's twelfth tick, at 1200 ms, restores the word | word "a", stop draw 0 (timer at 800 ms, after 7 ticks), every flip and pick draw 0: the span keeps showing "0" | scrambling ends with the original word on screen | medium, not executed | MorphingText.ScrambleLeftScrambled | MorphingText.ScrambleEpisodeRestoring |

=== FILE: ai_cursor.dfy ===
/** The custom cursor overlay: a ring easing towards the mouse, eight
    particles drifting under the cursor's pull inside the window, and the
    lines drawn between nearby particles and from particles to the cursor.
    Square roots are not computed here: each distance is an argument that
    satisfies `IsDistance`, the defining property of `Math.sqrt` of the sum of
    squares. */
module AICursor {
  import opened Basics

  /** A window extent (`window.innerWidth` / `innerHeight`). */
  type Extent = r: real | r >= 0.0

  datatype Viewport = Viewport(width: Extent, height: Extent)

  datatype Point = Point(x: real, y: real)

  /** The particle's `rgba(...)` colour, kept as its four numbers. */
  datatype Rgba = Rgba(r: real, g: real, b: real, a: real)

  datatype Particle = Particle(id: nat, x: real, y: real, size: real, color: Rgba, vx: real, vy: real)

  const ParticleCount: nat := 8
  /** Particles closer than this to the cursor feel its pull. */
  const PullRadius: real := 180.0
  /** Distances below this count as this much when computing the pull. */
  const PullFloor: real := 50.0
  const PullStrength: real := 0.6
  const Jitter: real := 0.2
  const Friction: real := 0.95
  const EaseFactor: real := 0.15
  /** Particles closer than this are joined by a line. */
  const PairRange: real := 80.0
  /** Particles closer than this to the cursor are joined to it. */
  const CursorRange: real := 120.0

  /** `d` is the Euclidean length of the vector `(dx, dy)`. */
  predicate IsDistance(d: real, dx: real, dy: real)
  {
    d >= 0.0 && d * d == dx * dx + dy * dy
  }

  lemma SquareGrows(a: real, b: real)
    requires 0.0 <= a < b
    ensures a * a < b * b
  {
    assert b * b - a * a == (b - a) * (b + a);
    PositiveProduct(b - a, b + a);
  }

  /** A coordinate is no longer than the vector it belongs to. */
  lemma ComponentBound(d: real, dx: real, dy: real)
    requires IsDistance(d, dx, dy)
    ensures -d <= dx <= d && -d <= dy <= d
  {
    assert dx * dx <= d * d && dy * dy <= d * d;
    if dx > d {
      SquareGrows(d, dx);
    } else if -dx > d {
      SquareGrows(d, -dx);
    }
    if dy > d {
      SquareGrows(d, dy);
    } else if -dy > d {
      SquareGrows(d, -dy);
    }
  }

  // ---------------------------------------------------------------------
  // Initial particles

  /** The random draws creating one particle. */
  datatype ParticleDraws = ParticleDraws(x: Unit01, y: Unit01, size: Unit01,
                                         r: Unit01, g: Unit01, b: Unit01, a: Unit01,
                                         vx: Unit01, vy: Unit01)

  function NewParticle(vp: Viewport, id: nat, d: ParticleDraws): (p: Particle)
    ensures p.id == id
    ensures 0.0 <= p.x <= vp.width && (vp.width > 0.0 ==> p.x < vp.width)
    ensures 0.0 <= p.y <= vp.height && (vp.height > 0.0 ==> p.y < vp.height)
    ensures 2.0 <= p.size < 6.0
    ensures 50.0 <= p.color.r < 150.0 && 50.0 <= p.color.g < 150.0
    ensures 0.0 <= p.color.b < 255.0 && 0.5 <= p.color.a < 1.0
    ensures -0.75 <= p.vx < 0.75 && -0.75 <= p.vy < 0.75
  {
    ScaleUnit(d.x, vp.width);
    ScaleUnit(d.y, vp.height);
    Particle(id, d.x * vp.width, d.y * vp.height, d.size * 4.0 + 2.0,
             Rgba(d.r * 100.0 + 50.0, d.g * 100.0 + 50.0, d.b * 255.0, d.a * 0.5 + 0.5),
             (d.vx - 0.5) * 1.5, (d.vy - 0.5) * 1.5)
  }

  lemma ScaleUnit(r: Unit01, e: Extent)
    ensures 0.0 <= r * e <= e
    ensures e > 0.0 ==> r * e < e
  {
    assert e - r * e == (1.0 - r) * e;
  }

  /** The eight particles created on mount. */
  function InitialParticles(vp: Viewport, draws: seq<ParticleDraws>): (ps: seq<Particle>)
    requires |draws| >= ParticleCount
    ensures |ps| == ParticleCount
    ensures forall i :: 0 <= i < |ps| ==> ps[i] == NewParticle(vp, i, draws[i])
    ensures forall i :: 0 <= i < |ps| ==>
      && ps[i].id == i
      && 0.0 <= ps[i].x <= vp.width && (vp.width > 0.0 ==> ps[i].x < vp.width)
      && 0.0 <= ps[i].y <= vp.height && (vp.height > 0.0 ==> ps[i].y < vp.height)
      && 2.0 <= ps[i].size < 6.0
      && 50.0 <= ps[i].color.r < 150.0 && 50.0 <= ps[i].color.g < 150.0
      && 0.0 <= ps[i].color.b < 255.0 && 0.5 <= ps[i].color.a < 1.0
      && -0.75 <= ps[i].vx < 0.75 && -0.75 <= ps[i].vy < 0.75
  {
    seq(ParticleCount, i requires 0 <= i < ParticleCount => NewParticle(vp, i, draws[i]))
  }

  /** The particles created for a window lie inside it, so the resize
      handler leaves them as they are until the window changes. */
  lemma InitialParticlesFixedByResize(vp: Viewport, draws: seq<ParticleDraws>)
    requires |draws| >= ParticleCount
    ensures forall i :: 0 <= i < ParticleCount ==>
      Inside(InitialParticles(vp, draws)[i], vp) && Resize(InitialParticles(vp, draws)[i], vp) == InitialParticles(vp, draws)[i]
  {
    var ps := InitialParticles(vp, draws);
    forall i | 0 <= i < ParticleCount
      ensures Inside(ps[i], vp) && Resize(ps[i], vp) == ps[i]
    {
      ResizeKeepsInside(ps[i], vp);
    }
  }

  // ---------------------------------------------------------------------
  // The particle step

  /** The pull factor at distance `d`: `0.6 / max(50, d)`. */
  function Force(d: real): (f: real)
    ensures 0.0 < f <= PullStrength / PullFloor
    ensures d >= PullFloor ==> f * d == PullStrength
  {
    PullStrength / MaxReal(PullFloor, d)
  }

  /** The velocity change the cursor's pull causes on one axis. */
  function Pull(delta: real, d: real): real
  {
    if d < PullRadius then delta * Force(d) else 0.0
  }

  /** The pull never changes a velocity component by more than 0.6. */
  lemma PullBounded(dx: real, dy: real, d: real)
    requires IsDistance(d, dx, dy)
    ensures -PullStrength <= Pull(dx, d) <= PullStrength
    ensures -PullStrength <= Pull(dy, d) <= PullStrength
  {
    ComponentBound(d, dx, dy);
    if d < PullRadius {
      var f := Force(d);
      AxisPullBounded(dx, d, f);
      AxisPullBounded(dy, d, f);
    }
  }

  lemma AxisPullBounded(delta: real, d: real, f: real)
    requires -d <= delta <= d
    requires f == Force(d)
    ensures -PullStrength <= delta * f <= PullStrength
  {
    if d >= PullFloor {
      assert d * f == PullStrength;
      assert d * f - delta * f == (d - delta) * f;
      assert d * f + delta * f == (d + delta) * f;
    } else {
      assert f == PullStrength / PullFloor;
      assert PullStrength - delta * f == (PullFloor - delta) * f;
      assert PullStrength + delta * f == (PullFloor + delta) * f;
    }
  }

  /** One axis of the velocity after pull, jitter and friction, before any
      bounce. */
  function Damped(v: real, pull: real, jitter: Unit01): real
  {
    (v + pull + (jitter - 0.5) * Jitter) * Friction
  }

  /** `Math.max(0, Math.min(extent, v))`. */
  function Clamp(v: real, extent: Extent): (c: real)
    ensures 0.0 <= c <= extent
    ensures 0.0 <= v <= extent ==> c == v
    ensures v < 0.0 ==> c == 0.0
    ensures v > extent ==> c == extent
  {
    MaxReal(0.0, MinReal(extent, v))
  }

  /** One axis of the step: new position and velocity. */
  datatype Axis = Axis(pos: real, vel: real)

  function StepAxis(pos: real, vel: real, extent: Extent): (a: Axis)
    ensures 0.0 <= a.pos <= extent
    ensures pos + vel < 0.0 || pos + vel > extent ==> a.vel == -vel
    ensures 0.0 <= pos + vel <= extent ==> a == Axis(pos + vel, vel)
  {
    var moved := pos + vel;
    var v := if moved < 0.0 || moved > extent then -vel else vel;
    Axis(Clamp(moved, extent), v)
  }

  /** The random draws one particle step consumes. */
  datatype StepDraws = StepDraws(jx: Unit01, jy: Unit01)

  /** One frame of one particle, with `d` the particle's distance to the
      cursor. */
  function Step(p: Particle, cursor: Point, d: real, j: StepDraws, vp: Viewport): (q: Particle)
    requires IsDistance(d, cursor.x - p.x, cursor.y - p.y)
    ensures q.id == p.id && q.size == p.size && q.color == p.color
    ensures 0.0 <= q.x <= vp.width && 0.0 <= q.y <= vp.height
  {
    var dx := cursor.x - p.x;
    var dy := cursor.y - p.y;
    var vx := Damped(p.vx, Pull(dx, d), j.jx);
    var vy := Damped(p.vy, Pull(dy, d), j.jy);
    var ax := StepAxis(p.x, vx, vp.width);
    var ay := StepAxis(p.y, vy, vp.height);
    p.(x := ax.pos, y := ay.pos, vx := ax.vel, vy := ay.vel)
  }

  /** A velocity component is reversed exactly when the unclamped position
      leaves the window on that axis; otherwise it is the damped value and
      the particle moves by it. */
  lemma StepBounce(p: Particle, cursor: Point, d: real, j: StepDraws, vp: Viewport)
    requires IsDistance(d, cursor.x - p.x, cursor.y - p.y)
    ensures var vx := Damped(p.vx, Pull(cursor.x - p.x, d), j.jx);
      var q := Step(p, cursor, d, j, vp);
      && (p.x + vx < 0.0 || p.x + vx > vp.width ==> q.vx == -vx)
      && (0.0 <= p.x + vx <= vp.width ==> q.vx == vx && q.x == p.x + vx)
    ensures var vy := Damped(p.vy, Pull(cursor.y - p.y, d), j.jy);
      var q := Step(p, cursor, d, j, vp);
      && (p.y + vy < 0.0 || p.y + vy > vp.height ==> q.vy == -vy)
      && (0.0 <= p.y + vy <= vp.height ==> q.vy == vy && q.y == p.y + vy)
  {
  }

  /** With velocities bounded by `m`, one step keeps them bounded by
      `0.95 * (m + 0.7)`: pull and jitter add at most 0.6 and 0.1, friction
      scales, a bounce only flips the sign. */
  lemma StepSpeedBound(p: Particle, cursor: Point, d: real, j: StepDraws, vp: Viewport, m: real)
    requires IsDistance(d, cursor.x - p.x, cursor.y - p.y)
    requires -m <= p.vx <= m && -m <= p.vy <= m
    ensures var q := Step(p, cursor, d, j, vp);
      var bound := Friction * (m + PullStrength + Jitter / 2.0);
      -bound <= q.vx <= bound && -bound <= q.vy <= bound
  {
    PullBounded(cursor.x - p.x, cursor.y - p.y, d);
  }

  /** The step of all particles, in order; particle `i` uses distance `ds[i]`
      and draws `js[i]`. */
  function StepAll(ps: seq<Particle>, cursor: Point, ds: seq<real>, js: seq<StepDraws>, vp: Viewport): (qs: seq<Particle>)
    requires |ds| == |ps| && |js| == |ps|
    requires forall i :: 0 <= i < |ps| ==> IsDistance(ds[i], cursor.x - ps[i].x, cursor.y - ps[i].y)
    ensures |qs| == |ps|
    ensures forall i :: 0 <= i < |ps| ==>
      && qs[i].id == ps[i].id && qs[i].size == ps[i].size && qs[i].color == ps[i].color
      && 0.0 <= qs[i].x <= vp.width && 0.0 <= qs[i].y <= vp.height
  {
    seq(|ps|, i requires 0 <= i < |ps| => Step(ps[i], cursor, ds[i], js[i], vp))
  }

  // ---------------------------------------------------------------------
  // Resizing the window

  /** The resize handler: each coordinate is cut down to the new extent. */
  function Resize(p: Particle, vp: Viewport): (q: Particle)
    ensures q.id == p.id && q.size == p.size && q.color == p.color && q.vx == p.vx && q.vy == p.vy
    ensures q.x <= vp.width && q.y <= vp.height
    ensures p.x <= vp.width ==> q.x == p.x
    ensures p.y <= vp.height ==> q.y == p.y
    ensures p.x > vp.width ==> q.x == vp.width
    ensures p.y > vp.height ==> q.y == vp.height
  {
    p.(x := MinReal(p.x, vp.width), y := MinReal(p.y, vp.height))
  }

  predicate Inside(p: Particle, vp: Viewport)
  {
    0.0 <= p.x <= vp.width && 0.0 <= p.y <= vp.height
  }

  /** A particle inside the old window that was stepped or clamped is inside
      the new one after a resize; a particle already inside is untouched. */
  lemma ResizeKeepsInside(p: Particle, vp: Viewport)
    requires 0.0 <= p.x && 0.0 <= p.y
    ensures Inside(Resize(p, vp), vp)
    ensures Inside(p, vp) ==> Resize(p, vp) == p
    ensures Resize(Resize(p, vp), vp) == Resize(p, vp)
  {
  }

  // ---------------------------------------------------------------------
  // Cursor easing

  /** One easing tick on one axis: 15% of the way to the target. */
  function EaseAxis(prev: real, target: real): (c: real)
    ensures target - c == (1.0 - EaseFactor) * (target - prev)
  {
    prev + (target - prev) * EaseFactor
  }

  /** One easing tick: the ring moves 15% of the way to the mouse. */
  function Ease(prev: Point, mouse: Point): (c: Point)
    ensures mouse.x - c.x == (1.0 - EaseFactor) * (mouse.x - prev.x)
    ensures mouse.y - c.y == (1.0 - EaseFactor) * (mouse.y - prev.y)
  {
    Point(EaseAxis(prev.x, mouse.x), EaseAxis(prev.y, mouse.y))
  }

  function EaseMany(prev: Point, mouse: Point, n: nat): Point
  {
    if n == 0 then prev else Ease(EaseMany(prev, mouse, n - 1), mouse)
  }

  function EaseAxisMany(prev: real, target: real, n: nat): real
  {
    if n == 0 then prev else EaseAxis(EaseAxisMany(prev, target, n - 1), target)
  }

  lemma {:induction false} EaseAxisGap(prev: real, target: real, n: nat)
    ensures target - EaseAxisMany(prev, target, n) == Pow(1.0 - EaseFactor, n) * (target - prev)
  {
    if n > 0 {
      EaseAxisGap(prev, target, n - 1);
      var p := Pow(1.0 - EaseFactor, n - 1);
      var g := target - prev;
      assert (1.0 - EaseFactor) * (p * g) == ((1.0 - EaseFactor) * p) * g;
    }
  }

  lemma {:induction false} EaseManyAxes(prev: Point, mouse: Point, n: nat)
    ensures EaseMany(prev, mouse, n) == Point(EaseAxisMany(prev.x, mouse.x, n), EaseAxisMany(prev.y, mouse.y, n))
  {
    if n > 0 {
      EaseManyAxes(prev, mouse, n - 1);
    }
  }

  /** After `n` ticks towards a still mouse the gap is `0.85^n` of the
      initial gap on each axis. */
  lemma EaseGap(prev: Point, mouse: Point, n: nat)
    ensures var c := EaseMany(prev, mouse, n);
      && mouse.x - c.x == Pow(1.0 - EaseFactor, n) * (mouse.x - prev.x)
      && mouse.y - c.y == Pow(1.0 - EaseFactor, n) * (mouse.y - prev.y)
  {
    EaseManyAxes(prev, mouse, n);
    EaseAxisGap(prev.x, mouse.x, n);
    EaseAxisGap(prev.y, mouse.y, n);
  }

  /** The ring never overshoots: every tick shrinks a non-zero gap. */
  lemma EaseApproaches(prev: Point, mouse: Point)
    ensures var c := Ease(prev, mouse);
      && (mouse.x != prev.x ==> Abs(mouse.x - c.x) < Abs(mouse.x - prev.x))
      && (mouse.y != prev.y ==> Abs(mouse.y - c.y) < Abs(mouse.y - prev.y))
      && (mouse.x - c.x) * (mouse.x - prev.x) >= 0.0
      && (mouse.y - c.y) * (mouse.y - prev.y) >= 0.0
  {
  }

  // ---------------------------------------------------------------------
  // Lines

  /** A line between particles `i < j`, or from particle `i` to the cursor
      (then `j` is -1), with its opacity factor. */
  datatype Line = Line(i: nat, j: int, opacity: real)

  /** The lines from particle `i` to particles `j..n-1`; `dist[i][m]` is
      the distance between particles `i` and `m`. */
  function RowLines(dist: seq<seq<real>>, n: nat, i: nat, j: nat): (r: seq<Line>)
    requires i < |dist| && |dist[i]| >= n
    decreases n - j
  {
    if j >= n then []
    else
      var rest := RowLines(dist, n, i, j + 1);
      if dist[i][j] < PairRange then [Line(i, j, 1.0 - dist[i][j] / PairRange)] + rest else rest
  }

  /** Every line of `r` joins `i` to a particle in `j..n-1` closer than 80,
      with opacity `1 - d/80`. */
  predicate RowOk(dist: seq<seq<real>>, n: nat, i: nat, j: nat, r: seq<Line>)
    requires i < |dist| && |dist[i]| >= n
  {
    forall k :: 0 <= k < |r| ==>
      && r[k].i == i && j <= r[k].j < n
      && dist[i][r[k].j] < PairRange && r[k].opacity == 1.0 - dist[i][r[k].j] / PairRange
  }

  /** The lines are in strictly increasing order of their second end. */
  predicate IncreasingEnds(r: seq<Line>)
  {
    forall a, b :: 0 <= a < b < |r| ==> r[a].j < r[b].j
  }

  /** A line of the row joins `i` to a later particle closer than 80 with
      opacity `1 - d/80`; the row is in increasing order of the other end. */
  lemma {:induction false} RowLinesSound(dist: seq<seq<real>>, n: nat, i: nat, j: nat)
    requires i < |dist| && |dist[i]| >= n
    ensures RowOk(dist, n, i, j, RowLines(dist, n, i, j))
    ensures IncreasingEnds(RowLines(dist, n, i, j))
    decreases n - j
  {
    if j < n {
      RowLinesSound(dist, n, i, j + 1);
      var rest := RowLines(dist, n, i, j + 1);
      assert RowOk(dist, n, i, j + 1, rest);
      if dist[i][j] < PairRange {
        var r := [Line(i, j, 1.0 - dist[i][j] / PairRange)] + rest;
        assert RowLines(dist, n, i, j) == r;
        assert forall k :: 1 <= k < |r| ==> r[k] == rest[k - 1];
      } else {
        assert RowLines(dist, n, i, j) == rest;
      }
    }
  }

  /** Every later particle closer than 80 gets its line in the row. */
  lemma {:induction false} RowLinesComplete(dist: seq<seq<real>>, n: nat, i: nat, j: nat, m: nat)
    requires i < |dist| && |dist[i]| >= n
    requires j <= m < n && dist[i][m] < PairRange
    ensures Line(i, m, 1.0 - dist[i][m] / PairRange) in RowLines(dist, n, i, j)
    decreases n - j
  {
    if j < m {
      RowLinesComplete(dist, n, i, j + 1, m);
    }
  }

  /** The lines between particles `i..n-1`, each unordered pair considered
      once, from the lower index. */
  function PairLinesFrom(dist: seq<seq<real>>, n: nat, i: nat): seq<Line>
    requires n <= |dist| && forall k :: 0 <= k < |dist| ==> |dist[k]| >= n
    decreases n - i
  {
    if i >= n then [] else RowLines(dist, n, i, i + 1) + PairLinesFrom(dist, n, i + 1)
  }

  /** Every line of `r` joins two particles `i <= p < q < n` closer than
      80, with opacity `1 - d/80`. */
  predicate PairsOk(dist: seq<seq<real>>, n: nat, i: nat, r: seq<Line>)
    requires n <= |dist| && forall k :: 0 <= k < |dist| ==> |dist[k]| >= n
  {
    forall k :: 0 <= k < |r| ==>
      && i <= r[k].i < r[k].j < n
      && dist[r[k].i][r[k].j] < PairRange && r[k].opacity == 1.0 - dist[r[k].i][r[k].j] / PairRange
  }

  /** The lines are in strictly increasing order of their pair. */
  predicate IncreasingPairs(r: seq<Line>)
  {
    forall a, b :: 0 <= a < b < |r| ==> r[a].i < r[b].i || (r[a].i == r[b].i && r[a].j < r[b].j)
  }

  /** Every line joins two particles `i <= p < q < n` closer than 80, with
      opacity `1 - d/80`. */
  lemma {:induction false} PairLinesSound(dist: seq<seq<real>>, n: nat, i: nat)
    requires n <= |dist| && forall k :: 0 <= k < |dist| ==> |dist[k]| >= n
    ensures PairsOk(dist, n, i, PairLinesFrom(dist, n, i))
    decreases n - i
  {
    if i < n {
      var row := RowLines(dist, n, i, i + 1);
      var rest := PairLinesFrom(dist, n, i + 1);
      RowLinesSound(dist, n, i, i + 1);
      PairLinesSound(dist, n, i + 1);
      assert RowOk(dist, n, i, i + 1, row);
      assert PairsOk(dist, n, i + 1, rest);
      var r := row + rest;
      assert PairLinesFrom(dist, n, i) == r;
      assert forall k :: 0 <= k < |row| ==> r[k] == row[k];
      assert forall k :: |row| <= k < |r| ==> r[k] == rest[k - |row|];
    }
  }

  /** A row from particle `i` in increasing order of its other end,
      followed by increasing lines that all start after `i`, is increasing. */
  lemma IncreasingRowThenRest(row: seq<Line>, rest: seq<Line>, i: nat)
    requires forall k :: 0 <= k < |row| ==> row[k].i == i
    requires forall k :: 0 <= k < |rest| ==> i < rest[k].i
    requires IncreasingEnds(row) && IncreasingPairs(rest)
    ensures IncreasingPairs(row + rest)
  {
    var r := row + rest;
    forall a, b | 0 <= a < b < |r|
      ensures r[a].i < r[b].i || (r[a].i == r[b].i && r[a].j < r[b].j)
    {
      if b < |row| {
        assert r[a] == row[a] && r[b] == row[b];
      } else if a < |row| {
        assert r[a] == row[a] && r[b] == rest[b - |row|];
      } else {
        assert r[a] == rest[a - |row|] && r[b] == rest[b - |row|];
      }
    }
  }

  /** The lines come in strictly increasing order of their pair, so no pair
      appears twice. */
  lemma {:induction false} PairLinesOrdered(dist: seq<seq<real>>, n: nat, i: nat)
    requires n <= |dist| && forall k :: 0 <= k < |dist| ==> |dist[k]| >= n
    ensures IncreasingPairs(PairLinesFrom(dist, n, i))
    decreases n - i
  {
    if i < n {
      var row := RowLines(dist, n, i, i + 1);
      var rest := PairLinesFrom(dist, n, i + 1);
      RowLinesSound(dist, n, i, i + 1);
      PairLinesSound(dist, n, i + 1);
      PairLinesOrdered(dist, n, i + 1);
      assert forall k :: 0 <= k < |row| ==> row[k].i == i;
      assert forall k :: 0 <= k < |rest| ==> i < rest[k].i;
      IncreasingRowThenRest(row, rest, i);
    }
  }

  /** Every pair `i <= p < q < n` closer than 80 gets its line. */
  lemma {:induction false} PairLinesComplete(dist: seq<seq<real>>, n: nat, i: nat, p: nat, q: nat)
    requires n <= |dist| && forall k :: 0 <= k < |dist| ==> |dist[k]| >= n
    requires i <= p < q < n && dist[p][q] < PairRange
    ensures Line(p, q, 1.0 - dist[p][q] / PairRange) in PairLinesFrom(dist, n, i)
    decreases n - i
  {
    var row := RowLines(dist, n, i, i + 1);
    var rest := PairLinesFrom(dist, n, i + 1);
    assert PairLinesFrom(dist, n, i) == row + rest;
    if p == i {
      RowLinesComplete(dist, n, i, i + 1, q);
    } else {
      PairLinesComplete(dist, n, i + 1, p, q);
    }
  }

  /** The particle–particle lines: exactly one line for every pair closer
      than 80, with opacity `1 - d/80` in (0,1]; no pair appears twice. */
  function PairLines(dist: seq<seq<real>>): seq<Line>
    requires forall k :: 0 <= k < |dist| ==> |dist[k]| == |dist|
  {
    PairLinesFrom(dist, |dist|, 0)
  }

  lemma PairLinesExact(dist: seq<seq<real>>)
    requires forall k :: 0 <= k < |dist| ==> |dist[k]| == |dist|
    requires forall p, q :: 0 <= p < |dist| && 0 <= q < |dist| ==> dist[p][q] >= 0.0
    ensures var r := PairLines(dist);
      && (forall k :: 0 <= k < |r| ==>
            0 <= r[k].i < r[k].j < |dist| && dist[r[k].i][r[k].j] < PairRange && 0.0 < r[k].opacity <= 1.0)
      && (forall a, b :: 0 <= a < b < |r| ==> (r[a].i, r[a].j) != (r[b].i, r[b].j))
      && (forall p, q :: 0 <= p < q < |dist| ==>
            (dist[p][q] < PairRange <==> Line(p, q, 1.0 - dist[p][q] / PairRange) in r))
  {
    var r := PairLines(dist);
    PairLinesSound(dist, |dist|, 0);
    PairLinesOrdered(dist, |dist|, 0);
    assert PairsOk(dist, |dist|, 0, r) && IncreasingPairs(r);
    forall k | 0 <= k < |r|
      ensures 0.0 < r[k].opacity <= 1.0
    {
      OpacityInRange(dist[r[k].i][r[k].j], PairRange);
    }
    forall p, q | 0 <= p < q < |dist|
      ensures dist[p][q] < PairRange <==> Line(p, q, 1.0 - dist[p][q] / PairRange) in r
    {
      if dist[p][q] < PairRange {
        PairLinesComplete(dist, |dist|, 0, p, q);
      }
    }
  }

  /** `1 - d/range` lies in (0,1] for `0 <= d < range`. */
  lemma OpacityInRange(d: real, range: real)
    requires 0.0 <= d < range
    ensures 0.0 < 1.0 - d / range <= 1.0
  {
    assert d / range < 1.0 by {
      assert d / range * range == d;
    }
  }

  /** The lines from particles `i..` to the cursor; `dc[m]` is particle
      `m`'s distance to the cursor. */
  function CursorLinesFrom(dc: seq<real>, i: nat): seq<Line>
    decreases |dc| - i
  {
    if i >= |dc| then []
    else
      var rest := CursorLinesFrom(dc, i + 1);
      if dc[i] < CursorRange then [Line(i, -1, 1.0 - dc[i] / CursorRange)] + rest else rest
  }

  /** Every line of `r` joins a particle in `i..` closer than 120 to the
      cursor, with opacity `1 - d/120`. */
  predicate CursorOk(dc: seq<real>, i: nat, r: seq<Line>)
  {
    forall k :: 0 <= k < |r| ==>
      && i <= r[k].i < |dc| && r[k].j == -1
      && dc[r[k].i] < CursorRange && r[k].opacity == 1.0 - dc[r[k].i] / CursorRange
  }

  lemma {:induction false} CursorLinesSound(dc: seq<real>, i: nat)
    ensures CursorOk(dc, i, CursorLinesFrom(dc, i))
    decreases |dc| - i
  {
    if i < |dc| {
      CursorLinesSound(dc, i + 1);
      var rest := CursorLinesFrom(dc, i + 1);
      assert CursorOk(dc, i + 1, rest);
      if dc[i] < CursorRange {
        var r := [Line(i, -1, 1.0 - dc[i] / CursorRange)] + rest;
        assert CursorLinesFrom(dc, i) == r;
        assert forall k :: 1 <= k < |r| ==> r[k] == rest[k - 1];
      }
    }
  }

  lemma {:induction false} CursorLinesComplete(dc: seq<real>, i: nat, m: nat)
    requires i <= m < |dc| && dc[m] < CursorRange
    ensures Line(m, -1, 1.0 - dc[m] / CursorRange) in CursorLinesFrom(dc, i)
    decreases |dc| - i
  {
    if i < m {
      CursorLinesComplete(dc, i + 1, m);
    }
  }

  /** The cursor lines: one for every particle closer than 120, with
      opacity `1 - d/120` in (0,1]. */
  function CursorLines(dc: seq<real>): seq<Line>
  {
    CursorLinesFrom(dc, 0)
  }

  predicate IncreasingParticles(r: seq<Line>)
  {
    forall a, b :: 0 <= a < b < |r| ==> r[a].i < r[b].i
  }

  /** The cursor lines come in strictly increasing particle order, so no
      particle gets two. */
  lemma {:induction false} CursorLinesOrdered(dc: seq<real>, i: nat)
    ensures IncreasingParticles(CursorLinesFrom(dc, i))
    decreases |dc| - i
  {
    if i < |dc| {
      CursorLinesOrdered(dc, i + 1);
      CursorLinesSound(dc, i + 1);
      var rest := CursorLinesFrom(dc, i + 1);
      assert CursorOk(dc, i + 1, rest);
      if dc[i] < CursorRange {
        var r := [Line(i, -1, 1.0 - dc[i] / CursorRange)] + rest;
        assert CursorLinesFrom(dc, i) == r;
        forall a, b | 0 <= a < b < |r| ensures r[a].i < r[b].i {
          assert r[b] == rest[b - 1];
          assert i + 1 <= rest[b - 1].i;
          if a > 0 {
            assert r[a] == rest[a - 1];
          }
        }
      } else {
        assert CursorLinesFrom(dc, i) == rest;
      }
    }
  }

  lemma CursorLinesExact(dc: seq<real>)
    requires forall m :: 0 <= m < |dc| ==> dc[m] >= 0.0
    ensures var r := CursorLines(dc);
      && (forall k :: 0 <= k < |r| ==>
            && 0 <= r[k].i < |dc| && r[k].j == -1 && dc[r[k].i] < CursorRange
            && r[k].opacity == 1.0 - dc[r[k].i] / CursorRange && 0.0 < r[k].opacity <= 1.0)
      && (forall a, b :: 0 <= a < b < |r| ==> r[a].i < r[b].i)
      && (forall m :: 0 <= m < |dc| ==>
            (dc[m] < CursorRange <==> Line(m, -1, 1.0 - dc[m] / CursorRange) in r))
  {
    var r := CursorLines(dc);
    CursorLinesSound(dc, 0);
    CursorLinesOrdered(dc, 0);
    assert r == CursorLinesFrom(dc, 0);
    assert CursorOk(dc, 0, r);
    forall k | 0 <= k < |r|
      ensures 0.0 < r[k].opacity <= 1.0
    {
      OpacityInRange(dc[r[k].i], CursorRange);
    }
    forall m | 0 <= m < |dc|
      ensures dc[m] < CursorRange <==> Line(m, -1, 1.0 - dc[m] / CursorRange) in r
    {
      if dc[m] < CursorRange {
        CursorLinesComplete(dc, 0, m);
      }
    }
  }

  // ---------------------------------------------------------------------
  // Lines in terms of positions

  /** Squared distance from particle `p` to the point `(x, y)`. */
  function SquaredGap(p: Particle, x: real, y: real): real
  {
    (p.x - x) * (p.x - x) + (p.y - y) * (p.y - y)
  }

  /** A distance is below a positive range exactly when the sum of squares
      it is the root of is below the range squared. */
  lemma BelowRangeIffSquares(d: real, dx: real, dy: real, range: real)
    requires IsDistance(d, dx, dy) && range > 0.0
    ensures d < range <==> dx * dx + dy * dy < range * range
  {
    if d < range {
      SquareGrows(d, range);
    } else if d > range {
      SquareGrows(range, d);
    }
  }

  /** `dist` holds the distances between the particles' positions. */
  predicate PairDistances(ps: seq<Particle>, dist: seq<seq<real>>)
  {
    && |dist| == |ps|
    && (forall k :: 0 <= k < |dist| ==> |dist[k]| == |dist|)
    && forall p, q :: 0 <= p < |ps| && 0 <= q < |ps| ==>
         IsDistance(dist[p][q], ps[p].x - ps[q].x, ps[p].y - ps[q].y)
  }

  /** One entry of the distance matrix: non-negative, and below the pair
      range exactly when the squared gap is. */
  lemma PairGap(ps: seq<Particle>, dist: seq<seq<real>>, p: nat, q: nat)
    requires PairDistances(ps, dist) && p < |ps| && q < |ps|
    ensures dist[p][q] >= 0.0
    ensures dist[p][q] < PairRange <==> SquaredGap(ps[p], ps[q].x, ps[q].y) < PairRange * PairRange
  {
    var dx, dy := ps[p].x - ps[q].x, ps[p].y - ps[q].y;
    assert IsDistance(dist[p][q], dx, dy);
    BelowRangeIffSquares(dist[p][q], dx, dy, PairRange);
    assert SquaredGap(ps[p], ps[q].x, ps[q].y) == dx * dx + dy * dy;
  }

  /** On the particles' own distances, particles `p < q` are joined exactly
      when the squared gap between them is below `80 * 80`. */
  lemma ParticlePairLines(ps: seq<Particle>, dist: seq<seq<real>>)
    requires PairDistances(ps, dist)
    ensures var r := PairLines(dist);
      && (forall k :: 0 <= k < |r| ==>
            0 <= r[k].i < r[k].j < |ps| && SquaredGap(ps[r[k].i], ps[r[k].j].x, ps[r[k].j].y) < PairRange * PairRange)
      && (forall p, q :: 0 <= p < q < |ps| ==>
            (SquaredGap(ps[p], ps[q].x, ps[q].y) < PairRange * PairRange <==>
               Line(p, q, 1.0 - dist[p][q] / PairRange) in r))
  {
    forall p, q | 0 <= p < |dist| && 0 <= q < |dist|
      ensures dist[p][q] >= 0.0
    {
      PairGap(ps, dist, p, q);
    }
    PairLinesExact(dist);
    forall p, q | 0 <= p < |ps| && 0 <= q < |ps|
      ensures dist[p][q] < PairRange <==> SquaredGap(ps[p], ps[q].x, ps[q].y) < PairRange * PairRange
    {
      PairGap(ps, dist, p, q);
    }
  }

  /** On the particles' own distances to the cursor, particle `m` is joined
      to it exactly when its squared gap to the cursor is below `120 * 120`. */
  lemma ParticleCursorLines(ps: seq<Particle>, cursor: Point, dc: seq<real>)
    requires |dc| == |ps|
    requires forall m :: 0 <= m < |ps| ==> IsDistance(dc[m], ps[m].x - cursor.x, ps[m].y - cursor.y)
    ensures var r := CursorLines(dc);
      && (forall k :: 0 <= k < |r| ==>
            0 <= r[k].i < |ps| && SquaredGap(ps[r[k].i], cursor.x, cursor.y) < CursorRange * CursorRange)
      && (forall m :: 0 <= m < |ps| ==>
            (SquaredGap(ps[m], cursor.x, cursor.y) < CursorRange * CursorRange <==>
               Line(m, -1, 1.0 - dc[m] / CursorRange) in r))
  {
    CursorLinesExact(dc);
    forall m | 0 <= m < |ps|
      ensures dc[m] < CursorRange <==> SquaredGap(ps[m], cursor.x, cursor.y) < CursorRange * CursorRange
    {
      var dx, dy := ps[m].x - cursor.x, ps[m].y - cursor.y;
      BelowRangeIffSquares(dc[m], dx, dy, CursorRange);
      assert SquaredGap(ps[m], cursor.x, cursor.y) == dx * dx + dy * dy;
    }
  }
}

=== FILE: ai_terminal.dfy ===
/** The animated terminal: a fixed script of lines, some typed in character
    by character and some added at once, replayed in an endless cycle that
    ends each round by showing one of five code snippets. */
module AITerminal {
  import opened Basics

  // Theme colours.
  const TextColor: string := "#a9b8d5"
  const CommandColor: string := "#82aaff"
  const SuccessColor: string := "#7ce3b1"
  const ErrorColor: string := "#ff5370"

  const SnippetCount: nat := 5

  /** The five code snippets shown at the end of a round. */
  function CodeSnippet(i: nat): string
    requires i < SnippetCount
  {
    if i == 0 then
      "async function processInput(userQuery) {\n  const embeddingVector = await embedText(userQuery);\n  const context = await retrieveFromKnowledgeBase(embeddingVector);\n  return generateResponse(context, userQuery);\n}"
    else if i == 1 then
      "class AttentionMechanism {\n  constructor(dimensions) {\n    this.queryMatrix = initializeWeights(dimensions);\n    this.keyMatrix = initializeWeights(dimensions);\n    this.valueMatrix = initializeWeights(dimensions);\n  }\n\n  forward(input) {\n    // Multi-head attention calculation\n    const attention = softmax(matrixMultiply(input, this.queryMatrix));\n    return attention;\n  }\n}"
    else if i == 2 then
      "function transformerLayer(input, params) {\n  // Self-attention mechanism\n  const attentionOutput = multiHeadAttention(input);\n  const normalized = layerNorm(input + attentionOutput);\n  \n  // Feed-forward network\n  const ffnOutput = feedForward(normalized);\n  return layerNorm(normalized + ffnOutput);\n}"
    else if i == 3 then
      "const model = await tf.loadLayersModel(\"https://ai-models/gpt-nano.json\");\nconst tokenizedInput = tokenizer.encode(text);\nconst predictions = model.predict(tokenizedInput);\nreturn decodeOutput(predictions);"
    else
      "def train_diffusion_model(dataset, epochs=100):\n    model = UNet(channels=128, attention_levels=[2,4,8])\n    optimizer = Adam(lr=1e-4)\n    \n    for epoch in range(epochs):\n        for batch in dataset:\n            noise = add_noise(batch, noise_schedule)\n            loss = model(batch, noise)\n            loss.backward()\n            optimizer.step()"
  }

  /** One finished line of output and its colour ("" for the blank lines). */
  datatype Line = Line(text: string, color: string)

  /** The terminal's state. `progress` is 0 or 1 in practice. */
  datatype Term = Term(
    lines: seq<Line>,
    isTyping: bool,
    currentLine: string,
    showingCode: bool,
    codeSnippet: string,
    progress: real)

  function InitialTerm(): Term
  {
    Term([], false, "", false, "", 0.0)
  }

  // ------------------------------------------------------------- one line

  /** `addLineWithTypingEffect` before its loop: typing starts on an empty
      live line. */
  function TypeBegin(t: Term): Term
  {
    t.(isTyping := true, currentLine := "")
  }

  /** The first `i` iterations of the typing loop, each appending the next
      character of `text` to the live line. */
  function TypeChars(t: Term, text: string, i: nat): Term
    requires i <= |text|
  {
    if i == 0 then t
    else
      var u := TypeChars(t, text, i - 1);
      u.(currentLine := u.currentLine + [text[i - 1]])
  }

  /** The end of `addLineWithTypingEffect`: the live line is committed. */
  function TypeFinish(t: Term, text: string, color: string): Term
  {
    t.(isTyping := false, lines := t.lines + [Line(text, color)], currentLine := "")
  }

  /** After `i` characters the live line is exactly the first `i` characters
      of the text, and nothing else has changed since typing began. */
  lemma {:induction false} TypingPrefix(t: Term, text: string, i: nat)
    requires i <= |text|
    ensures TypeChars(TypeBegin(t), text, i) == TypeBegin(t).(currentLine := text[..i])
  {
    if i > 0 {
      TypingPrefix(t, text, i - 1);
      assert text[..i] == text[..i - 1] + [text[i - 1]];
    }
  }

  /** The whole of `addLineWithTypingEffect`. */
  function TypeLine(t: Term, text: string, color: string): Term
  {
    TypeFinish(TypeChars(TypeBegin(t), text, |text|), text, color)
  }

  /** Typing a line appends exactly that line, clears the live line and ends
      typing; the code panel and progress are untouched. */
  lemma TypeLineEffect(t: Term, text: string, color: string)
    ensures TypeLine(t, text, color)
      == t.(lines := t.lines + [Line(text, color)], isTyping := false, currentLine := "")
  {
    TypingPrefix(t, text, |text|);
  }

  /** `addLine`: appends the line at once. */
  function AddLine(t: Term, text: string, color: string): (r: Term)
    ensures r.lines == t.lines + [Line(text, color)]
    ensures r.(lines := t.lines) == t
  {
    t.(lines := t.lines + [Line(text, color)])
  }

  /** The live line's colour: the command colour when it starts with "$". */
  function LiveColor(currentLine: string): (c: string)
    ensures c == CommandColor <==> |currentLine| > 0 && currentLine[0] == '$'
    ensures c == CommandColor || c == TextColor
  {
    if |currentLine| > 0 && currentLine[0] == '$' then CommandColor else TextColor
  }

  // --------------------------------------------------------------- script

  /** One step of the script: a typed line or an instant line. */
  datatype Step = Typed(text: string, color: string) | Instant(text: string, color: string)

  /** The script of one round, in order. Long lines are written as
      concatenations of shorter literals. */
  const Script: seq<Step> := [
    Typed("> whoami", SuccessColor),
    Typed("I'm a Software Engineering student ", TextColor),
    Typed("> echo \"Passion & Skills\"", CommandColor),
    Typed("Full Stack JavaScript Developer", TextColor),
    Typed("Specialized in building " + "scalable web & mobile apps", TextColor),
    Typed("> tech-stack --list", CommandColor),
    Instant("\U{2714} React \U{00B7} Node.js \U{00B7} " + "React Native \U{00B7} Express \U{00B7} " + "MongoDB \U{00B7} TypeScript", SuccessColor),
    Instant("\U{2714} REST APIs \U{00B7} Expo \U{00B7} " + "Redux \U{00B7} Tailwind \U{00B7} Recharts", SuccessColor),
    Instant("", ""),
    Typed("> mission", CommandColor),
    Typed("Deliver clean, maintainable code " + "and bring ideas to life \U{1F4A1}", TextColor),
    Typed("> collab --cross-functional", CommandColor),
    Instant("\U{2714} Collaborates seamlessly " + "with designers, devs and stakeholders", SuccessColor),
    Instant("", ""),
    Typed("> status", CommandColor),
    Typed("Always learning. Always building. " + "Always leveling up.", TextColor),
    Typed("hmm ok let's clear :')", ErrorColor)
  ]

  function LineOf(s: Step): Line
  {
    Line(s.text, s.color)
  }

  function RunStep(t: Term, s: Step): Term
  {
    match s
    case Typed(text, color) => TypeLine(t, text, color)
    case Instant(text, color) => AddLine(t, text, color)
  }

  /** The steps in order. */
  function RunSteps(t: Term, steps: seq<Step>): Term
  {
    if |steps| == 0 then t
    else
      var n := |steps| - 1;
      RunStep(RunSteps(t, steps[..n]), steps[n])
  }

  /** Running steps appends one line per step, in order, and leaves the code
      panel and progress alone; after a typed last step nothing is being
      typed. */
  lemma {:induction false} RunStepsAppends(t: Term, steps: seq<Step>)
    ensures |RunSteps(t, steps).lines| == |t.lines| + |steps|
    ensures RunSteps(t, steps).lines[..|t.lines|] == t.lines
    ensures forall k :: 0 <= k < |steps| ==> RunSteps(t, steps).lines[|t.lines| + k] == LineOf(steps[k])
    ensures RunSteps(t, steps).showingCode == t.showingCode
    ensures RunSteps(t, steps).codeSnippet == t.codeSnippet
    ensures RunSteps(t, steps).progress == t.progress
    ensures |steps| > 0 && steps[|steps| - 1].Typed? ==>
      !RunSteps(t, steps).isTyping && RunSteps(t, steps).currentLine == ""
  {
    if |steps| > 0 {
      var n := |steps| - 1;
      RunStepsAppends(t, steps[..n]);
      var u := RunSteps(t, steps[..n]);
      var v := RunSteps(t, steps);
      RunStepEffect(u, steps[n]);
      assert v.lines == u.lines + [LineOf(steps[n])];
      assert v.lines[..|t.lines|] == u.lines[..|t.lines|];
      forall k | 0 <= k < |steps|
        ensures v.lines[|t.lines| + k] == LineOf(steps[k])
      {
        if k < n {
          assert steps[..n][k] == steps[k];
        }
      }
    }
  }

  /** One step appends its line; only typing and the live line may change
      besides, and a typed step leaves nothing being typed. */
  lemma RunStepEffect(u: Term, s: Step)
    ensures RunStep(u, s).lines == u.lines + [LineOf(s)]
    ensures RunStep(u, s).(lines := u.lines, isTyping := u.isTyping, currentLine := u.currentLine) == u
    ensures s.Typed? ==> !RunStep(u, s).isTyping && RunStep(u, s).currentLine == ""
  {
    if s.Typed? {
      TypeLineEffect(u, s.text, s.color);
    }
  }

  /** The script has seventeen steps and ends with a typed line. */
  lemma ScriptShape()
    ensures |Script| == 17 && Script[16].Typed?
  {
  }

  /** One round of `simulateTerminal`: clear, run the script, fill the
      progress bar and show the snippet picked by `r`. */
  function Cycle(t: Term, r: Unit01): Term
  {
    RunSteps(t.(lines := [], progress := 0.0), Script)
      .(progress := 1.0, codeSnippet := CodeSnippet(PickIndex(r, SnippetCount)), showingCode := true)
  }

  /** The panel is hidden again before the next round. */
  function HideCode(t: Term): (r: Term)
    ensures !r.showingCode && r.(showingCode := t.showingCode) == t
  {
    t.(showingCode := false)
  }

  /** The terminal after the rounds drawn so far: it starts empty, and
      between two rounds the code panel is hidden. */
  function Rounds(draws: seq<Unit01>): Term
  {
    if |draws| == 0 then InitialTerm()
    else
      var n := |draws| - 1;
      Cycle(HideCode(Rounds(draws[..n])), draws[n])
  }

  /** Every round ends with exactly the seventeen script lines in order,
      whatever was on screen before, with the bar full, nothing being typed
      and one of the five snippets shown. */
  lemma CycleResult(t: Term, r: Unit01)
    ensures |Cycle(t, r).lines| == 17
    ensures forall k :: 0 <= k < 17 ==> Cycle(t, r).lines[k] == LineOf(Script[k])
    ensures Cycle(t, r).progress == 1.0
    ensures !Cycle(t, r).isTyping && Cycle(t, r).currentLine == ""
    ensures Cycle(t, r).showingCode && Cycle(t, r).codeSnippet == CodeSnippet(PickIndex(r, SnippetCount))
  {
    ScriptShape();
    RoundResult(t, CodeSnippet(PickIndex(r, SnippetCount)), Script);
  }

  /** What a round makes of any script that ends with a typed line, for the
      snippet it shows. */
  lemma RoundResult(t: Term, snippet: string, steps: seq<Step>)
    requires |steps| > 0 && steps[|steps| - 1].Typed?
    ensures var u := RunSteps(t.(lines := [], progress := 0.0), steps)
      .(progress := 1.0, codeSnippet := snippet, showingCode := true);
      && |u.lines| == |steps|
      && (forall k :: 0 <= k < |steps| ==> u.lines[k] == LineOf(steps[k]))
      && u.progress == 1.0 && !u.isTyping && u.currentLine == ""
      && u.showingCode && u.codeSnippet == snippet
  {
    RunStepsAppends(t.(lines := [], progress := 0.0), steps);
  }

  /** A round does not depend on what the previous round left behind: its
      outcome is fixed by the snippet draw alone. */
  lemma CycleResets(t: Term, u: Term, r: Unit01)
    ensures Cycle(t, r) == Cycle(u, r)
  {
    CycleResult(t, r);
    CycleResult(u, r);
    assert Cycle(t, r).lines == Cycle(u, r).lines;
  }

  /** Whatever rounds came before, the terminal shows what one round from
      the empty terminal shows with the latest draw. */
  lemma RoundsLast(draws: seq<Unit01>)
    requires |draws| > 0
    ensures Rounds(draws) == Cycle(InitialTerm(), draws[|draws| - 1])
  {
    var n := |draws| - 1;
    CycleResets(HideCode(Rounds(draws[..n])), InitialTerm(), draws[n]);
  }

  /** A line the live-line colour rule does not treat as a command. */
  predicate NoDollarStart(s: string)
  {
    |s| == 0 || s[0] != '$'
  }

  /** No script line starts with "$". */
  lemma ScriptNoDollar()
    ensures forall k :: 0 <= k < |Script| ==> NoDollarStart(Script[k].text)
  {
  }

  /** No script line starts with "$", so while the script types, the live
      line is always drawn in the text colour, even for the command lines. */
  lemma LiveLineIsText(k: nat, i: nat)
    requires k < |Script| && i <= |Script[k].text|
    ensures LiveColor(Script[k].text[..i]) == TextColor
  {
    ScriptNoDollar();
    var text := Script[k].text;
    assert NoDollarStart(text);
    if i > 0 {
      assert text[..i][0] == text[0];
    }
  }
}

=== FILE: basics.dfy ===
/** Shared vocabulary of the widget models: an option type, random draws made
    explicit as reals in [0,1), and a few sequence helpers. */
module Basics {

  datatype Option<+T> = None | Some(value: T)

  /** One value of `Math.random()`: a real in [0,1). Every random call of the
      widgets becomes an argument of this type. */
  type Unit01 = r: real | 0.0 <= r < 1.0

  function Min(a: int, b: int): (r: int)
    ensures r <= a && r <= b
    ensures r == a || r == b
  {
    if a <= b then a else b
  }

  function MinReal(a: real, b: real): (r: real)
    ensures r <= a && r <= b
    ensures r == a || r == b
  {
    if a <= b then a else b
  }

  function MaxReal(a: real, b: real): (r: real)
    ensures a <= r && b <= r
    ensures r == a || r == b
  {
    if a <= b then b else a
  }

  function Abs(v: real): (a: real)
    ensures a >= 0.0 && (a == v || a == -v)
  {
    if v < 0.0 then -v else v
  }

  /** `b` to the power `n`. */
  function Pow(b: real, n: nat): real
  {
    if n == 0 then 1.0 else b * Pow(b, n - 1)
  }

  /** A power of a base in (0,1] lies in (0,1], and a higher power is no
      larger. */
  lemma {:induction false} PowUnit(b: real, n: nat)
    requires 0.0 < b <= 1.0
    ensures 0.0 < Pow(b, n) <= 1.0
    ensures Pow(b, n + 1) <= Pow(b, n)
  {
    if n > 0 {
      PowUnit(b, n - 1);
    }
    ScaleBelow(Pow(b, n), b);
  }

  /** Scaling a positive value by a factor in (0,1] keeps it positive and
      does not increase it. */
  lemma ScaleBelow(v: real, f: real)
    requires 0.0 < v && 0.0 < f <= 1.0
    ensures 0.0 < f * v <= v
  {
    assert v - f * v == (1.0 - f) * v;
  }

  /** Scaling a non-negative value by a factor below 1 does not grow it, and
      shrinks it when it is positive. */
  lemma ScaleBelowOne(v: real, f: real)
    requires 0.0 <= v && 0.0 <= f < 1.0
    ensures v * f <= v
    ensures 0.0 < v ==> v * f < v
  {
    assert v - v * f == v * (1.0 - f);
  }

  /** The product of two positive reals is positive. */
  lemma PositiveProduct(a: real, b: real)
    requires 0.0 < a && 0.0 < b
    ensures 0.0 < a * b
  {
  }

  /** A fraction below 1 of a positive amount is below that amount. */
  lemma FractionBelow(r: real, m: real)
    requires 0.0 <= r < 1.0 && 0.0 < m
    ensures r * m < m
  {
    assert m - r * m == (1.0 - r) * m;
    PositiveProduct(1.0 - r, m);
  }

  /** `Math.floor(r * n)` for a random `r`: the usual way the widgets pick an
      index into a collection of `n` elements. */
  function PickIndex(r: Unit01, n: nat): (i: nat)
    requires n > 0
    ensures i < n
    ensures i as real <= r * n as real < i as real + 1.0
  {
    var m := n as real;
    var x := r * m;
    assert 0.0 <= x by { assert 0.0 <= r && 0.0 < m; }
    FractionBelow(r, m);
    var i := x.Floor;
    assert i as real <= x < i as real + 1.0;
    assert i < n by { assert i as real < m; }
    i
  }

  /** `Array.prototype.filter`: the elements satisfying `p`, in order. */
  function Filter<T(!new)>(s: seq<T>, p: T -> bool): (r: seq<T>)
    ensures |r| <= |s|
    ensures forall x :: x in r <==> x in s && p(x)
  {
    if |s| == 0 then []
    else
      var rest := Filter(s[..|s| - 1], p);
      assert forall x :: x in s <==> x in s[..|s| - 1] || x == s[|s| - 1] by {
        assert s == s[..|s| - 1] + [s[|s| - 1]];
      }
      if p(s[|s| - 1]) then rest + [s[|s| - 1]] else rest
  }

  /** Filtering a concatenation filters each part and keeps them in order:
      together with `FilterOne` this fixes the order and multiplicity of
      every kept element, as `Array.prototype.filter` does. */
  lemma {:induction false} FilterAppend<T(!new)>(a: seq<T>, b: seq<T>, p: T -> bool)
    ensures Filter(a + b, p) == Filter(a, p) + Filter(b, p)
    decreases |b|
  {
    if |b| == 0 {
      assert a + b == a;
    } else {
      var n := |b| - 1;
      assert (a + b)[..|a + b| - 1] == a + b[..n];
      assert (a + b)[|a + b| - 1] == b[n];
      FilterAppend(a, b[..n], p);
    }
  }

  /** A single element is kept exactly when it satisfies the predicate. */
  lemma FilterOne<T(!new)>(x: T, p: T -> bool)
    ensures Filter([x], p) == if p(x) then [x] else []
  {
    assert [x][..0] == [];
  }

  /** A list whose elements all satisfy the predicate is kept whole; one
      whose elements all fail it is dropped whole. */
  lemma {:induction false} FilterUniform<T(!new)>(s: seq<T>, p: T -> bool)
    ensures (forall j :: 0 <= j < |s| ==> p(s[j])) ==> Filter(s, p) == s
    ensures (forall j :: 0 <= j < |s| ==> !p(s[j])) ==> Filter(s, p) == []
    decreases |s|
  {
    if |s| > 0 {
      FilterUniform(s[..|s| - 1], p);
    }
  }

  /** When exactly the first `m` elements satisfy the predicate, filtering
      keeps exactly those. */
  lemma FilterPrefix<T(!new)>(s: seq<T>, m: nat, p: T -> bool)
    requires m <= |s|
    requires forall g :: 0 <= g < |s| ==> (p(s[g]) <==> g < m)
    ensures Filter(s, p) == s[..m]
  {
    FilterPrefixParts(s, m, p);
    assert s == s[..m] + s[m..];
    FilterAppend(s[..m], s[m..], p);
  }

  /** The two halves of `FilterPrefix`: the first `m` elements all pass and
      the rest all fail. */
  lemma FilterPrefixParts<T(!new)>(s: seq<T>, m: nat, p: T -> bool)
    requires m <= |s|
    requires forall g :: 0 <= g < |s| ==> (p(s[g]) <==> g < m)
    ensures Filter(s[..m], p) == s[..m]
    ensures Filter(s[m..], p) == []
  {
    var front, back := s[..m], s[m..];
    forall j | 0 <= j < |front| ensures p(front[j]) {
      assert front[j] == s[j];
    }
    forall j | 0 <= j < |back| ensures !p(back[j]) {
      assert back[j] == s[m + j];
    }
    FilterUniform(front, p);
    FilterUniform(back, p);
  }

  /** `Array.prototype.slice(0, n)`: at most the first `n` elements. */
  function Take<T>(s: seq<T>, n: nat): (r: seq<T>)
    ensures |r| == Min(|s|, n)
    ensures forall j :: 0 <= j < |r| ==> r[j] == s[j]
  {
    if |s| <= n then s else s[..n]
  }
}

=== FILE: contact.dfy ===
/** The contact page's form: edits of one field at a time, the submit flow
    around the mail service (abstracted to a success or failure outcome),
    the reset after a successful send, and the mobile breakpoint. */
module Contact {
  import opened Basics

  const RecipientEmail: string := "mokhlestarmiz001@gmail.com"
  const FailureMessage: string := "Failed to send email. Please try again or reach out directly via email."
  /** Viewport widths below this count as mobile. */
  const MobileBreakpoint: int := 768

  /** The form state is an object keyed by field name; a change event may
      name any key. */
  type Form = map<string, string>

  function InitialForm(): (f: Form)
    ensures HasFields(f)
  {
    map["name" := "", "email" := "", "subject" := "", "message" := "", "to_email" := RecipientEmail]
  }

  /** The five fields the page starts with are present. */
  predicate HasFields(f: Form)
  {
    "name" in f && "email" in f && "subject" in f && "message" in f && "to_email" in f
  }

  /** `handleChange`: set the field named by the event. */
  function HandleChange(f: Form, name: string, value: string): (r: Form)
    ensures name in r && r[name] == value
  {
    f[name := value]
  }

  /** A change sets exactly the named field; every other field keeps its
      value, no field disappears and no other field appears. */
  lemma HandleChangeOnlyNamed(f: Form, name: string, value: string, k: string)
    requires k != name
    ensures k in HandleChange(f, name, value) <==> k in f
    ensures k in f ==> HandleChange(f, name, value)[k] == f[k]
    ensures HasFields(f) ==> HasFields(HandleChange(f, name, value))
    ensures HandleChange(f, name, value).Keys == f.Keys + {name}
  {
  }

  /** The template parameters sent to the mail service. */
  function Payload(f: Form): (p: map<string, string>)
    requires HasFields(f)
  {
    f + map["subject" := f["subject"], "message" := f["message"], "from_name" := f["name"],
            "reply_to" := f["email"], "to_email" := RecipientEmail]
  }

  /** The payload carries every form field unchanged except `to_email`,
      which is always the recipient, and adds the sender's name and reply
      address; nothing else. */
  lemma PayloadContents(f: Form, k: string)
    requires HasFields(f)
    ensures Payload(f).Keys == f.Keys + {"from_name", "reply_to"}
    ensures Payload(f)["from_name"] == f["name"] && Payload(f)["reply_to"] == f["email"]
    ensures Payload(f)["to_email"] == RecipientEmail
    ensures k in f && k != "to_email" && k != "from_name" && k != "reply_to" ==> Payload(f)[k] == f[k]
  {
  }

  /** The page state around the form. */
  datatype Page = Page(
    form: Form,
    isSubmitting: bool,
    isSubmitted: bool,
    submitError: Option<string>,
    isMobile: bool)

  function InitialPage(): Page
  {
    Page(InitialForm(), false, false, None, false)
  }

  /** What the mail service call comes back with. */
  datatype SendOutcome = Sent | Failed

  /** `handleSubmit` up to the call: submitting, with no error shown. */
  function Submit(p: Page): (r: Page)
    ensures r.isSubmitting && r.submitError == None
    ensures r.(isSubmitting := p.isSubmitting, submitError := p.submitError) == p
  {
    p.(isSubmitting := true, submitError := None)
  }

  /** The call's outcome: a success marks the form sent; a failure shows the
      fixed message. The form itself is left alone either way. */
  function Resolve(p: Page, outcome: SendOutcome): (r: Page)
    ensures !r.isSubmitting && r.form == p.form && r.isMobile == p.isMobile
    ensures outcome == Sent ==> r.isSubmitted && r.submitError == p.submitError
    ensures outcome == Failed ==> r.submitError == Some(FailureMessage) && r.isSubmitted == p.isSubmitted
  {
    match outcome
    case Sent => p.(isSubmitting := false, isSubmitted := true)
    case Failed => p.(isSubmitting := false, submitError := Some(FailureMessage))
  }

  /** Three seconds after a success the form is emptied again. */
  function ResetAfterSuccess(p: Page): (r: Page)
    ensures !r.isSubmitted && r.form == InitialForm()
    ensures r.isSubmitting == p.isSubmitting && r.submitError == p.submitError && r.isMobile == p.isMobile
  {
    p.(isSubmitted := false, form := InitialForm())
  }

  /** A successful round trip from any page ends with an empty form, no
      error and nothing pending; a failed one keeps what the user typed and
      shows the message. */
  lemma SubmitRoundTrip(p: Page)
    ensures ResetAfterSuccess(Resolve(Submit(p), Sent))
      == Page(InitialForm(), false, false, None, p.isMobile)
    ensures Resolve(Submit(p), Failed)
      == Page(p.form, false, p.isSubmitted, Some(FailureMessage), p.isMobile)
    ensures ResetAfterSuccess(Resolve(Submit(InitialPage()), Sent)) == InitialPage()
  {
  }

  /** `checkMobile`: the page is in mobile layout below 768 pixels. */
  function CheckMobile(p: Page, innerWidth: int): (r: Page)
    ensures r.isMobile <==> innerWidth < MobileBreakpoint
    ensures r.(isMobile := p.isMobile) == p
  {
    p.(isMobile := innerWidth < MobileBreakpoint)
  }

  /** Narrowing a mobile viewport keeps it mobile; widening a desktop one
      keeps it desktop. */
  lemma MobileMonotone(p: Page, w1: int, w2: int)
    requires w1 <= w2
    ensures CheckMobile(p, w2).isMobile ==> CheckMobile(p, w1).isMobile
    ensures !CheckMobile(p, w1).isMobile ==> !CheckMobile(p, w2).isMobile
  {
  }
}

=== FILE: data_visualization.dfy ===
/** The contribution grid: 52 weeks of 7 random intensities whose range
    depends on how recent the week is, the colour class and tooltip label of
    each intensity, the day offset of each cell, and the month labels. */
module DataVisualization {
  import opened Basics

  const Weeks: nat := 52
  const Days: nat := 7

  /** The draws spent on one cell: the activity gate, the base value, the
      streak gate, the streak increment and the weekend gate. Each is used
      only on the branch that needs it. */
  datatype CellDraw = CellDraw(gate: Unit01, value: Unit01, streakGate: Unit01, streakAdd: Unit01, weekendGate: Unit01)

  /** The highest intensity a week can hold: 4 for weeks 41..51, 3 for weeks
      31..40 and 2 for the earlier ones. */
  function BandMax(week: int): nat
  {
    if week > 40 then 4 else if week > 30 then 3 else 2
  }

  function IsWeekend(day: int): bool
  {
    day == 0 || day == 6
  }

  /** The intensity of one cell, given the intensity of the previous day of
      the same week (`prev`, unused on day 0). */
  function Intensity(week: int, day: int, prev: int, d: CellDraw): (r: int)
    ensures 0 <= r <= BandMax(week)
  {
    if week > 40 then
      var base := if d.gate > 0.5 then PickIndex(d.value, 4) + 1 else 0;
      var streak := if day > 0 && prev > 0 && d.streakGate > 0.3 then Min(4, prev + PickIndex(d.streakAdd, 2)) else base;
      if IsWeekend(day) && d.weekendGate > 0.3 then 0 else streak
    else if week > 30 then
      if d.gate > 0.7 then PickIndex(d.value, 3) + 1 else 0
    else
      if d.gate > 0.85 then PickIndex(d.value, 2) + 1 else 0
  }

  /** The previous day's intensity, as the generator reads it. */
  function Prev(row: seq<int>, day: nat): int
  {
    if 0 < day <= |row| then row[day - 1] else 0
  }

  /** A generated week: seven cells, each the intensity its draws give after
      the day before it. */
  predicate WeekOk(week: int, row: seq<int>, ds: seq<CellDraw>)
  {
    && |row| == Days
    && |ds| >= Days
    && forall day :: 0 <= day < Days ==> row[day] == Intensity(week, day, Prev(row, day), ds[day])
  }

  /** One week, as the inner loop builds it. */
  method GenerateWeek(week: int, ds: seq<CellDraw>) returns (row: seq<int>)
    requires |ds| >= Days
    ensures WeekOk(week, row, ds)
    ensures forall day :: 0 <= day < Days ==> 0 <= row[day] <= BandMax(week)
  {
    row := [];
    var day := 0;
    while day < Days
      invariant 0 <= day <= Days && |row| == day
      invariant forall k :: 0 <= k < day ==> row[k] == Intensity(week, k, Prev(row, k), ds[k])
      invariant forall k :: 0 <= k < day ==> 0 <= row[k] <= BandMax(week)
    {
      var intensity := Intensity(week, day, Prev(row, day), ds[day]);
      row := row + [intensity];
      assert forall k :: 0 <= k < day ==> Prev(row, k) == Prev(row[..day], k);
      day := day + 1;
    }
  }

  predicate EnoughDraws(draws: seq<seq<CellDraw>>)
  {
    |draws| >= Weeks && forall w :: 0 <= w < |draws| ==> |draws[w]| >= Days
  }

  /** `generateContributionData`: 52 weeks of 7 intensities, each within its
      week's band. */
  method GenerateContributionData(draws: seq<seq<CellDraw>>) returns (data: seq<seq<int>>)
    requires EnoughDraws(draws)
    ensures |data| == Weeks
    ensures forall w :: 0 <= w < Weeks ==> WeekOk(w, data[w], draws[w])
    ensures forall w :: 0 <= w < Weeks ==>
      |data[w]| == Days && forall day :: 0 <= day < Days ==> 0 <= data[w][day] <= BandMax(w)
  {
    data := [];
    var week := 0;
    while week < Weeks
      invariant 0 <= week <= Weeks && |data| == week
      invariant forall w :: 0 <= w < week ==> WeekOk(w, data[w], draws[w])
      invariant forall w :: 0 <= w < week ==>
        |data[w]| == Days && forall day :: 0 <= day < Days ==> 0 <= data[w][day] <= BandMax(w)
    {
      var row := GenerateWeek(week, draws[week]);
      data := data + [row];
      week := week + 1;
    }
  }

  /** In the recent band a weekend cell whose weekend draw exceeds 0.3 is 0,
      whatever the other draws. */
  lemma WeekendOverride(week: int, day: int, prev: int, d: CellDraw)
    requires week > 40 && IsWeekend(day) && d.weekendGate > 0.3
    ensures Intensity(week, day, prev, d) == 0
  {
  }

  /** In the recent band a streak continues the previous day's intensity or
      raises it by one, never above 4. */
  lemma StreakRule(week: int, day: int, prev: int, d: CellDraw)
    requires week > 40 && day > 0 && prev > 0 && d.streakGate > 0.3
    requires !(IsWeekend(day) && d.weekendGate > 0.3)
    ensures Intensity(week, day, prev, d) == Min(4, prev) || Intensity(week, day, prev, d) == Min(4, prev + 1)
  {
  }

  /** Outside the recent band a cell is zero unless its gate draw passes
      (0.7 for weeks 31..40, 0.85 before), and then it is at least 1. */
  lemma QuietBands(week: int, day: int, prev: int, d: CellDraw)
    requires week <= 40
    ensures Intensity(week, day, prev, d) > 0 <==> d.gate > (if week > 30 then 0.7 else 0.85)
  {
  }

  // ------------------------------------------------------ colours, labels

  /** The colour class of an intensity; the array lookup has nothing outside
      0..4. */
  function ColorClass(intensity: int): Option<string>
  {
    if intensity == 0 then Some("bg-gray-800")
    else if intensity == 1 then Some("bg-green-900")
    else if intensity == 2 then Some("bg-green-700")
    else if intensity == 3 then Some("bg-green-600")
    else if intensity == 4 then Some("bg-green-500")
    else None
  }

  /** The tooltip's contribution label; every value other than 0..3 reads
      "10+ contributions". */
  function ContributionLabel(intensity: int): string
  {
    if intensity == 0 then "No contributions"
    else if intensity == 1 then "1-2 contributions"
    else if intensity == 2 then "3-5 contributions"
    else if intensity == 3 then "6-9 contributions"
    else "10+ contributions"
  }

  /** Every intensity 0..4 has a colour class, and distinct intensities get
      distinct classes and distinct labels. */
  lemma ColorsAndLabels(a: int, b: int)
    requires 0 <= a <= 4 && 0 <= b <= 4
    ensures ColorClass(a).Some?
    ensures ColorClass(b).Some?
    ensures a != b ==> ColorClass(a) != ColorClass(b)
    ensures a != b ==> ContributionLabel(a) != ContributionLabel(b)
  {
  }

  /** Every cell of generated data has a colour class. */
  lemma GridHasColors(data: seq<seq<int>>, draws: seq<seq<CellDraw>>, w: nat, day: nat)
    requires |data| == Weeks && |draws| >= Weeks
    requires forall v :: 0 <= v < Weeks ==> WeekOk(v, data[v], draws[v])
    requires w < Weeks && day < |data[w]|
    ensures ColorClass(data[w][day]).Some?
  {
    assert WeekOk(w, data[w], draws[w]);
    assert data[w][day] == Intensity(w, day, Prev(data[w], day), draws[w][day]);
  }

  // ---------------------------------------------------------- day offsets

  /** How many days before today the cell at (week, day) lies. */
  function DayOffset(week: int, day: int): int
  {
    (51 - week) * 7 + (6 - day)
  }

  /** The cell `o` days back: the inverse of `DayOffset`. */
  function CellOf(o: int): (wd: (int, int))
  {
    (51 - o / 7, 6 - o % 7)
  }

  /** Offsets of the 364 cells lie in 0..363 and each cell is the one its
      offset leads back to, so distinct cells have distinct offsets. */
  lemma DayOffsetInjective(week: int, day: int)
    requires 0 <= week < Weeks && 0 <= day < Days
    ensures 0 <= DayOffset(week, day) <= 363
    ensures CellOf(DayOffset(week, day)) == (week, day)
  {
  }

  /** Every offset in 0..363 belongs to exactly one cell of the grid. */
  lemma DayOffsetOnto(o: int)
    requires 0 <= o <= 363
    ensures 0 <= CellOf(o).0 < Weeks && 0 <= CellOf(o).1 < Days
    ensures DayOffset(CellOf(o).0, CellOf(o).1) == o
  {
  }

  // --------------------------------------------------------- month labels

  const Months: seq<string> := ["Jan", "Feb", "Mar", "Apr", "May", "Jun", "Jul", "Aug", "Sep", "Oct", "Nov", "Dec"]

  datatype MonthLabel = MonthLabel(month: string, position: real)

  /** `getMonthLabels`: one label per month at about 52/12 weeks apart. */
  method GetMonthLabels() returns (labels: seq<MonthLabel>)
    ensures |labels| == 12
    ensures forall i :: 0 <= i < 12 ==> labels[i] == MonthLabel(Months[i], i as real * 4.333)
    ensures forall i, j :: 0 <= i < j < 12 ==> labels[i].position < labels[j].position
    ensures forall i :: 0 <= i < 12 ==> 0.0 <= labels[i].position < Weeks as real
  {
    labels := [];
    var i := 0;
    while i < 12
      invariant 0 <= i <= 12 && |labels| == i
      invariant forall k :: 0 <= k < i ==> labels[k] == MonthLabel(Months[k], k as real * 4.333)
    {
      labels := labels + [MonthLabel(Months[i], i as real * 4.333)];
      i := i + 1;
    }
  }
}

=== FILE: floating_objects.dfy ===
/** The floating 3-D objects: each grows from scale 0 to its target scale,
    drifts towards a target near its home position that is redrawn now and
    then, and spins at a constant rate; the scene generates the objects
    from random draws. */
module FloatingObjects {
  import opened Basics

  datatype Vec3 = Vec3(x: real, y: real, z: real)

  /** Fraction of the remaining gap the scale closes per tick. */
  const ScaleRate: real := 0.05
  /** Half-width of the box a drift target is drawn from. */
  const DriftReach: real := 2.0
  /** Per-frame smoothing factor, multiplied by the object's speed. */
  const Smoothing: real := 0.005
  /** Frames whose draw exceeds this are skipped. */
  const SkipGate: real := 0.7
  /** Per-frame rotation on each axis, multiplied by the rotation speed. */
  const SpinX: real := 0.001
  const SpinY: real := 0.002
  const SpinZ: real := 0.0005
  /** Amplitude of the idle bob on y. */
  const Bob: real := 0.005

  // ----------------------------------------------------------------- scale

  /** `animateScale`: close 5% of the gap while below the target, otherwise
      snap to the target. */
  function ScaleStep(prev: real, scale: real): (r: real)
    ensures prev < scale ==> prev < r < scale
    ensures prev >= scale ==> r == scale
  {
    if prev < scale then
      assert (scale - prev) * ScaleRate < scale - prev;
      prev + (scale - prev) * ScaleRate
    else scale
  }

  function ScaleSteps(prev: real, scale: real, n: nat): real
  {
    if n == 0 then prev else ScaleStep(ScaleSteps(prev, scale, n - 1), scale)
  }

  /** Growing from 0 towards a positive scale, the remaining gap after `n`
      ticks is `0.95^n` of the scale: the current scale stays in [0, scale)
      and never decreases. */
  lemma {:induction false} ScaleEasing(scale: real, n: nat)
    requires scale > 0.0
    ensures scale - ScaleSteps(0.0, scale, n) == Pow(1.0 - ScaleRate, n) * scale
    ensures 0.0 <= ScaleSteps(0.0, scale, n) < scale
    ensures ScaleSteps(0.0, scale, n) <= ScaleSteps(0.0, scale, n + 1)
  {
    PowUnit(1.0 - ScaleRate, n);
    if n > 0 {
      ScaleEasing(scale, n - 1);
      var p := Pow(1.0 - ScaleRate, n - 1);
      assert (1.0 - ScaleRate) * (p * scale) == ((1.0 - ScaleRate) * p) * scale;
    }
    assert 0.0 < Pow(1.0 - ScaleRate, n) * scale <= scale by {
      ScaleBelow(scale, Pow(1.0 - ScaleRate, n));
    }
  }

  // ----------------------------------------------------------------- drift

  /** One axis of a drift target: `base + (r - 0.5) * 4`. */
  function DriftAxis(base: real, r: Unit01): (t: real)
    ensures base - DriftReach <= t < base + DriftReach
  {
    base + (r - 0.5) * 4.0
  }

  /** A new drift target around the home position, from three draws. */
  function DriftTarget(home: Vec3, rx: Unit01, ry: Unit01, rz: Unit01): (t: Vec3)
    ensures home.x - DriftReach <= t.x < home.x + DriftReach
    ensures home.y - DriftReach <= t.y < home.y + DriftReach
    ensures home.z - DriftReach <= t.z < home.z + DriftReach
  {
    Vec3(DriftAxis(home.x, rx), DriftAxis(home.y, ry), DriftAxis(home.z, rz))
  }

  // ----------------------------------------------------------------- frame

  /** Where a rendered object is and how it is turned. */
  datatype Pose = Pose(position: Vec3, rotation: Vec3)

  /** One axis of the smoothing step. */
  function Approach(cur: real, target: real, speed: real): (r: real)
    ensures target - r == (1.0 - Smoothing * speed) * (target - cur)
  {
    cur + (target - cur) * Smoothing * speed
  }

  /** With `0 < 0.005 * speed <= 1` the step lands between the old value and
      the target, strictly closer unless it was already there. */
  lemma ApproachNoOvershoot(cur: real, target: real, speed: real)
    requires 0.0 < Smoothing * speed <= 1.0
    ensures cur <= target ==> cur <= Approach(cur, target, speed) <= target
    ensures target <= cur ==> target <= Approach(cur, target, speed) <= cur
    ensures cur != target ==> Abs(target - Approach(cur, target, speed)) < Abs(target - cur)
  {
    var k := 1.0 - Smoothing * speed;
    var g := target - cur;
    assert target - Approach(cur, target, speed) == k * g;
    if g > 0.0 {
      assert 0.0 <= k * g < g by { assert g - k * g == (1.0 - k) * g; }
    } else if g < 0.0 {
      assert g < k * g <= 0.0 by { assert k * g - g == (1.0 - k) * (-g); }
    }
  }

  /** One `useFrame` callback: skipped when the draw exceeds 0.7; otherwise
      x and z move towards the target, y also gets the idle bob (`sine` is
      the value of the sine at this moment), and each axis turns by its
      rate times the rotation speed. */
  function Frame(p: Pose, target: Vec3, speed: real, rotationSpeed: real, skip: Unit01, sine: real): (r: Pose)
    ensures skip > SkipGate ==> r == p
  {
    if skip > SkipGate then p
    else
      Pose(
        Vec3(
          Approach(p.position.x, target.x, speed),
          Approach(p.position.y, target.y, speed) + sine * Bob,
          Approach(p.position.z, target.z, speed)),
        Vec3(
          p.rotation.x + SpinX * rotationSpeed,
          p.rotation.y + SpinY * rotationSpeed,
          p.rotation.z + SpinZ * rotationSpeed))
  }

  /** An applied frame shrinks the gap to the target on x and z by the
      factor `1 - 0.005 * speed`, and on y apart from the bob. */
  lemma FrameMoves(p: Pose, target: Vec3, speed: real, rotationSpeed: real, skip: Unit01, sine: real)
    requires skip <= SkipGate
    ensures var q := Frame(p, target, speed, rotationSpeed, skip, sine).position;
      && target.x - q.x == (1.0 - Smoothing * speed) * (target.x - p.position.x)
      && target.z - q.z == (1.0 - Smoothing * speed) * (target.z - p.position.z)
      && target.y - (q.y - sine * Bob) == (1.0 - Smoothing * speed) * (target.y - p.position.y)
  {
  }

  /** An applied frame turns every axis forward by exactly its rate, so with
      a positive rotation speed all three angles strictly increase. */
  lemma FrameSpins(p: Pose, target: Vec3, speed: real, rotationSpeed: real, skip: Unit01, sine: real)
    requires skip <= SkipGate
    ensures var q := Frame(p, target, speed, rotationSpeed, skip, sine).rotation;
      && q.x - p.rotation.x == 0.001 * rotationSpeed
      && q.y - p.rotation.y == 0.002 * rotationSpeed
      && q.z - p.rotation.z == 0.0005 * rotationSpeed
      && (rotationSpeed > 0.0 ==> q.x > p.rotation.x && q.y > p.rotation.y && q.z > p.rotation.z)
  {
  }

  // ------------------------------------------------------------- generator

  datatype Shape = Box | Torus | Sphere | Icosahedron

  const Shapes: seq<Shape> := [Box, Torus, Sphere, Icosahedron]
  const Colors: seq<string> := ["#5eead4", "#0ea5e9", "#8b5cf6", "#c084fc", "#f472b6", "#cbd5e1", "#60a5fa", "#34d399"]

  datatype FloatingObject = FloatingObject(
    id: nat,
    shape: Shape,
    position: Vec3,
    color: string,
    speed: real,
    rotationSpeed: real,
    wobble: real,
    scale: real)

  /** The draws spent on one object, in the order the object literal makes
      them. */
  datatype ObjectDraws = ObjectDraws(
    shape: Unit01, px: Unit01, py: Unit01, pz: Unit01, color: Unit01,
    speed: Unit01, rotationSpeed: Unit01, wobble: Unit01, scale: Unit01)

  function NewObject(i: nat, d: ObjectDraws): FloatingObject
  {
    FloatingObject(
      i,
      Shapes[PickIndex(d.shape, |Shapes|)],
      Vec3((d.px - 0.5) * 10.0, (d.py - 0.5) * 10.0, (d.pz - 0.5) * 6.0),
      Colors[PickIndex(d.color, |Colors|)],
      0.5 + d.speed * 0.8,
      0.5 + d.rotationSpeed * 1.0,
      0.2 + d.wobble * 0.3,
      0.4 + d.scale * 0.3)
  }

  /** The attributes of a generated object lie in their documented ranges. */
  predicate WellFormed(o: FloatingObject)
  {
    && o.color in Colors
    && -5.0 <= o.position.x < 5.0 && -5.0 <= o.position.y < 5.0 && -3.0 <= o.position.z < 3.0
    && 0.5 <= o.speed < 1.3
    && 0.5 <= o.rotationSpeed < 1.5
    && 0.2 <= o.wobble < 0.5
    && 0.4 <= o.scale < 0.7
  }

  lemma NewObjectWellFormed(i: nat, d: ObjectDraws)
    ensures NewObject(i, d).id == i
    ensures WellFormed(NewObject(i, d))
  {
  }

  /** `Array.from({length: count}, …)`: `count` objects numbered from 0. */
  method GenerateObjects(count: nat, draws: seq<ObjectDraws>) returns (objects: seq<FloatingObject>)
    requires |draws| >= count
    ensures |objects| == count
    ensures forall i :: 0 <= i < count ==> objects[i].id == i && WellFormed(objects[i])
    ensures forall i :: 0 <= i < count ==> objects[i] == NewObject(i, draws[i])
  {
    objects := [];
    var i := 0;
    while i < count
      invariant 0 <= i <= count && |objects| == i
      invariant forall k :: 0 <= k < i ==> objects[k] == NewObject(k, draws[k])
      invariant forall k :: 0 <= k < i ==> objects[k].id == k && WellFormed(objects[k])
    {
      NewObjectWellFormed(i, draws[i]);
      objects := objects + [NewObject(i, draws[i])];
      i := i + 1;
    }
  }
}

=== FILE: morphing_text.dfy ===
/** The morphing-text effect: a word is typed in prefix by prefix, is later
    scrambled for a few frames with characters drawn from fixed pools, and is
    then restored. A paragraph is split into words on single spaces and
    re-emitted with one space between consecutive words. */
module MorphingText {
  import opened Basics

  /** The default pool of `getRandomChar`. */
  const Chars: string := "ABCDEFGHIJKLMNOPQRSTUVWXYZabcdefghijklmnopqrstuvwxyz0123456789!@#$%^&*()_+{}:\"<>?|[]\\;',./-="
  const BinaryChars: string := "01"
  /** The default pool followed by sixteen more symbols. */
  const CodeChars: string := "ABCDEFGHIJKLMNOPQRSTUVWXYZabcdefghijklmnopqrstuvwxyz0123456789!@#$%^&*()_+{}:\"<>?|[]\\;',./-={}[];:'\\,.<>/?`~"

  const MaxScrambles: nat := 10
  /** Chance that a character is replaced in a scramble frame. */
  const FlipRate: real := 0.3
  /** Thresholds on the second draw choosing the binary and code pools. */
  const BinaryGate: real := 0.4
  const CodeGate: real := 0.7

  /** `pool.charAt(Math.floor(r * pool.length))`: one character of the pool,
      or the empty string when the pool is empty. */
  function GetRandomChar(pool: string, r: Unit01): (s: string)
    ensures |pool| == 0 ==> s == ""
    ensures |pool| > 0 ==> |s| == 1 && s[0] in pool
  {
    if |pool| == 0 then "" else [pool[PickIndex(r, |pool|)]]
  }

  lemma PoolSizes()
    ensures |Chars| == 92 && |BinaryChars| == 2 && |CodeChars| == 108
  {
  }

  /** Every pool character is a character of `CodeChars`. */
  lemma PoolsNest(c: char)
    ensures c in BinaryChars ==> c in Chars
    ensures c in Chars ==> c in CodeChars
  {
    assert CodeChars[..|Chars|] == Chars;
    if c in Chars {
      var k :| 0 <= k < |Chars| && Chars[k] == c;
      assert CodeChars[k] == c;
    }
  }

  // ---------------------------------------------------------------- typing

  /** The typing interval: the next prefix to show, the text shown, and
      whether the interval is still running. */
  datatype Typing = Typing(index: nat, display: string, running: bool)

  /** A new target starts typing from index 0; the old display stays until
      the first tick. */
  function TypeStart(display: string): Typing
  {
    Typing(0, display, true)
  }

  /** One interval tick: show the next prefix, or stop once every prefix up
      to the full text has been shown. */
  function TypeTick(target: string, t: Typing): (r: Typing)
    ensures !t.running ==> r == t
  {
    if !t.running then t
    else if t.index <= |target| then Typing(t.index + 1, target[..t.index], true)
    else t.(running := false)
  }

  function TypeTicks(target: string, t: Typing, n: nat): Typing
  {
    if n == 0 then t else TypeTick(target, TypeTicks(target, t, n - 1))
  }

  /** Ticks 1 … |target|+1 show the prefixes of length 0 … |target| in turn. */
  lemma {:induction false} TypingReveals(target: string, display: string, n: nat)
    requires n <= |target| + 1
    ensures TypeTicks(target, TypeStart(display), n).running
    ensures TypeTicks(target, TypeStart(display), n).index == n
    ensures n > 0 ==> TypeTicks(target, TypeStart(display), n).display == target[..n - 1]
  {
    if n > 0 {
      TypingReveals(target, display, n - 1);
    }
  }

  /** The next tick stops the interval with the whole text shown, and nothing
      changes after that. */
  lemma {:induction false} TypingStops(target: string, display: string, n: nat)
    requires n >= |target| + 2
    ensures TypeTicks(target, TypeStart(display), n) == Typing(|target| + 1, target, false)
  {
    if n == |target| + 2 {
      TypingReveals(target, display, n - 1);
      assert target[..|target|] == target;
    } else {
      TypingStops(target, display, n - 1);
    }
  }

  /** What the span shows: the display text, or the first character of the
      word while the display is empty. */
  function Rendered(display: string, original: string): (s: string)
    ensures display != "" ==> s == display
    ensures display == "" ==> s == original[..Min(1, |original|)]
  {
    if display != "" then display
    else if |original| == 0 then ""
    else original[..1]
  }

  /** While a word is typed in from an empty display, the span always shows a
      non-empty prefix of the word: its first letter until the second one is
      typed. */
  lemma RenderedWhileTyping(target: string, n: nat)
    requires 0 < |target| && n <= |target| + 1
    ensures Rendered(TypeTicks(target, TypeStart(""), n).display, target)
      == target[..if n <= 2 then 1 else n - 1]
  {
    TypingReveals(target, "", n);
  }

  // -------------------------------------------------------------- scramble

  /** The three draws spent on one character of a scramble frame: whether to
      replace it, which pool to use, and the index into that pool. */
  datatype CharDraw = CharDraw(flip: Unit01, kind: Unit01, pick: Unit01)

  /** The pool the second draw chooses for a replaced character. */
  function PoolOf(kind: Unit01): (pool: string)
    ensures |pool| > 0
  {
    if kind < BinaryGate then BinaryChars
    else if kind < CodeGate then CodeChars
    else Chars
  }

  /** The text one character contributes to a frame. */
  function ScramblePiece(c: char, d: CharDraw): string
  {
    if d.flip < FlipRate then GetRandomChar(PoolOf(d.kind), d.pick) else [c]
  }

  /** Every character contributes exactly one character: itself, or one of
      the pool chosen by the second draw. */
  lemma ScramblePieceChar(c: char, d: CharDraw)
    ensures |ScramblePiece(c, d)| == 1
    ensures d.flip >= FlipRate ==> ScramblePiece(c, d)[0] == c
    ensures d.flip < FlipRate ==> ScramblePiece(c, d)[0] in PoolOf(d.kind)
  {
  }

  /** Draws below 0.4 choose the binary pool, draws in [0.4,0.7) the code
      pool, and the rest the default pool; all lie inside the code pool. */
  lemma PoolOfChoice(kind: Unit01, c: char)
    ensures kind < BinaryGate ==> PoolOf(kind) == BinaryChars
    ensures BinaryGate <= kind < CodeGate ==> PoolOf(kind) == CodeChars
    ensures CodeGate <= kind ==> PoolOf(kind) == Chars
    ensures c in PoolOf(kind) ==> c in CodeChars
  {
    PoolsNest(c);
  }

  /** The frame built by appending one piece per character of the word. */
  function ScrambleFrame(original: string, frame: seq<CharDraw>): string
    requires |frame| >= |original|
  {
    if |original| == 0 then ""
    else
      var n := |original| - 1;
      ScrambleFrame(original[..n], frame) + ScramblePiece(original[n], frame[n])
  }

  /** A frame of `original`: same length, and every position either keeps
      the original character or holds a pool character (all pools lie inside
      `CodeChars`). */
  predicate IsFrameOf(text: string, original: string)
  {
    && |text| == |original|
    && forall i :: 0 <= i < |text| ==>
         text[i] == original[i] || text[i] in CodeChars
  }

  /** Position `i` of a frame is what the `i`-th draw makes of the `i`-th
      character. */
  lemma {:induction false} ScrambleFrameExact(original: string, frame: seq<CharDraw>)
    requires |frame| >= |original|
    ensures |ScrambleFrame(original, frame)| == |original|
    ensures forall i :: 0 <= i < |original| ==>
      ScrambleFrame(original, frame)[i] == ScramblePiece(original[i], frame[i])[0]
  {
    if |original| > 0 {
      var n := |original| - 1;
      var front := ScrambleFrame(original[..n], frame);
      var piece := ScramblePiece(original[n], frame[n]);
      ScrambleFrameExact(original[..n], frame);
      ScramblePieceChar(original[n], frame[n]);
      forall i | 0 <= i < |original|
        ensures (front + piece)[i] == ScramblePiece(original[i], frame[i])[0]
      {
        AppendOne(front, piece, i);
        if i < n {
          assert original[..n][i] == original[i];
        }
      }
    }
  }

  /** Indexing a text extended by one character. */
  lemma AppendOne(front: string, piece: string, i: nat)
    requires |piece| == 1 && i <= |front|
    ensures |front + piece| == |front| + 1
    ensures (front + piece)[i] == if i < |front| then front[i] else piece[0]
  {
  }

  /** Every frame keeps the length, draws only from the pools, and keeps each
      character whose first draw is at least 0.3. */
  lemma ScrambleFrameShape(original: string, frame: seq<CharDraw>)
    requires |frame| >= |original|
    ensures IsFrameOf(ScrambleFrame(original, frame), original)
    ensures forall i :: 0 <= i < |original| && frame[i].flip >= FlipRate ==>
      ScrambleFrame(original, frame)[i] == original[i]
  {
    ScrambleFrameExact(original, frame);
    var r := ScrambleFrame(original, frame);
    forall i | 0 <= i < |original|
      ensures r[i] == original[i] || r[i] in CodeChars
      ensures frame[i].flip >= FlipRate ==> r[i] == original[i]
    {
      ScramblePieceChar(original[i], frame[i]);
      PoolOfChoice(frame[i].kind, r[i]);
    }
  }

  /** The scramble interval: frames shown so far, the text shown, and
      whether the interval is still running. */
  datatype Scramble = Scramble(count: nat, display: string, running: bool)

  predicate EnoughDraws(original: string, frames: seq<seq<CharDraw>>)
  {
    forall k :: 0 <= k < |frames| ==> |frames[k]| >= |original|
  }

  /** One tick: past the limit, restore the word and stop; otherwise show a
      fresh frame. */
  function ScrambleTick(original: string, s: Scramble, frame: seq<CharDraw>): (r: Scramble)
    requires |frame| >= |original|
    ensures !s.running ==> r == s
  {
    if !s.running then s
    else if s.count > MaxScrambles then Scramble(s.count, original, false)
    else Scramble(s.count + 1, ScrambleFrame(original, frame), true)
  }

  /** The ticks of a scramble run, one frame of draws each, in order. */
  function ScrambleRun(original: string, s: Scramble, frames: seq<seq<CharDraw>>): Scramble
    requires EnoughDraws(original, frames)
  {
    if |frames| == 0 then s
    else
      var n := |frames| - 1;
      ScrambleTick(original, ScrambleRun(original, s, frames[..n]), frames[n])
  }

  /** The first eleven ticks each show a frame of the word. */
  lemma {:induction false} ScrambleCounts(original: string, display: string, frames: seq<seq<CharDraw>>)
    requires EnoughDraws(original, frames) && |frames| <= MaxScrambles + 1
    ensures ScrambleRun(original, Scramble(0, display, true), frames).running
    ensures ScrambleRun(original, Scramble(0, display, true), frames).count == |frames|
    ensures |frames| > 0 ==> IsFrameOf(ScrambleRun(original, Scramble(0, display, true), frames).display, original)
    ensures |frames| > 0 ==>
      ScrambleRun(original, Scramble(0, display, true), frames).display == ScrambleFrame(original, frames[|frames| - 1])
  {
    if |frames| > 0 {
      var n := |frames| - 1;
      ScrambleCounts(original, display, frames[..n]);
      ScrambleFrameShape(original, frames[n]);
    }
  }

  /** The twelfth tick restores exactly the original word and stops the
      interval; later ticks change nothing. */
  lemma {:induction false} ScrambleRestores(original: string, display: string, frames: seq<seq<CharDraw>>)
    requires EnoughDraws(original, frames) && |frames| > MaxScrambles + 1
    ensures ScrambleRun(original, Scramble(0, display, true), frames)
      == Scramble(MaxScrambles + 1, original, false)
  {
    var n := |frames| - 1;
    if n == MaxScrambles + 1 {
      ScrambleCounts(original, display, frames[..n]);
    } else {
      ScrambleRestores(original, display, frames[..n]);
    }
  }

  // ---------------------------------------------------------- stop timer

  /** Milliseconds between two scramble ticks. */
  const TickMs: real := 100.0
  /** The stop timer fires `800 + r * 1200` ms after scrambling starts. */
  const StopBaseMs: real := 800.0
  const StopSpreadMs: real := 1200.0

  function StopDelay(r: Unit01): (ms: real)
    ensures StopBaseMs <= ms < StopBaseMs + StopSpreadMs
  {
    StopBaseMs + r * StopSpreadMs
  }

  /** How many ticks, at 100, 200, ... ms, run strictly before a timer that
      fires at `ms`. */
  function TicksBefore(ms: real): (n: nat)
    requires ms > 0.0
    ensures n as real * TickMs < ms <= (n + 1) as real * TickMs
  {
    var q := (ms / TickMs).Floor;
    assert q as real <= ms / TickMs < q as real + 1.0;
    if q as real * TickMs == ms then q - 1 else q
  }

  /** The text left on screen once the stop timer has fired: setting
      `isScrambling` to false runs the effect cleanup, which clears the
      scramble interval after the ticks that came before it. Nothing
      restores the word at that point. */
  function ScrambleEpisode(original: string, display: string, stop: Unit01, frames: seq<seq<CharDraw>>): string
    requires EnoughDraws(original, frames) && |frames| >= TicksBefore(StopDelay(stop))
  {
    var n := TicksBefore(StopDelay(stop));
    ScrambleRun(original, Scramble(0, display, true), frames[..n]).display
  }

  /** A stop draw above 1/3 lets the twelfth tick run, so the word is back
      when the timer fires. */
  lemma ScrambleEpisodeLate(original: string, display: string, stop: Unit01, frames: seq<seq<CharDraw>>)
    requires EnoughDraws(original, frames) && |frames| >= TicksBefore(StopDelay(stop))
    requires stop * 3.0 > 1.0
    ensures TicksBefore(StopDelay(stop)) > MaxScrambles + 1
    ensures ScrambleEpisode(original, display, stop, frames) == original
  {
    var n := TicksBefore(StopDelay(stop));
    assert (n + 1) as real * TickMs > 1200.0;
    ScrambleRestores(original, display, frames[..n]);
  }

  /** A stop draw of at most 1/3 cuts the interval off after 7 to 11 ticks:
      the screen keeps the last scrambled frame. */
  lemma ScrambleEpisodeEarly(original: string, display: string, stop: Unit01, frames: seq<seq<CharDraw>>)
    requires EnoughDraws(original, frames) && |frames| >= TicksBefore(StopDelay(stop))
    requires stop * 3.0 <= 1.0
    ensures 7 <= TicksBefore(StopDelay(stop)) <= MaxScrambles + 1
    ensures var n := TicksBefore(StopDelay(stop));
      ScrambleEpisode(original, display, stop, frames) == ScrambleFrame(original, frames[n - 1])
    ensures IsFrameOf(ScrambleEpisode(original, display, stop, frames), original)
  {
    var n := TicksBefore(StopDelay(stop));
    assert n as real * TickMs < 1200.0;
    assert (n + 1) as real * TickMs >= 800.0;
    ScrambleCounts(original, display, frames[..n]);
  }

  /** An input on which the word stays scrambled: the word "a", the
      earliest stop, and every character flipped to the first binary
      character. */
  lemma ScrambleLeftScrambled()
    ensures var frames := seq(7, _ => [CharDraw(0.0, 0.0, 0.0)]);
      ScrambleEpisode("a", "", 0.0, frames) == "0"
  {
    var frames := seq(7, _ => [CharDraw(0.0, 0.0, 0.0)]);
    ScrambleEpisodeEarly("a", "", 0.0, frames);
    var n := TicksBefore(StopDelay(0.0));
    assert n == 7;
    assert PickIndex(0.0, 2) == 0;
    assert ScrambleFrame("a", frames[n - 1]) == "0";
  }

  /** The episode as evidently intended: when the stop timer ends the
      scramble, the word is restored whatever tick the interval had reached. */
  function ScrambleEpisodeRestoring(original: string, display: string, stop: Unit01, frames: seq<seq<CharDraw>>): (s: Scramble)
    requires EnoughDraws(original, frames) && |frames| >= TicksBefore(StopDelay(stop))
    ensures s.display == original && !s.running
  {
    var n := TicksBefore(StopDelay(stop));
    var s := ScrambleRun(original, Scramble(0, display, true), frames[..n]);
    Scramble(s.count, original, false)
  }

  // ------------------------------------------------------------- paragraph

  /** `text.split(' ')`: the pieces between single spaces, empty pieces
      included; always at least one piece. */
  function Split(t: string): (ws: seq<string>)
    ensures |ws| >= 1
  {
    if |t| == 0 then [""]
    else if t[0] == ' ' then [""] + Split(t[1..])
    else
      var rest := Split(t[1..]);
      [[t[0]] + rest[0]] + rest[1..]
  }

  /** The paragraph's text: each word followed by a space, except the last. */
  function Emit(ws: seq<string>): string
  {
    if |ws| == 0 then ""
    else if |ws| == 1 then ws[0]
    else ws[0] + " " + Emit(ws[1..])
  }

  predicate NoSpace(w: string)
  {
    forall i :: 0 <= i < |w| ==> w[i] != ' '
  }

  /** No piece of a split contains a space. */
  lemma {:induction false} SplitNoSpace(t: string)
    ensures forall k :: 0 <= k < |Split(t)| ==> NoSpace(Split(t)[k])
  {
    if |t| > 0 {
      SplitNoSpace(t[1..]);
      if t[0] != ' ' {
        var rest := Split(t[1..]);
        assert NoSpace(rest[0]);
        assert forall k :: 1 <= k < |Split(t)| ==> Split(t)[k] == rest[k];
      }
    }
  }

  /** The paragraph re-emits exactly its input text. */
  lemma {:induction false} EmitSplit(t: string)
    ensures Emit(Split(t)) == t
  {
    if |t| > 0 {
      EmitSplit(t[1..]);
      var rest := Split(t[1..]);
      if t[0] == ' ' {
        assert Split(t) == [""] + rest;
        assert ([""] + rest)[1..] == rest;
        assert t == [t[0]] + t[1..];
      } else if |rest| == 1 {
        assert Split(t) == [[t[0]] + rest[0]];
        assert t == [t[0]] + t[1..];
      } else {
        var ws := Split(t);
        assert ws[0] == [t[0]] + rest[0];
        assert ws[1..] == rest[1..];
        assert Emit(rest) == rest[0] + " " + Emit(rest[1..]);
        assert t == [t[0]] + t[1..];
      }
    }
  }

  /** Splitting a space-free word followed by a space and more text. */
  lemma {:induction false} SplitWord(w: string, u: string)
    requires NoSpace(w)
    ensures Split(w) == [w]
    ensures Split(w + " " + u) == [w] + Split(u)
  {
    if |w| > 0 {
      SplitWord(w[1..], u);
      assert (w + " " + u)[1..] == w[1..] + " " + u;
      assert w == [w[0]] + w[1..];
    } else {
      assert w + " " + u == [' '] + u;
    }
  }

  /** Emitting space-free words and splitting again gives the same words. */
  lemma {:induction false} SplitEmit(ws: seq<string>)
    requires |ws| >= 1 && forall k :: 0 <= k < |ws| ==> NoSpace(ws[k])
    ensures Split(Emit(ws)) == ws
  {
    SplitWord(ws[0], Emit(ws[1..]));
    if |ws| > 1 {
      SplitEmit(ws[1..]);
      assert ws == [ws[0]] + ws[1..];
    }
  }
}

=== FILE: neural_network.dfy ===
/** The neural-network canvas widget: the topology built from a list of layer
    sizes (`initializeNetwork`). The per-tick signal logic is in module
    `NeuralSignals`. */
module NeuralNetwork {
  import opened Basics

  datatype Neuron = Neuron(x: real, y: real, radius: real, layer: nat, id: nat)

  /** `from` is an `int` because the source computes it from `findIndex`,
      which may answer -1. */
  datatype Connection = Connection(from: int, to: nat, strength: real, active: bool, progress: real)

  datatype Activation = Activation(neuronId: int, value: real, decay: real)

  datatype Network = Network(neurons: seq<Neuron>, connections: seq<Connection>, activations: seq<Activation>)

  /** The random draws spent on one neuron: its radius, the index draws of the
      rejection loop choosing its sources, and one strength per connection. */
  datatype NeuronDraws = NeuronDraws(radius: Unit01, picks: seq<Unit01>, strengths: seq<Unit01>)

  /** The two draws spent on one new activation: its value and its decay. */
  datatype ActivationDraw = ActivationDraw(value: Unit01, decay: Unit01)

  /** At most this many incoming connections per neuron. */
  const MaxFanIn: nat := 5

  /** At most this many input neurons start out active. */
  const InitialActiveInputs: nat := 3

  // ---------------------------------------------------------------------
  // Layer arithmetic

  /** Id of the first neuron of layer `k`: the sizes of the layers before it. */
  function Start(layers: seq<nat>, k: nat): nat
    requires k <= |layers|
  {
    if k == 0 then 0 else Start(layers, k - 1) + layers[k - 1]
  }

  /** Number of neurons: the sum of the layer sizes. */
  function Total(layers: seq<nat>): nat
  {
    Start(layers, |layers|)
  }

  lemma StartStep(layers: seq<nat>, k: nat)
    requires k < |layers|
    ensures Start(layers, k + 1) == Start(layers, k) + layers[k]
  {
  }

  lemma {:induction false} StartMono(layers: seq<nat>, j: nat, k: nat)
    requires j <= k <= |layers|
    ensures Start(layers, j) <= Start(layers, k)
    decreases k - j
  {
    if j < k {
      StartMono(layers, j, k - 1);
    }
  }

  lemma StartAll(layers: seq<nat>)
    ensures Start(layers, |layers|) == Total(layers)
  {
  }

  /** The layer holding neuron `g` among the layers before `k`. */
  function LayerBelow(layers: seq<nat>, g: nat, k: nat): (j: nat)
    requires k <= |layers| && g < Start(layers, k)
    ensures j < k
    ensures Start(layers, j) <= g < Start(layers, j) + layers[j]
  {
    if g >= Start(layers, k - 1) then k - 1 else LayerBelow(layers, g, k - 1)
  }

  /** The layer holding neuron `g`, for neurons numbered layer by layer. */
  function LayerOf(layers: seq<nat>, g: nat): (k: nat)
    requires g < Total(layers)
    ensures k < |layers|
    ensures Start(layers, k) <= g < Start(layers, k) + layers[k]
  {
    LayerBelow(layers, g, |layers|)
  }

  /** Layer `j` ends at or before the start of any later layer `k`. */
  lemma {:induction false} StartSeparates(layers: seq<nat>, j: nat, k: nat)
    requires j < k <= |layers|
    ensures Start(layers, j) + layers[j] <= Start(layers, k)
    decreases k - j
  {
    if j + 1 < k {
      StartSeparates(layers, j, k - 1);
    }
  }

  /** A neuron id lies in exactly one layer's id range. */
  lemma LayerOfUnique(layers: seq<nat>, k: nat, g: nat)
    requires k < |layers|
    requires Start(layers, k) <= g < Start(layers, k) + layers[k]
    ensures g < Total(layers)
    ensures LayerOf(layers, g) == k
  {
    StartSeparates(layers, k, |layers|);
    var k' := LayerOf(layers, g);
    if k' < k {
      StartSeparates(layers, k', k);
    } else if k < k' {
      StartSeparates(layers, k, k');
    }
  }

  /** Number of incoming connections of a neuron of layer `k`. */
  function FanIn(layers: seq<nat>, k: nat): nat
    requires k < |layers|
  {
    if k == 0 then 0 else Min(layers[k - 1], MaxFanIn)
  }

  /** Number of connections into the neurons of layers 0..k-1. */
  function EdgesBefore(layers: seq<nat>, k: nat): nat
    requires k <= |layers|
  {
    if k == 0 then 0 else EdgesBefore(layers, k - 1) + FanIn(layers, k - 1) * layers[k - 1]
  }

  // ---------------------------------------------------------------------
  // Neuron placement

  /** Column of layer `k`: `width / (layers.length + 1) * (k + 1)`. */
  function ColumnX(width: real, layerCount: nat, k: nat): real
  {
    width / (layerCount + 1) as real * (k + 1) as real
  }

  /** Row of neuron `i` of a layer of `n`: `height / (n + 1) * (i + 1)`. */
  function RowY(height: real, n: nat, i: nat): real
  {
    height / (n + 1) as real * (i + 1) as real
  }

  /** Slot `i` of `slots` evenly spaced slots lies strictly inside the extent. */
  lemma SlotInside(extent: real, slots: nat, i: nat)
    requires extent > 0.0 && i < slots
    ensures 0.0 < extent / (slots + 1) as real * (i + 1) as real < extent
  {
    var step := extent / (slots + 1) as real;
    assert step > 0.0;
    assert step * (slots + 1) as real == extent;
    assert step * (i + 1) as real <= step * slots as real;
  }

  function MakeNeuron(layers: seq<nat>, width: real, height: real, k: nat, i: nat, id: nat, d: NeuronDraws): Neuron
    requires k < |layers|
  {
    Neuron(ColumnX(width, |layers|, k), RowY(height, layers[k], i), 4.0 + d.radius * 2.0, k, id)
  }

  /** Reference definition of neuron `g`: it belongs to layer `LayerOf(g)`,
      at the row given by its rank inside that layer. */
  function ReferenceNeuron(layers: seq<nat>, width: real, height: real, draws: seq<NeuronDraws>, g: nat): Neuron
    requires g < Total(layers) <= |draws|
  {
    var k := LayerOf(layers, g);
    MakeNeuron(layers, width, height, k, g - Start(layers, k), g, draws[g])
  }

  function ReferenceNeurons(layers: seq<nat>, width: real, height: real, draws: seq<NeuronDraws>): (r: seq<Neuron>)
    requires |draws| >= Total(layers)
    ensures |r| == Total(layers)
    ensures forall g :: 0 <= g < |r| ==> r[g] == ReferenceNeuron(layers, width, height, draws, g)
  {
    seq(Total(layers), g requires 0 <= g < Total(layers) => ReferenceNeuron(layers, width, height, draws, g))
  }

  /** Neuron `i` of layer `k` is entry `Start(k) + i`, tagged with layer `k`,
      placed at column `k` and row `i`, with id equal to its position. */
  lemma ReferenceSlot(layers: seq<nat>, width: real, height: real, draws: seq<NeuronDraws>, k: nat, i: nat)
    requires |draws| >= Total(layers)
    requires k < |layers| && i < layers[k]
    ensures Start(layers, k) + i < Total(layers)
    ensures ReferenceNeuron(layers, width, height, draws, Start(layers, k) + i)
         == Neuron(ColumnX(width, |layers|, k), RowY(height, layers[k], i),
                   4.0 + draws[Start(layers, k) + i].radius * 2.0, k, Start(layers, k) + i)
  {
    var g := Start(layers, k) + i;
    LayerOfUnique(layers, k, g);
    assert LayerOf(layers, g) == k;
    assert g - Start(layers, k) == i;
  }

  /** Reference neuron `g` has `g` as id, a radius in [4,6), a valid layer
      tag, and lies strictly inside the canvas. */
  lemma ReferenceNeuronFacts(layers: seq<nat>, width: real, height: real, draws: seq<NeuronDraws>, g: nat)
    requires g < Total(layers) <= |draws|
    requires width > 0.0 && height > 0.0
    ensures var n := ReferenceNeuron(layers, width, height, draws, g);
      && n.id == g && n.layer < |layers| && 4.0 <= n.radius < 6.0
      && 0.0 < n.x < width && 0.0 < n.y < height
  {
    var k := LayerOf(layers, g);
    SlotInside(width, |layers|, k);
    SlotInside(height, layers[k], g - Start(layers, k));
  }

  /** Layer tags never decrease along the reference list. */
  lemma ReferenceLayersSorted(layers: seq<nat>, g: nat, h: nat)
    requires g <= h < Total(layers)
    ensures LayerOf(layers, g) <= LayerOf(layers, h)
  {
    var kg := LayerOf(layers, g);
    var kh := LayerOf(layers, h);
    if kh < kg {
      StartSeparates(layers, kh, kg);
    }
  }

  /** Every reference neuron has its position as id, a radius in [4,6), a
      valid layer tag, and lies strictly inside the canvas. Layer tags never
      decrease along the list. */
  lemma ReferenceFacts(layers: seq<nat>, width: real, height: real, draws: seq<NeuronDraws>)
    requires |draws| >= Total(layers)
    requires width > 0.0 && height > 0.0
    ensures var r := ReferenceNeurons(layers, width, height, draws);
      && (forall g :: 0 <= g < |r| ==>
            && r[g].id == g
            && r[g].layer < |layers|
            && 4.0 <= r[g].radius < 6.0
            && 0.0 < r[g].x < width
            && 0.0 < r[g].y < height)
      && (forall g, h :: 0 <= g <= h < |r| ==> r[g].layer <= r[h].layer)
  {
    var r := ReferenceNeurons(layers, width, height, draws);
    forall g | 0 <= g < |r|
      ensures r[g].id == g && r[g].layer < |layers| && 4.0 <= r[g].radius < 6.0
      ensures 0.0 < r[g].x < width && 0.0 < r[g].y < height
    {
      ReferenceNeuronFacts(layers, width, height, draws, g);
    }
    forall g, h | 0 <= g <= h < |r|
      ensures r[g].layer <= r[h].layer
    {
      ReferenceLayersSorted(layers, g, h);
    }
  }

  // ---------------------------------------------------------------------
  // Source selection (the rejection loop choosing distinct previous-layer indices)

  predicate Distinct(s: seq<nat>)
  {
    forall a, b :: 0 <= a < b < |s| ==> s[a] != s[b]
  }

  /** The `while (connectionIndices.length < connectionCount)` loop: draw
      `floor(r * bound)`, keep it unless already chosen. The source draws for
      as long as it takes; on a finite list of draws the model answers `None`
      when the draws run out first. */
  function SampleDistinct(picks: seq<Unit01>, count: nat, bound: nat, acc: seq<nat>): (r: Option<seq<nat>>)
    requires count <= bound
    requires |acc| <= count && Distinct(acc)
    requires forall j :: 0 <= j < |acc| ==> acc[j] < bound
    ensures |acc| == count ==> r == Some(acc)
    ensures |acc| + |picks| < count ==> r == None
    ensures r.Some? ==>
      && |r.value| == count
      && Distinct(r.value)
      && (forall j :: 0 <= j < |r.value| ==> r.value[j] < bound)
      && r.value[..|acc|] == acc
    decreases |picks|
  {
    if |acc| == count then Some(acc)
    else if |picks| == 0 then None
    else
      var j := PickIndex(picks[0], bound);
      if j in acc then SampleDistinct(picks[1..], count, bound, acc)
      else
        var acc' := acc + [j];
        var r := SampleDistinct(picks[1..], count, bound, acc');
        assert r.Some? ==> r.value[..|acc|] == r.value[..|acc'|][..|acc|];
        r
  }

  /** The index each draw proposes, `floor(r * bound)`, in draw order
      (nothing for an empty range). */
  function Indices(picks: seq<Unit01>, bound: nat): (r: seq<nat>)
    ensures |r| == (if bound == 0 then 0 else |picks|)
    ensures bound > 0 ==> forall t :: 0 <= t < |r| ==> r[t] == PickIndex(picks[t], bound)
  {
    if bound == 0 then [] else seq(|picks|, t requires 0 <= t < |picks| => PickIndex(picks[t], bound))
  }

  /** `seen` followed by the values of `xs` it lacks, each once, in order of
      first appearance. */
  function FirstDistinct(seen: seq<nat>, xs: seq<nat>): seq<nat>
    decreases |xs|
  {
    if |xs| == 0 then seen
    else FirstDistinct(if xs[0] in seen then seen else seen + [xs[0]], xs[1..])
  }

  /** `FirstDistinct` starts with `seen`, repeats nothing when `seen` does
      not, and holds exactly the values of `seen` and `xs`. */
  lemma {:induction false} FirstDistinctFacts(seen: seq<nat>, xs: seq<nat>)
    requires Distinct(seen)
    ensures var r := FirstDistinct(seen, xs);
      && |seen| <= |r| && r[..|seen|] == seen
      && Distinct(r)
      && forall x :: x in r <==> x in seen || x in xs
    decreases |xs|
  {
    if |xs| > 0 {
      var seen' := if xs[0] in seen then seen else seen + [xs[0]];
      FirstDistinctFacts(seen', xs[1..]);
      var r := FirstDistinct(seen', xs[1..]);
      assert r[..|seen|] == r[..|seen'|][..|seen|];
      assert xs == [xs[0]] + xs[1..];
    }
  }

  /** The values of a list, as a set. */
  function Values(s: seq<nat>): set<nat>
  {
    set x | x in s
  }

  /** A list without repeats has as many elements as its set of values. */
  lemma {:induction false} DistinctCard(s: seq<nat>)
    requires Distinct(s)
    ensures |Values(s)| == |s|
    decreases |s|
  {
    if |s| > 0 {
      var n := |s| - 1;
      DistinctCard(s[..n]);
      assert Values(s) == Values(s[..n]) + {s[n]} by {
        assert s == s[..n] + [s[n]];
      }
      assert s[n] !in Values(s[..n]) by {
        forall t | 0 <= t < n ensures s[..n][t] != s[n] {
          assert s[..n][t] == s[t];
        }
      }
    }
  }

  /** `FirstDistinct([], xs)` has one entry per distinct value of `xs`. */
  lemma FirstDistinctCount(xs: seq<nat>)
    ensures |FirstDistinct([], xs)| == |Values(xs)|
  {
    FirstDistinctFacts([], xs);
    var r := FirstDistinct([], xs);
    DistinctCard(r);
    assert Values(r) == Values(xs);
  }

  /** The rejection loop keeps the first `count` distinct proposed indices,
      in draw order, and fails only when the draws propose fewer distinct
      indices than it needs. */
  lemma {:induction false} SampleDistinctFirst(picks: seq<Unit01>, count: nat, bound: nat, acc: seq<nat>)
    requires count <= bound
    requires |acc| <= count && Distinct(acc)
    requires forall j :: 0 <= j < |acc| ==> acc[j] < bound
    ensures var all := FirstDistinct(acc, Indices(picks, bound));
      && (SampleDistinct(picks, count, bound, acc).Some? <==> count <= |all|)
      && (SampleDistinct(picks, count, bound, acc).Some? ==> SampleDistinct(picks, count, bound, acc).value == all[..count])
    decreases |picks|
  {
    var xs := Indices(picks, bound);
    FirstDistinctFacts(acc, xs);
    if |acc| == count {
    } else if |picks| == 0 {
    } else {
      var j := PickIndex(picks[0], bound);
      assert xs == [j] + Indices(picks[1..], bound);
      if j in acc {
        SampleDistinctFirst(picks[1..], count, bound, acc);
      } else {
        SampleDistinctFirst(picks[1..], count, bound, acc + [j]);
      }
    }
  }

  /** `Array.prototype.findIndex(n => n.layer === layer)`. */
  function FirstOfLayer(ns: seq<Neuron>, layer: nat): (r: int)
    ensures -1 <= r < |ns|
    ensures r == -1 <==> forall j :: 0 <= j < |ns| ==> ns[j].layer != layer
    ensures 0 <= r ==> ns[r].layer == layer && forall j :: 0 <= j < r ==> ns[j].layer != layer
  {
    if |ns| == 0 then -1
    else if ns[0].layer == layer then 0
    else
      var r := FirstOfLayer(ns[1..], layer);
      if r == -1 then -1 else r + 1
  }

  /** The fresh connections into neuron `to`, one per chosen index, in the
      order the indices were chosen. Distinct indices give distinct sources, none
      before `prevStart`. */
  function Incoming(prevStart: int, idx: seq<nat>, to: nat, strengths: seq<Unit01>): (r: seq<Connection>)
    requires |strengths| >= |idx|
    ensures |r| == |idx|
    ensures forall t :: 0 <= t < |r| ==>
      r[t] == Connection(prevStart + idx[t], to, strengths[t], false, 0.0)
    ensures Distinct(idx) ==> forall a, b :: 0 <= a < b < |r| ==> r[a].from != r[b].from
    ensures forall t :: 0 <= t < |r| ==> r[t].from >= prevStart
  {
    seq(|idx|, t requires 0 <= t < |idx| => Connection(prevStart + idx[t], to, strengths[t], false, 0.0))
  }

  // ---------------------------------------------------------------------
  // The builder

  /** The two lists `initializeNetwork` grows as it walks the layers. */
  datatype Topology = Topology(neurons: seq<Neuron>, connections: seq<Connection>)

  /** Each neuron's draws hold a strength for every connection it may get. */
  predicate WellShaped(draws: seq<NeuronDraws>)
  {
    forall j :: 0 <= j < |draws| ==> |draws[j].strengths| >= MaxFanIn
  }

  /** One pass of the inner loop: push neuron `i` of layer `k`, then, for
      `k > 0`, connect it to distinct neurons of layer `k - 1`. */
  function AddNeuron(layers: seq<nat>, width: real, height: real, draws: seq<NeuronDraws>,
                     k: nat, i: nat, t: Topology): (r: Option<Topology>)
    requires k < |layers| && |t.neurons| < |draws| && WellShaped(draws)
    ensures r.Some? ==> r.value.neurons == t.neurons + [MakeNeuron(layers, width, height, k, i, |t.neurons|, draws[|t.neurons|])]
    ensures k == 0 ==> r.Some? && r.value.connections == t.connections
  {
    var d := draws[|t.neurons|];
    var ns := t.neurons + [MakeNeuron(layers, width, height, k, i, |t.neurons|, d)];
    if k == 0 then Some(Topology(ns, t.connections))
    else
      var prevStart := FirstOfLayer(ns, k - 1);
      var prevCount := layers[k - 1];
      match SampleDistinct(d.picks, Min(prevCount, MaxFanIn), prevCount, [])
      case None => None
      case Some(idx) => Some(Topology(ns, t.connections + Incoming(prevStart, idx, |ns| - 1, d.strengths)))
  }

  /** The two nested loops of `initializeNetwork`, resumed at neuron `i` of
      layer `k`. */
  function BuildFrom(layers: seq<nat>, width: real, height: real, draws: seq<NeuronDraws>,
                     k: nat, i: nat, t: Topology): (r: Option<Topology>)
    requires |draws| >= Total(layers) && WellShaped(draws)
    requires k <= |layers| && (k < |layers| ==> i <= layers[k]) && (k == |layers| ==> i == 0)
    requires |t.neurons| == Start(layers, k) + i
    decreases |layers| - k, if k < |layers| then layers[k] - i else 0
  {
    if k == |layers| then Some(t)
    else if i == layers[k] then
      StartStep(layers, k);
      BuildFrom(layers, width, height, draws, k + 1, 0, t)
    else
      StartStep(layers, k);
      StartMono(layers, k + 1, |layers|);
      StartAll(layers);
      match AddNeuron(layers, width, height, draws, k, i, t)
      case None => None
      case Some(t') => BuildFrom(layers, width, height, draws, k, i + 1, t')
  }

  /** The initial activations: neurons 0..min(3, layers[0])-1 of the input
      layer (none when there are no layers, where the source compares against
      `NaN`). */
  function InitialActivations(layers: seq<nat>, draws: seq<ActivationDraw>): (r: seq<Activation>)
    requires |draws| >= InitialActiveInputs
    ensures |r| == (if |layers| == 0 then 0 else Min(InitialActiveInputs, layers[0]))
    ensures forall j :: 0 <= j < |r| ==>
      && r[j].neuronId == j
      && 0.0 <= r[j].value < 1.0
      && 0.95 <= r[j].decay < 0.99
  {
    var n := if |layers| == 0 then 0 else Min(InitialActiveInputs, layers[0]);
    seq(n, j requires 0 <= j < n => Activation(j, draws[j].value, 0.95 + draws[j].decay * 0.04))
  }

  /** `initializeNetwork`; `None` when some neuron's index draws ran out. */
  function Build(layers: seq<nat>, width: real, height: real,
                 draws: seq<NeuronDraws>, initial: seq<ActivationDraw>): Option<Network>
    requires |draws| >= Total(layers) && WellShaped(draws)
    requires |initial| >= InitialActiveInputs
  {
    var built := BuildFrom(layers, width, height, draws, 0, 0, Topology([], []));
    if built.None? then None
    else Some(Network(built.value.neurons, built.value.connections, InitialActivations(layers, initial)))
  }

  // ---------------------------------------------------------------------
  // When a build succeeds

  /** Neuron `g` is an input neuron, or its index draws propose at least
      `min(prev, 5)` distinct indices of the previous layer. */
  predicate PicksSuffice(layers: seq<nat>, draws: seq<NeuronDraws>, g: nat)
    requires g < Total(layers) <= |draws|
  {
    var k := LayerOf(layers, g);
    k == 0 || Min(layers[k - 1], MaxFanIn) <= |Values(Indices(draws[g].picks, layers[k - 1]))|
  }

  /** Pushing neuron `i` of layer `k` succeeds exactly when its draws
      suffice. */
  lemma AddNeuronSome(layers: seq<nat>, width: real, height: real, draws: seq<NeuronDraws>,
                      k: nat, i: nat, t: Topology)
    requires |draws| >= Total(layers) && WellShaped(draws)
    requires k < |layers| && i < layers[k]
    requires |t.neurons| == Start(layers, k) + i
    ensures |t.neurons| < Total(layers)
    ensures AddNeuron(layers, width, height, draws, k, i, t).Some? <==> PicksSuffice(layers, draws, |t.neurons|)
  {
    StartStep(layers, k);
    StartMono(layers, k + 1, |layers|);
    LayerOfUnique(layers, k, |t.neurons|);
    if k > 0 {
      var prev := layers[k - 1];
      var picks := draws[|t.neurons|].picks;
      SampleDistinctFirst(picks, Min(prev, MaxFanIn), prev, []);
      FirstDistinctCount(Indices(picks, prev));
    }
  }

  /** Every neuron from number `lo` on has sufficient draws. */
  predicate SufficeFrom(layers: seq<nat>, draws: seq<NeuronDraws>, lo: nat)
    requires Total(layers) <= |draws|
  {
    forall g :: lo <= g < Total(layers) ==> PicksSuffice(layers, draws, g)
  }

  lemma SufficeFromStep(layers: seq<nat>, draws: seq<NeuronDraws>, lo: nat)
    requires lo < Total(layers) <= |draws|
    ensures SufficeFrom(layers, draws, lo) <==> PicksSuffice(layers, draws, lo) && SufficeFrom(layers, draws, lo + 1)
  {
  }

  /** One inner-loop pass of `BuildFrom`: push the neuron, then go on with
      the next one. */
  lemma BuildFromPush(layers: seq<nat>, width: real, height: real, draws: seq<NeuronDraws>,
                      k: nat, i: nat, t: Topology)
    requires |draws| >= Total(layers) && WellShaped(draws)
    requires k < |layers| && i < layers[k]
    requires |t.neurons| == Start(layers, k) + i
    ensures |t.neurons| < Total(layers)
    ensures var r := AddNeuron(layers, width, height, draws, k, i, t);
      && (r.None? ==> BuildFrom(layers, width, height, draws, k, i, t) == None)
      && (r.Some? ==> |r.value.neurons| == |t.neurons| + 1)
      && (r.Some? ==> BuildFrom(layers, width, height, draws, k, i, t)
                      == BuildFrom(layers, width, height, draws, k, i + 1, r.value))
  {
    StartStep(layers, k);
    StartMono(layers, k + 1, |layers|);
    StartAll(layers);
  }

  /** Past the last layer the loops stop, and no neuron is left to check. */
  lemma BuildFromDone(layers: seq<nat>, width: real, height: real, draws: seq<NeuronDraws>, t: Topology)
    requires |draws| >= Total(layers) && WellShaped(draws)
    requires |t.neurons| == Start(layers, |layers|)
    ensures BuildFrom(layers, width, height, draws, |layers|, 0, t) == Some(t)
    ensures SufficeFrom(layers, draws, |t.neurons|)
  {
    StartAll(layers);
  }

  /** Finishing layer `k` in `BuildFrom` is starting layer `k + 1`. */
  lemma BuildFromNextLayer(layers: seq<nat>, width: real, height: real, draws: seq<NeuronDraws>, k: nat, t: Topology)
    requires |draws| >= Total(layers) && WellShaped(draws)
    requires k < |layers| && |t.neurons| == Start(layers, k) + layers[k]
    ensures |t.neurons| == Start(layers, k + 1)
    ensures BuildFrom(layers, width, height, draws, k, layers[k], t) == BuildFrom(layers, width, height, draws, k + 1, 0, t)
  {
    StartStep(layers, k);
  }

  /** The nested loops, resumed at neuron `i` of layer `k`, succeed exactly
      when every neuron still to be built has sufficient draws. */
  lemma {:induction false} BuildFromSome(layers: seq<nat>, width: real, height: real, draws: seq<NeuronDraws>,
                                         k: nat, i: nat, t: Topology)
    requires |draws| >= Total(layers) && WellShaped(draws)
    requires k <= |layers| && (k < |layers| ==> i <= layers[k]) && (k == |layers| ==> i == 0)
    requires |t.neurons| == Start(layers, k) + i
    ensures BuildFrom(layers, width, height, draws, k, i, t).Some? <==> SufficeFrom(layers, draws, |t.neurons|)
    decreases |layers| - k, if k < |layers| then layers[k] - i else 0
  {
    if k == |layers| {
      BuildFromDone(layers, width, height, draws, t);
    } else if i == layers[k] {
      BuildFromNextLayer(layers, width, height, draws, k, t);
      BuildFromSome(layers, width, height, draws, k + 1, 0, t);
    } else {
      BuildFromPush(layers, width, height, draws, k, i, t);
      var r := AddNeuron(layers, width, height, draws, k, i, t);
      if r.Some? {
        BuildFromSome(layers, width, height, draws, k, i + 1, r.value);
      }
      BuildFromSomeStep(layers, width, height, draws, k, i, t);
    }
  }

  /** The inductive step of `BuildFromSome` for one pushed neuron. */
  lemma BuildFromSomeStep(layers: seq<nat>, width: real, height: real, draws: seq<NeuronDraws>,
                          k: nat, i: nat, t: Topology)
    requires |draws| >= Total(layers) && WellShaped(draws)
    requires k < |layers| && i < layers[k]
    requires |t.neurons| == Start(layers, k) + i && |t.neurons| < Total(layers)
    requires var r := AddNeuron(layers, width, height, draws, k, i, t);
      r.Some? ==>
        && |r.value.neurons| == |t.neurons| + 1
        && (BuildFrom(layers, width, height, draws, k, i + 1, r.value).Some? <==> SufficeFrom(layers, draws, |t.neurons| + 1))
    ensures BuildFrom(layers, width, height, draws, k, i, t).Some? <==> SufficeFrom(layers, draws, |t.neurons|)
  {
    BuildFromPush(layers, width, height, draws, k, i, t);
    AddNeuronSome(layers, width, height, draws, k, i, t);
    SufficeFromStep(layers, draws, |t.neurons|);
  }

  /** A build succeeds exactly when every neuron outside the input layer has
      index draws proposing enough distinct sources; otherwise the model
      answers `None` where the source would keep drawing. */
  lemma BuildSucceeds(layers: seq<nat>, width: real, height: real,
                      draws: seq<NeuronDraws>, initial: seq<ActivationDraw>)
    requires |draws| >= Total(layers) && WellShaped(draws)
    requires |initial| >= InitialActiveInputs
    ensures Build(layers, width, height, draws, initial).Some? <==>
      forall g :: 0 <= g < Total(layers) ==> PicksSuffice(layers, draws, g)
  {
    var t0 := Topology([], []);
    BuildFromSome(layers, width, height, draws, 0, 0, t0);
    assert SufficeFrom(layers, draws, 0) <==> forall g :: 0 <= g < Total(layers) ==> PicksSuffice(layers, draws, g);
  }

  // ---------------------------------------------------------------------
  // Structural invariants of the built connections

  /** Number of connections into neuron `g`. */
  function CountInto(cs: seq<Connection>, g: int): nat
  {
    if |cs| == 0 then 0
    else CountInto(cs[..|cs| - 1], g) + (if cs[|cs| - 1].to == g then 1 else 0)
  }

  lemma {:induction false} CountIntoAppend(a: seq<Connection>, b: seq<Connection>, g: int)
    ensures CountInto(a + b, g) == CountInto(a, g) + CountInto(b, g)
    decreases |b|
  {
    if |b| == 0 {
      assert a + b == a;
    } else {
      assert (a + b)[..|a + b| - 1] == a + b[..|b| - 1];
      CountIntoAppend(a, b[..|b| - 1], g);
    }
  }

  lemma {:induction false} CountIntoUniform(cs: seq<Connection>, to: nat, g: int)
    requires forall j :: 0 <= j < |cs| ==> cs[j].to == to
    ensures CountInto(cs, g) == if g == to then |cs| else 0
    decreases |cs|
  {
    if |cs| > 0 {
      CountIntoUniform(cs[..|cs| - 1], to, g);
    }
  }

  lemma {:induction false} CountIntoAbsent(cs: seq<Connection>, g: int)
    requires forall j :: 0 <= j < |cs| ==> cs[j].to != g
    ensures CountInto(cs, g) == 0
    decreases |cs|
  {
    if |cs| > 0 {
      CountIntoAbsent(cs[..|cs| - 1], g);
    }
  }

  /** Every connection is fresh (inactive, progress 0, strength in [0,1)) and
      runs from a neuron of the previous layer to a neuron of the list; no
      neuron receives two connections from the same source. */
  predicate FreshEdges(ns: seq<Neuron>, cs: seq<Connection>)
  {
    && (forall e :: 0 <= e < |cs| ==>
          && 0 <= cs[e].from < |ns|
          && cs[e].to < |ns|
          && ns[cs[e].from].layer + 1 == ns[cs[e].to].layer
          && !cs[e].active
          && cs[e].progress == 0.0
          && 0.0 <= cs[e].strength < 1.0)
    && (forall a, b :: 0 <= a < b < |cs| && cs[a].to == cs[b].to ==> cs[a].from != cs[b].from)
  }

  /** The neurons built so far are a prefix of the reference list. */
  predicate MatchesReference(layers: seq<nat>, width: real, height: real, draws: seq<NeuronDraws>, ns: seq<Neuron>)
    requires |draws| >= Total(layers)
  {
    && |ns| <= Total(layers)
    && forall g {:trigger ReferenceNeuron(layers, width, height, draws, g)} :: 0 <= g < |ns| ==> ns[g] == ReferenceNeuron(layers, width, height, draws, g)
  }

  /** Every neuron built so far has exactly its layer's fan-in. */
  predicate FanInsMatch(layers: seq<nat>, ns: seq<Neuron>, cs: seq<Connection>)
  {
    forall g {:trigger CountInto(cs, g)} :: 0 <= g < |ns| ==>
      ns[g].layer < |layers| && CountInto(cs, g) == FanIn(layers, ns[g].layer)
  }

  /** What holds of the partial topology before neuron `i` of layer `k`. */
  predicate BuildInv(layers: seq<nat>, width: real, height: real, draws: seq<NeuronDraws>,
                     k: nat, i: nat, t: Topology)
  {
    && |draws| >= Total(layers)
    && k <= |layers|
    && MatchesReference(layers, width, height, draws, t.neurons)
    && FreshEdges(t.neurons, t.connections)
    && FanInsMatch(layers, t.neurons, t.connections)
    && |t.connections| == EdgesBefore(layers, k) + (if k < |layers| then FanIn(layers, k) * i else 0)
  }

  /** When the previous layer is not empty, `findIndex` finds its start. */
  lemma FirstOfLayerIsStart(layers: seq<nat>, width: real, height: real, draws: seq<NeuronDraws>, ns: seq<Neuron>, k: nat)
    requires |draws| >= Total(layers)
    requires 0 < k < |layers| && layers[k - 1] > 0
    requires Start(layers, k) <= |ns|
    requires MatchesReference(layers, width, height, draws, ns)
    ensures FirstOfLayer(ns, k - 1) == Start(layers, k - 1)
  {
    var s := Start(layers, k - 1);
    ReferenceSlot(layers, width, height, draws, k - 1, 0);
    assert ns[s] == ReferenceNeuron(layers, width, height, draws, s);
    forall j | 0 <= j < s
      ensures ns[j].layer != k - 1
    {
      assert ns[j] == ReferenceNeuron(layers, width, height, draws, j);
      var kj := LayerOf(layers, j);
      if kj >= k - 1 {
        StartMono(layers, k - 1, kj);
      }
    }
  }

  /** Appending a neuron with a block of connections into it keeps the
      connections fresh and free of repeated sources. */
  lemma FreshEdgesExtend(ns: seq<Neuron>, n: Neuron, cs: seq<Connection>, block: seq<Connection>)
    requires FreshEdges(ns, cs)
    requires forall e :: 0 <= e < |block| ==>
      && block[e].to == |ns|
      && 0 <= block[e].from < |ns|
      && ns[block[e].from].layer + 1 == n.layer
      && !block[e].active && block[e].progress == 0.0
      && 0.0 <= block[e].strength < 1.0
    requires forall a, b :: 0 <= a < b < |block| ==> block[a].from != block[b].from
    ensures FreshEdges(ns + [n], cs + block)
  {
    var ns' := ns + [n];
    var cs' := cs + block;
    forall a, b | 0 <= a < b < |cs'| && cs'[a].to == cs'[b].to
      ensures cs'[a].from != cs'[b].from
    {
    }
  }

  /** Appending a neuron with exactly its fan-in of connections into it keeps
      every fan-in exact. */
  lemma FanInsExtend(layers: seq<nat>, ns: seq<Neuron>, n: Neuron, cs: seq<Connection>, block: seq<Connection>)
    requires FanInsMatch(layers, ns, cs)
    requires forall e :: 0 <= e < |cs| ==> cs[e].to < |ns|
    requires forall e :: 0 <= e < |block| ==> block[e].to == |ns|
    requires n.layer < |layers| && |block| == FanIn(layers, n.layer)
    ensures FanInsMatch(layers, ns + [n], cs + block)
  {
    var ns' := ns + [n];
    forall g | 0 <= g < |ns'|
      ensures ns'[g].layer < |layers| && CountInto(cs + block, g) == FanIn(layers, ns'[g].layer)
    {
      CountIntoAppend(cs, block, g);
      CountIntoUniform(block, |ns|, g);
      if g == |ns| {
        CountIntoAbsent(cs, g);
      }
    }
  }

  /** The connections `AddNeuron` creates for a neuron of layer `k > 0`, once
      `findIndex` has located the previous layer at `prevStart`. */
  lemma IncomingFresh(layers: seq<nat>, width: real, height: real, draws: seq<NeuronDraws>,
                      k: nat, ns: seq<Neuron>, idx: seq<nat>, strengths: seq<Unit01>)
    requires |draws| >= Total(layers)
    requires 0 < k < |layers| && Start(layers, k) <= |ns|
    requires MatchesReference(layers, width, height, draws, ns)
    requires |idx| <= |strengths| && Distinct(idx)
    requires forall j :: 0 <= j < |idx| ==> idx[j] < layers[k - 1]
    ensures var block := Incoming(Start(layers, k - 1), idx, |ns|, strengths);
      forall e :: 0 <= e < |block| ==>
        && block[e].to == |ns|
        && 0 <= block[e].from < |ns|
        && ns[block[e].from].layer + 1 == k
        && !block[e].active && block[e].progress == 0.0
        && 0.0 <= block[e].strength < 1.0
    ensures var block := Incoming(Start(layers, k - 1), idx, |ns|, strengths);
      forall a, b :: 0 <= a < b < |block| ==> block[a].from != block[b].from
  {
    var block := Incoming(Start(layers, k - 1), idx, |ns|, strengths);
    forall e | 0 <= e < |block|
      ensures 0 <= block[e].from < |ns| && ns[block[e].from].layer + 1 == k
    {
      ReferenceSlot(layers, width, height, draws, k - 1, idx[e]);
    }
  }

  /** Pushing neuron `i` of layer `k` extends the reference prefix. */
  lemma MatchesReferenceExtend(layers: seq<nat>, width: real, height: real, draws: seq<NeuronDraws>,
                               k: nat, i: nat, ns: seq<Neuron>)
    requires |draws| >= Total(layers)
    requires k < |layers| && i < layers[k]
    requires |ns| == Start(layers, k) + i
    requires MatchesReference(layers, width, height, draws, ns)
    ensures |ns| < Total(layers)
    ensures MatchesReference(layers, width, height, draws,
                             ns + [MakeNeuron(layers, width, height, k, i, |ns|, draws[|ns|])])
  {
    ReferenceSlot(layers, width, height, draws, k, i);
  }

  /** Pushing neuron `i` of layer `k` with a block of exactly its fan-in of
      fresh connections from the previous layer keeps the invariant. */
  lemma ExtendKeepsInv(layers: seq<nat>, width: real, height: real, draws: seq<NeuronDraws>,
                       k: nat, i: nat, t: Topology, block: seq<Connection>)
    requires |draws| >= Total(layers)
    requires k < |layers| && i < layers[k]
    requires |t.neurons| == Start(layers, k) + i
    requires BuildInv(layers, width, height, draws, k, i, t)
    requires |block| == FanIn(layers, k)
    requires forall e :: 0 <= e < |block| ==>
      && block[e].to == |t.neurons|
      && 0 <= block[e].from < |t.neurons|
      && t.neurons[block[e].from].layer + 1 == k
      && !block[e].active && block[e].progress == 0.0
      && 0.0 <= block[e].strength < 1.0
    requires forall a, b :: 0 <= a < b < |block| ==> block[a].from != block[b].from
    requires |t.neurons| < Total(layers)
    ensures var n := MakeNeuron(layers, width, height, k, i, |t.neurons|, draws[|t.neurons|]);
      BuildInv(layers, width, height, draws, k, i + 1, Topology(t.neurons + [n], t.connections + block))
  {
    var n0 := |t.neurons|;
    var n := MakeNeuron(layers, width, height, k, i, n0, draws[n0]);
    MatchesReferenceExtend(layers, width, height, draws, k, i, t.neurons);
    forall e | 0 <= e < |t.connections| ensures t.connections[e].to < n0 { }
    FreshEdgesExtend(t.neurons, n, t.connections, block);
    FanInsExtend(layers, t.neurons, n, t.connections, block);
    assert FanIn(layers, k) * (i + 1) == FanIn(layers, k) * i + FanIn(layers, k);
  }

  lemma AddNeuronKeepsInv(layers: seq<nat>, width: real, height: real, draws: seq<NeuronDraws>,
                          k: nat, i: nat, t: Topology)
    requires |draws| >= Total(layers) && WellShaped(draws)
    requires k < |layers| && i < layers[k]
    requires |t.neurons| == Start(layers, k) + i
    requires |t.neurons| < Total(layers)
    requires BuildInv(layers, width, height, draws, k, i, t)
    ensures var r := AddNeuron(layers, width, height, draws, k, i, t);
      r.Some? ==> |r.value.neurons| == |t.neurons| + 1 && BuildInv(layers, width, height, draws, k, i + 1, r.value)
  {
    var n0 := |t.neurons|;
    var d := draws[n0];
    var n := MakeNeuron(layers, width, height, k, i, n0, d);
    var r := AddNeuron(layers, width, height, draws, k, i, t);
    if r.Some? {
      if k == 0 {
        assert r.value == Topology(t.neurons + [n], t.connections + []);
        ExtendKeepsInv(layers, width, height, draws, k, i, t, []);
      } else {
        var prevCount := layers[k - 1];
        var idx := SampleDistinct(d.picks, Min(prevCount, MaxFanIn), prevCount, []).value;
        var ns := t.neurons + [n];
        var block := Incoming(FirstOfLayer(ns, k - 1), idx, n0, d.strengths);
        assert r.value == Topology(ns, t.connections + block);
        if prevCount > 0 {
          MatchesReferenceExtend(layers, width, height, draws, k, i, t.neurons);
          FirstOfLayerIsStart(layers, width, height, draws, ns, k);
          IncomingFresh(layers, width, height, draws, k, t.neurons, idx, d.strengths);
        }
        ExtendKeepsInv(layers, width, height, draws, k, i, t, block);
      }
    }
  }

  /** Finishing layer `k` is starting layer `k + 1`. */
  lemma NextLayerInv(layers: seq<nat>, width: real, height: real, draws: seq<NeuronDraws>, k: nat, t: Topology)
    requires k < |layers|
    requires BuildInv(layers, width, height, draws, k, layers[k], t)
    ensures BuildInv(layers, width, height, draws, k + 1, 0, t)
  {
    assert EdgesBefore(layers, k + 1) == EdgesBefore(layers, k) + FanIn(layers, k) * layers[k];
  }

  lemma {:induction false} BuildFromKeepsInv(layers: seq<nat>, width: real, height: real, draws: seq<NeuronDraws>,
                                             k: nat, i: nat, t: Topology)
    requires |draws| >= Total(layers) && WellShaped(draws)
    requires k <= |layers| && (k < |layers| ==> i <= layers[k]) && (k == |layers| ==> i == 0)
    requires |t.neurons| == Start(layers, k) + i
    requires BuildInv(layers, width, height, draws, k, i, t)
    ensures var r := BuildFrom(layers, width, height, draws, k, i, t);
      r.Some? ==> |r.value.neurons| == Total(layers) && BuildInv(layers, width, height, draws, |layers|, 0, r.value)
    decreases |layers| - k, if k < |layers| then layers[k] - i else 0
  {
    StartAll(layers);
    if k == |layers| {
      assert BuildFrom(layers, width, height, draws, k, i, t) == Some(t);
      assert SufficeFrom(layers, draws, |t.neurons|);
    } else if i == layers[k] {
      StartStep(layers, k);
      assert BuildFrom(layers, width, height, draws, k, i, t) == BuildFrom(layers, width, height, draws, k + 1, 0, t);
      NextLayerInv(layers, width, height, draws, k, t);
      BuildFromKeepsInv(layers, width, height, draws, k + 1, 0, t);
    } else {
      StartStep(layers, k);
      StartMono(layers, k + 1, |layers|);
      assert |t.neurons| < Total(layers);
      AddNeuronKeepsInv(layers, width, height, draws, k, i, t);
      var r := AddNeuron(layers, width, height, draws, k, i, t);
      if r.Some? {
        BuildFromKeepsInv(layers, width, height, draws, k, i + 1, r.value);
      }
    }
  }

  /** Before the first neuron nothing has been built, so the invariant holds
      trivially; the whole build therefore ends in a state that satisfies it
      for the last layer. */
  lemma BuildFromEmpty(layers: seq<nat>, width: real, height: real, draws: seq<NeuronDraws>, t: Topology, r: Topology)
    requires |draws| >= Total(layers) && WellShaped(draws)
    requires t.neurons == [] && t.connections == []
    requires BuildFrom(layers, width, height, draws, 0, 0, t) == Some(r)
    ensures |r.neurons| == Total(layers)
    ensures BuildInv(layers, width, height, draws, |layers|, 0, r)
  {
    assert BuildInv(layers, width, height, draws, 0, 0, t);
    BuildFromKeepsInv(layers, width, height, draws, 0, 0, t);
  }

  /** The topology a successful build starts from and ends with. */
  lemma BuildTopology(layers: seq<nat>, width: real, height: real,
                      draws: seq<NeuronDraws>, initial: seq<ActivationDraw>, net: Network, t0: Topology)
      returns (t: Topology)
    requires |draws| >= Total(layers) && WellShaped(draws)
    requires |initial| >= InitialActiveInputs
    requires Build(layers, width, height, draws, initial) == Some(net)
    requires t0 == Topology([], [])
    ensures BuildFrom(layers, width, height, draws, 0, 0, t0) == Some(t)
    ensures net == Network(t.neurons, t.connections, InitialActivations(layers, initial))
  {
    t := BuildFrom(layers, width, height, draws, 0, 0, t0).value;
  }

  /** A built network holds exactly the reference neurons: ids 0..N-1 in
      creation order, layer-tagged and placed on the grid. */
  lemma BuildNeurons(layers: seq<nat>, width: real, height: real,
                     draws: seq<NeuronDraws>, initial: seq<ActivationDraw>, net: Network)
    requires |draws| >= Total(layers) && WellShaped(draws)
    requires |initial| >= InitialActiveInputs
    requires Build(layers, width, height, draws, initial) == Some(net)
    ensures net.neurons == ReferenceNeurons(layers, width, height, draws)
  {
    var t0 := Topology([], []);
    var t := BuildTopology(layers, width, height, draws, initial, net, t0);
    BuildFromEmpty(layers, width, height, draws, t0, t);
    var ref := ReferenceNeurons(layers, width, height, draws);
    forall g | 0 <= g < |ref| ensures t.neurons[g] == ref[g] {
      assert t.neurons[g] == ReferenceNeuron(layers, width, height, draws, g);
    }
  }

  /** A built network has exactly `EdgesBefore(layers, |layers|)`
      connections, all fresh and from the previous layer, none repeated;
      exactly `min(layers[k-1], 5)` connections go into each neuron of layer
      `k > 0` and none into the input layer. */
  lemma BuildEdges(layers: seq<nat>, width: real, height: real,
                   draws: seq<NeuronDraws>, initial: seq<ActivationDraw>, net: Network)
    requires |draws| >= Total(layers) && WellShaped(draws)
    requires |initial| >= InitialActiveInputs
    requires Build(layers, width, height, draws, initial) == Some(net)
    ensures |net.connections| == EdgesBefore(layers, |layers|)
    ensures FreshEdges(net.neurons, net.connections)
    ensures forall g :: 0 <= g < |net.neurons| ==>
      net.neurons[g].layer < |layers| && CountInto(net.connections, g) == FanIn(layers, net.neurons[g].layer)
  {
    var t0 := Topology([], []);
    var t := BuildTopology(layers, width, height, draws, initial, net, t0);
    BuildFromEmpty(layers, width, height, draws, t0, t);
    assert net.neurons == t.neurons && net.connections == t.connections;
    assert FanInsMatch(layers, t.neurons, t.connections);
  }

  /** A built network starts with the first `min(3, layers[0])` input
      neurons active, each with a value in [0,1) and a decay in [0.95,0.99). */
  lemma BuildActivations(layers: seq<nat>, width: real, height: real,
                         draws: seq<NeuronDraws>, initial: seq<ActivationDraw>, net: Network)
    requires |draws| >= Total(layers) && WellShaped(draws)
    requires |initial| >= InitialActiveInputs
    requires Build(layers, width, height, draws, initial) == Some(net)
    ensures |net.activations| == (if |layers| == 0 then 0 else Min(InitialActiveInputs, layers[0]))
    ensures forall j :: 0 <= j < |net.activations| ==>
      && net.activations[j].neuronId == j
      && 0.0 <= net.activations[j].value < 1.0
      && 0.95 <= net.activations[j].decay < 0.99
  {
    var t := BuildTopology(layers, width, height, draws, initial, net, Topology([], []));
  }

  /** In a built network the input neurons are exactly the first
      `layers[0]` neurons, numbered from 0. */
  lemma BuildInputs(layers: seq<nat>, width: real, height: real,
                    draws: seq<NeuronDraws>, initial: seq<ActivationDraw>, net: Network)
    requires |draws| >= Total(layers) && WellShaped(draws)
    requires |initial| >= InitialActiveInputs
    requires Build(layers, width, height, draws, initial) == Some(net)
    requires |layers| > 0
    ensures layers[0] <= |net.neurons|
    ensures forall g :: 0 <= g < |net.neurons| ==> (net.neurons[g].layer == 0 <==> g < layers[0])
    ensures forall g :: 0 <= g < layers[0] ==> net.neurons[g].id == g
  {
    BuildNeurons(layers, width, height, draws, initial, net);
    StartMono(layers, 1, |layers|);
    forall g | 0 <= g < |net.neurons|
      ensures net.neurons[g].layer == LayerOf(layers, g) && net.neurons[g].id == g
    {
      assert net.neurons[g] == ReferenceNeuron(layers, width, height, draws, g);
    }
    forall g | 0 <= g < |net.neurons|
      ensures LayerOf(layers, g) == 0 <==> g < layers[0]
    {
      if g < layers[0] {
        LayerOfUnique(layers, 0, g);
      }
    }
  }

  /** Building never invents anything the source cannot produce: when it
      succeeds the network is structurally sound for the tick logic. */
  lemma BuildSound(layers: seq<nat>, width: real, height: real,
                   draws: seq<NeuronDraws>, initial: seq<ActivationDraw>, net: Network)
    requires |draws| >= Total(layers) && WellShaped(draws)
    requires |initial| >= InitialActiveInputs
    requires width > 0.0 && height > 0.0
    requires Build(layers, width, height, draws, initial) == Some(net)
    ensures |net.neurons| == Total(layers)
    ensures forall g :: 0 <= g < |net.neurons| ==>
      net.neurons[g].id == g && 0.0 < net.neurons[g].x < width && 0.0 < net.neurons[g].y < height
    ensures forall c :: c in net.connections ==> 0 <= c.from < |net.neurons| && c.to < |net.neurons|
  {
    BuildNeurons(layers, width, height, draws, initial, net);
    BuildEdges(layers, width, height, draws, initial, net);
    ReferenceFacts(layers, width, height, draws);
    forall c | c in net.connections
      ensures 0 <= c.from < |net.neurons| && c.to < |net.neurons|
    {
      var e :| 0 <= e < |net.connections| && net.connections[e] == c;
    }
  }
}

=== FILE: neural_signals.dfy ===
/** The per-frame logic of the neural-network canvas: signals travel along
    active connections, arriving signals append activations (trimming the list
    when it grows past its cap), activations decay and are pruned, active
    neurons switch their outgoing connections on, and the input layer is
    stimulated now and then. Each step is a pure function of the previous
    state and the random draws it consumes. */
module NeuralSignals {
  import opened Basics
  import opened NeuralNetwork

  /** Progress a travelling signal makes per frame. */
  const SignalStep: real := 0.05
  /** A delivery trims the activation list when it holds more than this. */
  const DeliveryCap: nat := 20
  /** How many strong activations a trim keeps. */
  const TrimKeep: nat := 15
  /** Activations at or below this value are dropped by a trim. */
  const TrimFloor: real := 0.2
  /** Activations at or below this value are pruned after decaying. */
  const DecayFloor: real := 0.1
  /** A frame considers firing connections when its draw is below this. */
  const FireGate: real := 0.7
  /** Per-unit-of-activation chance that a connection fires. */
  const FireRate: real := 0.02
  /** A frame stimulates the input layer when its draw is below this... */
  const InjectGate: real := 0.01
  /** ...and fewer than this many activations remain. */
  const InjectCap: nat := 15

  // ---------------------------------------------------------------------
  // Signals travelling along connections

  /** A connection after one frame, and whether its signal arrived. */
  datatype Stepped = Stepped(conn: Connection, delivered: bool)

  /** One frame of one connection: an active signal moves on by 0.05; when it
      reaches the target the connection goes quiet and reports a delivery. */
  function AdvanceOne(c: Connection): (s: Stepped)
    ensures s.conn.from == c.from && s.conn.to == c.to && s.conn.strength == c.strength
    ensures !c.active ==> s == Stepped(c, false)
    ensures s.delivered <==> c.active && c.progress + SignalStep >= 1.0
    ensures s.delivered ==> !s.conn.active && s.conn.progress == 0.0
    ensures c.active && !s.delivered ==> s.conn.active && s.conn.progress == c.progress + SignalStep
  {
    if !c.active then Stepped(c, false)
    else if c.progress + SignalStep >= 1.0 then Stepped(c.(active := false, progress := 0.0), true)
    else Stepped(c.(progress := c.progress + SignalStep), false)
  }

  /** A connection after `n` frames. */
  function AdvanceMany(c: Connection, n: nat): Connection
  {
    if n == 0 then c else AdvanceOne(AdvanceMany(c, n - 1)).conn
  }

  /** A freshly fired signal (progress 0) travels for 19 frames and arrives on
      exactly the 20th. */
  lemma {:induction false} SignalTravelTime(c: Connection, n: nat)
    requires c.active && c.progress == 0.0
    requires n < 20
    ensures AdvanceMany(c, n) == c.(progress := SignalStep * n as real)
    ensures n < 19 ==> !AdvanceOne(AdvanceMany(c, n)).delivered
    ensures n == 19 ==> AdvanceOne(AdvanceMany(c, n)).delivered
  {
    if n > 0 {
      SignalTravelTime(c, n - 1);
    }
  }

  // ---------------------------------------------------------------------
  // Delivering a signal

  /** The random draws one delivery consumes. */
  datatype DeliveryDraw = DeliveryDraw(value: Unit01, decay: Unit01)

  /** The activation a signal arriving at neuron `to` creates. */
  function Arrival(to: int, d: DeliveryDraw): (a: Activation)
    ensures a.neuronId == to
    ensures 0.8 <= a.value < 1.0 && 0.95 <= a.decay < 0.98
  {
    Activation(to, 0.8 + d.value * 0.2, 0.95 + d.decay * 0.03)
  }

  predicate Strong(a: Activation)
  {
    a.value > TrimFloor
  }

  /** Appends the activation for an arrival at `to`. A list longer than 20 is
      first cut to its first 15 entries with value above 0.2. */
  function Deliver(acts: seq<Activation>, to: int, d: DeliveryDraw): (r: seq<Activation>)
    ensures |r| > 0 && r[|r| - 1] == Arrival(to, d)
    ensures |acts| <= DeliveryCap ==> r == acts + [Arrival(to, d)]
    ensures |acts| > DeliveryCap ==> |r| <= TrimKeep + 1
    ensures |acts| > DeliveryCap ==> forall a :: a in r[..|r| - 1] ==> a in acts && Strong(a)
    ensures |acts| > DeliveryCap ==> r[..|r| - 1] == Take(Filter(acts, Strong), TrimKeep)
    ensures |r| <= DeliveryCap + 1
  {
    var kept := if |acts| > DeliveryCap then Take(Filter(acts, Strong), TrimKeep) else acts;
    kept + [Arrival(to, d)]
  }

  /** A trim drops no strong activation when there are at most 15 of them:
      the strong ones stay, in their order, and the arrival follows. */
  lemma TrimKeepsFewStrong(acts: seq<Activation>, to: int, d: DeliveryDraw)
    requires |acts| > DeliveryCap
    requires |Filter(acts, Strong)| <= TrimKeep
    ensures forall a :: a in acts && Strong(a) ==> a in Deliver(acts, to, d)
    ensures Deliver(acts, to, d) == Filter(acts, Strong) + [Arrival(to, d)]
  {
    var r := Deliver(acts, to, d);
    var strong := Filter(acts, Strong);
    assert r == strong + [Arrival(to, d)];
    forall a | a in acts && Strong(a) ensures a in r {
      assert a in strong;
    }
  }

  /** The trim keeps the first 15 strong activations in list order: when a
      prefix `pre` of the list already holds 15 strong entries, the kept part
      is exactly the strong entries of `pre`, and every strong entry after
      it is dropped. */
  lemma TrimKeepsFirst(pre: seq<Activation>, post: seq<Activation>, to: int, d: DeliveryDraw)
    requires |pre| + |post| > DeliveryCap
    requires |Filter(pre, Strong)| == TrimKeep
    ensures Deliver(pre + post, to, d) == Filter(pre, Strong) + [Arrival(to, d)]
  {
    FilterAppend(pre, post, Strong);
    var both := Filter(pre, Strong) + Filter(post, Strong);
    assert Take(both, TrimKeep) == Filter(pre, Strong);
  }

  /** A trim keeps exactly 15 entries when at least 15 are strong. */
  lemma TrimKeepsFifteen(acts: seq<Activation>, to: int, d: DeliveryDraw)
    requires |acts| > DeliveryCap
    requires |Filter(acts, Strong)| >= TrimKeep
    ensures |Deliver(acts, to, d)| == TrimKeep + 1
  {
  }

  /** The connections and activations after the delivery pass. */
  datatype SignalState = SignalState(connections: seq<Connection>, activations: seq<Activation>)

  /** The delivery pass: every connection advances one frame, in list order,
      and every arrival is delivered (connection `e` uses draw `e`). */
  function AdvanceAll(cs: seq<Connection>, acts: seq<Activation>, draws: seq<DeliveryDraw>): (r: SignalState)
    requires |draws| >= |cs|
    ensures |r.connections| == |cs|
    ensures forall e :: 0 <= e < |cs| ==> r.connections[e] == AdvanceOne(cs[e]).conn
    ensures |r.activations| <= DeliveryCap + 1 || r.activations == acts
    decreases |cs|
  {
    if |cs| == 0 then SignalState([], acts)
    else
      var n := |cs| - 1;
      var prev := AdvanceAll(cs[..n], acts, draws);
      var s := AdvanceOne(cs[n]);
      var acts' := if s.delivered then Deliver(prev.activations, cs[n].to, draws[n]) else prev.activations;
      SignalState(prev.connections + [s.conn], acts')
  }

  /** Reference list of the activations the pass delivers, in order. */
  function Arrivals(cs: seq<Connection>, draws: seq<DeliveryDraw>): seq<Activation>
    requires |draws| >= |cs|
    decreases |cs|
  {
    if |cs| == 0 then []
    else
      var n := |cs| - 1;
      if AdvanceOne(cs[n]).delivered then Arrivals(cs[..n], draws) + [Arrival(cs[n].to, draws[n])]
      else Arrivals(cs[..n], draws)
  }

  /** While the list never passes the cap, the pass appends exactly the
      arrivals, in connection order, and keeps every earlier activation. */
  lemma {:induction false} AdvanceAllAppends(cs: seq<Connection>, acts: seq<Activation>, draws: seq<DeliveryDraw>)
    requires |draws| >= |cs|
    requires |acts| + |Arrivals(cs, draws)| <= DeliveryCap + 1
    ensures AdvanceAll(cs, acts, draws).activations == acts + Arrivals(cs, draws)
    decreases |cs|
  {
    if |cs| > 0 {
      var n := |cs| - 1;
      assert |Arrivals(cs[..n], draws)| <= |Arrivals(cs, draws)|;
      AdvanceAllAppends(cs[..n], acts, draws);
      if AdvanceOne(cs[n]).delivered {
        assert acts + Arrivals(cs, draws) == (acts + Arrivals(cs[..n], draws)) + [Arrival(cs[n].to, draws[n])];
      }
    }
  }

  /** Every activation of the pass's result is either an old one or an
      arrival at the target of a connection that delivered. */
  lemma {:induction false} AdvanceAllSources(cs: seq<Connection>, acts: seq<Activation>, draws: seq<DeliveryDraw>)
    requires |draws| >= |cs|
    ensures forall a :: a in AdvanceAll(cs, acts, draws).activations ==> a in acts || a in Arrivals(cs, draws)
    decreases |cs|
  {
    if |cs| > 0 {
      var n := |cs| - 1;
      AdvanceAllSources(cs[..n], acts, draws);
    }
  }

  // ---------------------------------------------------------------------
  // Decay

  /** One activation after multiplying its value by its decay factor. */
  function Decayed(a: Activation): (b: Activation)
    ensures b.neuronId == a.neuronId && b.decay == a.decay
    ensures 0.0 <= a.value && 0.0 <= a.decay < 1.0 ==> b.value <= a.value
    ensures 0.0 < a.value && 0.0 <= a.decay < 1.0 ==> b.value < a.value
  {
    if 0.0 <= a.value && 0.0 <= a.decay < 1.0 then
      ScaleBelowOne(a.value, a.decay);
      Activation(a.neuronId, a.value * a.decay, a.decay)
    else Activation(a.neuronId, a.value * a.decay, a.decay)
  }

  predicate Survives(a: Activation)
  {
    a.value > DecayFloor
  }

  function DecayAll(acts: seq<Activation>): (r: seq<Activation>)
    ensures |r| == |acts|
    ensures forall j :: 0 <= j < |r| ==> r[j] == Decayed(acts[j])
  {
    seq(|acts|, j requires 0 <= j < |acts| => Decayed(acts[j]))
  }

  /** The decay pass: every value is multiplied by its decay and the entries
      left at or below 0.1 are dropped. */
  function Decay(acts: seq<Activation>): (r: seq<Activation>)
    ensures |r| <= |acts|
    ensures forall a :: a in r ==> a.value > DecayFloor
    ensures forall a :: a in r <==> a in DecayAll(acts) && a.value > DecayFloor
  {
    Filter(DecayAll(acts), Survives)
  }

  /** The decay pass works entry by entry: decaying a concatenation decays
      each part and keeps them in order. */
  lemma DecayAppend(a: seq<Activation>, b: seq<Activation>)
    ensures Decay(a + b) == Decay(a) + Decay(b)
  {
    assert DecayAll(a + b) == DecayAll(a) + DecayAll(b);
    FilterAppend(DecayAll(a), DecayAll(b), Survives);
  }

  /** A single activation survives as its decayed form exactly when that is
      above 0.1. */
  lemma DecayOne(x: Activation)
    ensures Decay([x]) == if Decayed(x).value > DecayFloor then [Decayed(x)] else []
  {
    assert DecayAll([x]) == [Decayed(x)];
    FilterOne(Decayed(x), Survives);
  }

  /** With non-negative values and decay factors below 1 no value grows:
      every survivor of the pass is the decayed form of an input activation
      whose value was larger. */
  lemma DecayShrinks(acts: seq<Activation>)
    requires forall j :: 0 <= j < |acts| ==> 0.0 <= acts[j].value && 0.0 <= acts[j].decay < 1.0
    ensures forall a :: a in Decay(acts) ==>
      exists j :: 0 <= j < |acts| && a == Decayed(acts[j]) && a.value < acts[j].value
  {
    var ds := DecayAll(acts);
    forall a | a in Decay(acts)
      ensures exists j :: 0 <= j < |acts| && a == Decayed(acts[j]) && a.value < acts[j].value
    {
      var j :| 0 <= j < |ds| && ds[j] == a;
      assert a == Decayed(acts[j]) && a.value < acts[j].value;
    }
  }

  // ---------------------------------------------------------------------
  // Firing connections

  /** Position of the first activation of neuron `id`, or -1 (the source
      uses `Array.prototype.find`). */
  function FirstActivation(acts: seq<Activation>, id: int): (j: int)
    ensures -1 <= j < |acts|
    ensures j >= 0 ==> acts[j].neuronId == id
    ensures forall i :: 0 <= i < |acts| && (j < 0 || i < j) ==> acts[i].neuronId != id
    decreases |acts|
  {
    if |acts| == 0 then -1
    else if acts[0].neuronId == id then 0
    else
      var j := FirstActivation(acts[1..], id);
      if j < 0 then -1 else j + 1
  }

  /** Whether connection `c` fires this frame: it is idle, its source neuron
      is active, and the draw falls below 0.02 times the activation value. */
  predicate Fires(ns: seq<Neuron>, c: Connection, acts: seq<Activation>, draw: Unit01)
    requires 0 <= c.from < |ns|
  {
    var j := FirstActivation(acts, ns[c.from].id);
    && !c.active
    && j >= 0
    && draw < FireRate * acts[j].value
  }

  function FireOne(ns: seq<Neuron>, c: Connection, acts: seq<Activation>, draw: Unit01): (r: Connection)
    requires 0 <= c.from < |ns|
    ensures r.from == c.from && r.to == c.to && r.strength == c.strength
    ensures r.active == (c.active || Fires(ns, c, acts, draw))
    ensures r != c ==> Fires(ns, c, acts, draw) && r.progress == 0.0
    ensures c.active ==> r == c
  {
    if Fires(ns, c, acts, draw) then c.(active := true, progress := 0.0) else c
  }

  /** The firing pass, run on 70% of frames (`gate < 0.7`); connection `e`
      uses draw `e`. */
  function Fire(ns: seq<Neuron>, cs: seq<Connection>, acts: seq<Activation>, gate: Unit01, draws: seq<Unit01>): (r: seq<Connection>)
    requires |draws| >= |cs|
    requires forall e :: 0 <= e < |cs| ==> 0 <= cs[e].from < |ns|
    ensures |r| == |cs|
    ensures gate >= FireGate ==> r == cs
    ensures forall e :: 0 <= e < |cs| ==>
      && r[e].from == cs[e].from && r[e].to == cs[e].to && r[e].strength == cs[e].strength
      && (r[e].active <==> cs[e].active || (gate < FireGate && Fires(ns, cs[e], acts, draws[e])))
      && (r[e] != cs[e] ==> !cs[e].active && r[e].active && r[e].progress == 0.0)
  {
    if gate >= FireGate then cs
    else seq(|cs|, e requires 0 <= e < |cs| => FireOne(ns, cs[e], acts, draws[e]))
  }

  /** A connection only fires when its source neuron holds an activation. */
  lemma FiredHasActiveSource(ns: seq<Neuron>, cs: seq<Connection>, acts: seq<Activation>, gate: Unit01,
                             draws: seq<Unit01>, e: nat)
    requires |draws| >= |cs|
    requires forall e :: 0 <= e < |cs| ==> 0 <= cs[e].from < |ns|
    requires e < |cs|
    requires Fire(ns, cs, acts, gate, draws)[e].active && !cs[e].active
    ensures exists a :: a in acts && a.neuronId == ns[cs[e].from].id && draws[e] < FireRate * a.value
  {
    var j := FirstActivation(acts, ns[cs[e].from].id);
    assert acts[j] in acts;
  }

  // ---------------------------------------------------------------------
  // Stimulating the input layer

  predicate IsInput(n: Neuron)
  {
    n.layer == 0
  }

  /** The random draws stimulating the input layer. */
  datatype InjectDraws = InjectDraws(gate: Unit01, pick: Unit01, value: Unit01, decay: Unit01)

  /** On 1% of frames, with fewer than 15 activations, a random input neuron
      gets a fresh activation. `None` when there is no input neuron: the
      source then reads `.id` of `undefined` and throws. */
  function Inject(ns: seq<Neuron>, acts: seq<Activation>, d: InjectDraws): (r: Option<seq<Activation>>)
    ensures r.None? <==> d.gate < InjectGate && |acts| < InjectCap && forall n :: n in ns ==> !IsInput(n)
    ensures d.gate >= InjectGate || |acts| >= InjectCap ==> r == Some(acts)
    ensures r.Some? && r.value != acts ==>
      && |acts| < InjectCap
      && |r.value| == |acts| + 1 && r.value[..|acts|] == acts
      && (exists n :: n in ns && IsInput(n) && n.id == r.value[|acts|].neuronId)
      && 0.7 <= r.value[|acts|].value < 1.0
      && 0.94 <= r.value[|acts|].decay < 0.98
    ensures d.gate < InjectGate && |acts| < InjectCap && r.Some? ==>
      var inputs := Filter(ns, IsInput);
      && |inputs| > 0
      && |r.value| == |acts| + 1 && r.value[..|acts|] == acts
      && r.value[|acts|].neuronId == inputs[PickIndex(d.pick, |inputs|)].id
  {
    if d.gate < InjectGate && |acts| < InjectCap then
      var inputs := Filter(ns, IsInput);
      if |inputs| == 0 then None
      else
        var n := inputs[PickIndex(d.pick, |inputs|)];
        assert n in inputs;
        Some(acts + [Activation(n.id, 0.7 + d.value * 0.3, 0.94 + d.decay * 0.04)])
    else Some(acts)
  }

  /** The stimulus on an open gate appends one activation for the picked
      input neuron. */
  lemma InjectAppends(ns: seq<Neuron>, acts: seq<Activation>, d: InjectDraws, inputs: seq<Neuron>)
    requires d.gate < InjectGate && |acts| < InjectCap
    requires inputs == Filter(ns, IsInput) && |inputs| > 0
    ensures Inject(ns, acts, d)
         == Some(acts + [Activation(inputs[PickIndex(d.pick, |inputs|)].id, 0.7 + d.value * 0.3, 0.94 + d.decay * 0.04)])
  {
  }

  /** When the input neurons are exactly the first `m` neurons, numbered
      from 0, the stimulus lands on neuron `floor(pick * m)`. */
  lemma InjectPicksFromPrefix(ns: seq<Neuron>, m: nat, acts: seq<Activation>, d: InjectDraws)
    requires 0 < m <= |ns|
    requires forall g :: 0 <= g < |ns| ==> (ns[g].layer == 0 <==> g < m)
    requires forall g :: 0 <= g < m ==> ns[g].id == g
    requires d.gate < InjectGate && |acts| < InjectCap
    ensures Inject(ns, acts, d)
         == Some(acts + [Activation(PickIndex(d.pick, m), 0.7 + d.value * 0.3, 0.94 + d.decay * 0.04)])
  {
    FilterPrefix(ns, m, IsInput);
    var inputs := ns[..m];
    InjectAppends(ns, acts, d, inputs);
    assert inputs[PickIndex(d.pick, m)].id == PickIndex(d.pick, m);
  }

  /** In a built network the input neurons are the first `layers[0]`
      neurons, so the stimulus lands on input neuron `floor(pick *
      layers[0])`. */
  lemma InjectOnBuilt(layers: seq<nat>, width: real, height: real, draws: seq<NeuronDraws>,
                      initial: seq<ActivationDraw>, net: Network, acts: seq<Activation>, d: InjectDraws)
    requires |draws| >= Total(layers) && WellShaped(draws)
    requires |initial| >= InitialActiveInputs
    requires Build(layers, width, height, draws, initial) == Some(net)
    requires |layers| > 0 && layers[0] > 0
    requires d.gate < InjectGate && |acts| < InjectCap
    ensures Inject(net.neurons, acts, d)
         == Some(acts + [Activation(PickIndex(d.pick, layers[0]), 0.7 + d.value * 0.3, 0.94 + d.decay * 0.04)])
  {
    BuildInputs(layers, width, height, draws, initial, net);
    InjectPicksFromPrefix(net.neurons, layers[0], acts, d);
  }

  // ---------------------------------------------------------------------
  // One frame

  /** Every random draw one frame consumes. */
  datatype FrameDraws = FrameDraws(deliveries: seq<DeliveryDraw>, fireGate: Unit01, fires: seq<Unit01>, inject: InjectDraws)

  /** Every connection starts at an existing neuron, as the firing pass
      reads the source neuron of every connection. */
  predicate SourcesExist(net: Network)
  {
    forall e :: 0 <= e < |net.connections| ==> 0 <= net.connections[e].from < |net.neurons|
  }

  predicate EnoughDraws(net: Network, d: FrameDraws)
  {
    |d.deliveries| >= |net.connections| && |d.fires| >= |net.connections|
  }

  /** The activations after the delivery pass and decay: what the firing
      pass and the stimulus read. */
  function Settled(net: Network, d: FrameDraws): seq<Activation>
    requires EnoughDraws(net, d)
  {
    Decay(AdvanceAll(net.connections, net.activations, d.deliveries).activations)
  }

  /** One frame: the delivery pass, then decay, then the firing pass on the
      advanced connections (reading the decayed activations), then the input
      stimulus. Each connection ends as its advanced self, switched on with
      progress 0 when it fires; the activations are what the stimulus makes
      of the settled ones: unchanged when its gate is shut or 15 or more
      remain, otherwise followed by one activation on the picked input
      neuron. `None` exactly when the stimulus finds no input neuron. */
  function Frame(net: Network, d: FrameDraws): (r: Option<Network>)
    requires SourcesExist(net) && EnoughDraws(net, d)
    ensures r.None? <==>
      d.inject.gate < InjectGate && |Settled(net, d)| < InjectCap && forall n :: n in net.neurons ==> !IsInput(n)
    ensures r.Some? ==> r.value.neurons == net.neurons && |r.value.connections| == |net.connections|
    ensures r.Some? ==> forall e :: 0 <= e < |net.connections| ==>
      && r.value.connections[e].from == net.connections[e].from
      && r.value.connections[e].to == net.connections[e].to
      && r.value.connections[e].strength == net.connections[e].strength
    ensures r.Some? ==> forall e :: 0 <= e < |net.connections| ==>
      var c := AdvanceOne(net.connections[e]).conn;
      var fired := d.fireGate < FireGate && Fires(net.neurons, c, Settled(net, d), d.fires[e]);
      && r.value.connections[e].active == (c.active || fired)
      && r.value.connections[e].progress == (if fired then 0.0 else c.progress)
    ensures r.Some? ==>
      && |Settled(net, d)| <= |r.value.activations| <= |Settled(net, d)| + 1
      && r.value.activations[..|Settled(net, d)|] == Settled(net, d)
    ensures r.Some? ==> Some(r.value.activations) == Inject(net.neurons, Settled(net, d), d.inject)
    ensures r.Some? && (d.inject.gate >= InjectGate || |Settled(net, d)| >= InjectCap) ==>
      r.value.activations == Settled(net, d)
    ensures r.Some? && d.inject.gate < InjectGate && |Settled(net, d)| < InjectCap ==>
      var s := Settled(net, d);
      var inputs := Filter(net.neurons, IsInput);
      && |inputs| > 0
      && |r.value.activations| == |s| + 1
      && r.value.activations[|s|].neuronId == inputs[PickIndex(d.inject.pick, |inputs|)].id
      && 0.7 <= r.value.activations[|s|].value < 1.0
      && 0.94 <= r.value.activations[|s|].decay < 0.98
  {
    var adv := AdvanceAll(net.connections, net.activations, d.deliveries);
    var decayed := Decay(adv.activations);
    var fired := Fire(net.neurons, adv.connections, decayed, d.fireGate, d.fires);
    var injected := Inject(net.neurons, decayed, d.inject);
    if injected.None? then None else Some(Network(net.neurons, fired, injected.value))
  }

  /** A well-formed activation: value in [0,1) and decay in [0.94,0.99). */
  predicate Live(a: Activation)
  {
    0.0 <= a.value < 1.0 && 0.94 <= a.decay < 0.99
  }

  predicate AllLive(acts: seq<Activation>)
  {
    forall j :: 0 <= j < |acts| ==> Live(acts[j])
  }

  /** What every frame preserves: connections start at existing neurons,
      signals are part-way along, activations are well formed and there are
      at most 21 of them. */
  predicate SignalInv(net: Network)
  {
    && SourcesExist(net)
    && (forall e :: 0 <= e < |net.connections| ==> 0.0 <= net.connections[e].progress < 1.0)
    && AllLive(net.activations)
    && |net.activations| <= DeliveryCap + 1
  }

  /** The builder's output satisfies the invariant, so every frame after it
      does too (`FrameKeepsInv`). */
  lemma BuildEstablishesInv(layers: seq<nat>, width: real, height: real, draws: seq<NeuronDraws>,
                            initial: seq<ActivationDraw>, net: Network)
    requires |draws| >= Total(layers) && WellShaped(draws)
    requires |initial| >= InitialActiveInputs
    requires Build(layers, width, height, draws, initial) == Some(net)
    ensures SignalInv(net)
  {
    BuildEdges(layers, width, height, draws, initial, net);
    BuildActivations(layers, width, height, draws, initial, net);
  }

  lemma DeliverLive(acts: seq<Activation>, to: int, d: DeliveryDraw)
    requires AllLive(acts)
    ensures AllLive(Deliver(acts, to, d))
  {
    var r := Deliver(acts, to, d);
    forall j | 0 <= j < |r| ensures Live(r[j]) {
      if j < |r| - 1 {
        assert r[j] in r[..|r| - 1];
        assert r[j] in acts;
      }
    }
  }

  lemma {:induction false} AdvanceAllLive(cs: seq<Connection>, acts: seq<Activation>, draws: seq<DeliveryDraw>)
    requires |draws| >= |cs|
    requires AllLive(acts)
    ensures AllLive(AdvanceAll(cs, acts, draws).activations)
    decreases |cs|
  {
    if |cs| > 0 {
      var n := |cs| - 1;
      AdvanceAllLive(cs[..n], acts, draws);
      var prev := AdvanceAll(cs[..n], acts, draws);
      if AdvanceOne(cs[n]).delivered {
        DeliverLive(prev.activations, cs[n].to, draws[n]);
        assert AdvanceAll(cs, acts, draws).activations == Deliver(prev.activations, cs[n].to, draws[n]);
      } else {
        assert AdvanceAll(cs, acts, draws).activations == prev.activations;
      }
    }
  }

  lemma DecayLive(acts: seq<Activation>)
    requires AllLive(acts)
    ensures AllLive(Decay(acts))
  {
    var ds := DecayAll(acts);
    forall j | 0 <= j < |ds| ensures Live(ds[j]) {
      assert Live(acts[j]);
    }
    var r := Decay(acts);
    forall j | 0 <= j < |r| ensures Live(r[j]) {
      assert r[j] in ds;
    }
  }

  /** A frame keeps the activations well formed, at most 21 of them, all
      above the pruning floor. */
  lemma FrameActivations(net: Network, d: FrameDraws)
    requires SignalInv(net) && EnoughDraws(net, d)
    ensures var r := Frame(net, d);
      r.Some? ==>
        && |r.value.activations| <= DeliveryCap + 1
        && forall j :: 0 <= j < |r.value.activations| ==>
             Live(r.value.activations[j]) && r.value.activations[j].value > DecayFloor
  {
    var adv := AdvanceAll(net.connections, net.activations, d.deliveries);
    AdvanceAllLive(net.connections, net.activations, d.deliveries);
    var decayed := Decay(adv.activations);
    DecayLive(adv.activations);
    forall j | 0 <= j < |decayed| ensures decayed[j].value > DecayFloor {
      assert decayed[j] in decayed;
    }
  }

  /** A frame keeps every signal part-way along its connection. */
  lemma FrameProgress(net: Network, d: FrameDraws)
    requires SignalInv(net) && EnoughDraws(net, d)
    ensures var r := Frame(net, d);
      r.Some? ==> forall e :: 0 <= e < |r.value.connections| ==> 0.0 <= r.value.connections[e].progress < 1.0
  {
    var adv := AdvanceAll(net.connections, net.activations, d.deliveries);
    var decayed := Decay(adv.activations);
    var fired := Fire(net.neurons, adv.connections, decayed, d.fireGate, d.fires);
    forall e | 0 <= e < |fired| ensures 0.0 <= fired[e].progress < 1.0 {
      assert 0.0 <= adv.connections[e].progress < 1.0;
    }
  }

  /** A frame keeps the invariant; afterwards every activation is above the
      pruning floor. */
  lemma FrameKeepsInv(net: Network, d: FrameDraws)
    requires SignalInv(net) && EnoughDraws(net, d)
    ensures var r := Frame(net, d);
      r.Some? ==> SignalInv(r.value) && forall j :: 0 <= j < |r.value.activations| ==> r.value.activations[j].value > DecayFloor
  {
    FrameActivations(net, d);
    FrameProgress(net, d);
  }
}
